=== FILE: README.md ===
# hermitage, modelled in Dafny

hermitage turns CQEA messages into *invoices* and back. A query or a
write event (a dataclass of typed fields) passes through an adapter that
emits invoice elements: items, clauses and slices. An invoice mounts its
elements under a dotted namespace and keeps four views of them: items,
clauses, rows and meta elements. A query parser walks a query's fields the
same way. It yields one clause per operation and passes each clause
through a chain of mappers. One such mapper is the `ClauseInjector`, which
swaps enum members for stored keys.

This project models:

- the invoice contracts: addresses, namespaces and how they mount,
  `Clause` construction from operands and its AND/OR stack, rows, items,
  invoices and the plugin registry;
- the default notation: items, clauses, clause expressions and buckets;
- the CQEA adapter, with its type-chain search, constraints and
  transformers;
- the `Inject` transformer and the `Exclude` constraint;
- the query parser and the `ClauseInjector` mapper.

Python exceptions are values. An operation that can raise returns an
`Outcome` (`Ok(value)` or `Raise(error)`). A generator that can raise
part-way returns what it yielded so far together with the error that
stopped it.

Module layout:

| file | module | models |
|---|---|---|
| builtins.dfy | Builtins | `str.split`/`join`/`strip`, slicing and indexing as Python resolves them |
| values.dfy | Values | operation bits (`EQ`, `SET`, slices, …), field values |
| namespaces.dfy | Namespaces | `Address`, `Namespace`, `_remove_duplicates`, the mount rule |
| postfix.dfy | Postfix | well-formed postfix sequences (the clause stacks) |
| clauses.dfy | Clauses | `Clause.__init__`/`_distribute`, `&`, `|`, `__iter__` |
| rows.dfy | Rows | `Row` as a class over an ordered key list and a map |
| invoices.dfy | Invoices | `Item`, `Invoice` (a class), its views and the `rows` cache |
| registry.dfy | Registry | `PluginRegistry` (a class) |
| notation.dfy | Notation | `hermitage/notation/default.py` |
| typechains.dfy | TypeChains | `_evoke_types_chain`, `_search_contract` |
| adapter.dfy | Adapter | `Adapter.__call__`, `_parse_query`, `_parse_write_event` |
| transformers.dfy | Transformers | `Inject` |
| constraints.dfy | Constraints | `Exclude` |
| injectors.dfy | Injectors | `ClauseInjector` |
| queryparser.dfy | QueryParsing | `QueryParser` (a class) |

Calls into code outside the core become parameters:

- a class's method resolution order is a function `mro` from a class
  name to the names of its bases;
- a reference table, an injection entity and a constraint's predicate are
  Dafny function values.

## Model

| member | source | states |
|---|---|---|
| Builtins.Split | hermitage/definition/contracts.py:34 | `s.split(sep)` always yields at least one part |
| Builtins.SplitPartsFree | hermitage/definition/contracts.py:34 | no part of a split contains the separator |
| Builtins.SplitFree | hermitage/definition/contracts.py:264-268 | a string without the separator splits into itself alone |
| Builtins.SplitNotFree | hermitage/definition/contracts.py:264-266 | a string holding the separator splits into two or more parts |
| Builtins.SplitCount | hermitage/definition/contracts.py:264-266 | a split has one part exactly when the string holds no separator |
| Builtins.JoinLast | hermitage/definition/contracts.py:266-268 | joining two or more parts is joining all but the last, a separator, then the last |
| Builtins.LastSeparator | hermitage/definition/contracts.py:266-268 | in a string holding the separator, the join of all parts but the last ends just before a separator, and the separator-free last part follows it |
| Builtins.JoinSplit | hermitage/definition/contracts.py:76-77 | joining the parts of a split gives the string back |
| Builtins.SplitJoin | hermitage/definition/contracts.py:76-77 | a non-empty list of separator-free parts survives join then split |
| Builtins.JoinInjective | hermitage/definition/contracts.py:79-80 | two such part lists with the same join are equal |
| Builtins.StripIdempotent | hermitage/definition/contracts.py:34 | stripping twice is stripping once |
| Builtins.StripFree | hermitage/definition/contracts.py:34 | stripping keeps a separator-free string separator-free |
| Builtins.ClampIndex | hermitage/definition/contracts.py:66-71 | a resolved slice bound lies within `[0, len]` |
| Builtins.PySlice | hermitage/definition/contracts.py:66-71 | a slice is never longer than the list it is taken from |
| Builtins.PyIndex | hermitage/definition/contracts.py:60-64 | `s[i]` raises IndexError exactly outside `-len <= i < len`; otherwise it is the element, counted from the end when negative |
| Builtins.SliceDropLast | hermitage/definition/contracts.py:66-71 | `s[:-1]` is `s` without its last element, and empty for an empty list |
| Namespaces.AddressText | hermitage/definition/contracts.py:18-19 | `str(Address(v))` is `v`; `str(Address(None))` raises TypeError |
| Namespaces.Parse | hermitage/definition/contracts.py:33-34 | `""` gives no segments; any other string gives the `.`-split of its stripped text |
| Namespaces.Make | hermitage/definition/contracts.py:29-38 | strings are parsed, sequences kept as given, anything else raises TypeError |
| Namespaces.ParseText | hermitage/definition/contracts.py:33-34 | printing a clean namespace and parsing the text gives it back |
| Namespaces.TextParse | hermitage/definition/contracts.py:76-77 | parsing then printing gives back the stripped string |
| Namespaces.SameIffEqual | hermitage/definition/contracts.py:79-80 | for clean, non-empty namespaces, equal text holds exactly when the segments are equal |
| Namespaces.SameNotEqual | hermitage/definition/contracts.py:79-80 | no segments and one empty segment compare equal, so text equality is coarser than segment equality |
| Namespaces.RemoveDuplicates | hermitage/definition/contracts.py:423-428 | the generator's loop yields `Dedup` of its input |
| Namespaces.DedupShape | hermitage/definition/contracts.py:423-428 | the result has no adjacent repeats, never starts with the previous segment, and keeps exactly the input's segments |
| Namespaces.DedupFixpoint | hermitage/definition/contracts.py:423-428 | a list without adjacent repeats is its own deduplication |
| Namespaces.DedupIdempotent | hermitage/definition/contracts.py:423-428 | deduplicating twice is deduplicating once |
| Namespaces.ConcatStripped | hermitage/definition/contracts.py:40-47 | with both sides non-empty, `a + b` is the joined segments with adjacent repeats collapsed |
| Namespaces.ConcatExamples | hermitage/definition/contracts.py:40-47 | "a.b" + "b.c" is "a.b.c", and a run inside one side collapses too |
| Namespaces.ConcatNonEmpty | hermitage/definition/contracts.py:40-47 | when either side is non-empty, the sum is non-empty |
| Namespaces.ConcatAbsorbs | hermitage/definition/contracts.py:40-47 | prefixing twice with the same single segment is prefixing once |
| Namespaces.At | hermitage/definition/contracts.py:53-55 | `ns[i]` is None from `len` on and raises IndexError below `-len`; a non-negative index gives segment `i` and a negative one gives segment `len + i`, both re-parsed |
| Namespaces.First | hermitage/definition/contracts.py:60-61 | `first()` is the first segment re-parsed, and raises IndexError when there are no segments |
| Namespaces.Last | hermitage/definition/contracts.py:63-64 | `last()` is the last segment re-parsed, and raises IndexError when there are no segments |
| Namespaces.PartDropsLast | hermitage/definition/contracts.py:66-71 | `part(-1)` of a clean namespace is the namespace without its last segment |
| Namespaces.ParseSegment | hermitage/definition/contracts.py:49-51 | re-parsing a dot-free segment gives at most one stripped segment |
| Namespaces.EffectiveRule | hermitage/definition/contracts.py:91-99 | mounting: no fixed namespace takes the invoice namespace; otherwise the invoice namespace without its last segment (when it has two or more) plus the fixed one |
| Namespaces.EffectiveDropsMountPoint | hermitage/definition/contracts.py:91-99 | "tasks.detail" with the fixed namespace "audit" mounts at "tasks.audit" |
| Postfix.OperandsOutnumberOperators | hermitage/definition/contracts.py:250-258 | a well-formed postfix sequence has exactly one more operand than operators |
| Postfix.Combine | hermitage/definition/contracts.py:236-248 | two well-formed sequences followed by an operator form a well-formed sequence |
| Clauses.Expand | hermitage/definition/contracts.py:263-269 | a dot-free string becomes one address; a dotted string is cut at its last dot into the namespace parsed from the text before it, then the address of the dot-free text after it; any other operand passes unchanged |
| Clauses.Distribute | hermitage/definition/contracts.py:260-278 | the constructor's pop loop builds exactly `Build(operands)` |
| Clauses.Consume | hermitage/definition/contracts.py:270-277 | the operand's kind decides which attribute changes: an address replaces the address only; a namespace the fixed namespace only; a bit the operation only; a logical operator sets the operation and is pushed on the stack; a sub-clause is pushed only; anything else leaves the clause as it is; the given namespace never changes |
| Clauses.PushParts | hermitage/definition/contracts.py:264-268 | a popped string goes back on the deque as an address, or as an address and then a namespace |
| Clauses.PopLast | hermitage/definition/contracts.py:261-262 | popping the last operand: its expansion takes effect before the rest of the deque |
| Clauses.PushOne | hermitage/definition/contracts.py:268 | one pushed-back operand is popped next |
| Clauses.PushTwo | hermitage/definition/contracts.py:265-266 | two pushed-back operands are popped in reverse order |
| Clauses.LeftmostOperandLast | hermitage/definition/contracts.py:260-262 | the leftmost operand is consumed last, so what it sets overrides operands to its right |
| Clauses.LeftmostAddressWins | hermitage/definition/contracts.py:270-271 | an address given first wins over every later address |
| Clauses.PlainTextOperand | hermitage/definition/contracts.py:267-268 | a dot-free string operand becomes the clause's address |
| Clauses.DottedOperand | hermitage/definition/contracts.py:264-266 | a dotted string "a.b.c" gives the fixed namespace "a.b" and the address "c" |
| Clauses.JunctShape | hermitage/definition/contracts.py:236-248 | `a & b` / `a | b` stacks b, then a, then the operator, with the operator as operation |
| Clauses.IterJunct | hermitage/definition/contracts.py:250-258 | `a & b` of simple clauses iterates as b, a, operator |
| Clauses.IterExamples | hermitage/definition/contracts.py:250-258 | `(a & b) & c` yields c, b, a, AND, AND: nesting flattens whatever the operator |
| Clauses.IterPostfix | hermitage/definition/contracts.py:236-258 | iterating any `&`/`|` tree of simple clauses yields well-formed postfix holding the simple clauses right to left |
| Rows.KeptStep | hermitage/definition/contracts.py:179-183 | deleting keys one after another removes them all at once |
| Rows.Row.constructor | hermitage/definition/contracts.py:170-172 | a row holds the given distinct keys with their values, in order |
| Rows.Row.Get | hermitage/definition/contracts.py:193-194 | `row[key]` is the stored value, or None for an absent key |
| Rows.Row.Length | hermitage/definition/contracts.py:196-197 | `len(row)` is the number of keys |
| Rows.Row.Update | hermitage/definition/contracts.py:174-177 | only a present key changes value; keys and their order stay |
| Rows.Row.Insert | hermitage/definition/contracts.py:185-188 | only an absent key is added, at the end; present values stay |
| Rows.Row.SetItem | hermitage/definition/contracts.py:190-191 | overwrites a present key in place, or appends a new one |
| Rows.Row.DeleteKey | hermitage/definition/contracts.py:180-182 | one round of `delete` removes the key if present and keeps the order of the rest |
| Rows.Row.Delete | hermitage/definition/contracts.py:179-183 | every listed key that is present goes; missing ones are ignored; the rest keep order and values |
| Invoices.LastOfIsLast | hermitage/definition/contracts.py:157-166 | an `Item` argument slot is unset when no argument sets it, and otherwise is set by the last argument that does |
| Invoices.NewItem | hermitage/definition/contracts.py:157-166 | `Item(name, *args)`: address, nested invoice and fixed namespace come from the last argument of each kind; other arguments are ignored |
| Invoices.MountItem | hermitage/definition/contracts.py:131-137 | mounting sets the effective namespace and nothing else of the item; without a nested invoice that is all; with one, an empty namespace raises IndexError and leaves the invoice as it was, and otherwise the nested invoice and the error are exactly those of `Redistribute` under the item's first segment plus the nested invoice's own namespace |
| Invoices.MountClause | hermitage/definition/contracts.py:91-99 | a clause gets the effective namespace and keeps everything else |
| Invoices.MountMeta | hermitage/definition/contracts.py:91-99 | a meta element gets the effective namespace and keeps everything else |
| Invoices.Place | hermitage/definition/contracts.py:348-363 | one element, by kind: an item is mounted and, unless its nested invoice raised, is the one entry of the items view, the error being the mount's; a string adds its mounted item; a clause or meta element is mounted and is the one entry of its view; a row goes to the rows view unmounted; anything else adds nothing |
| Invoices.Walk | hermitage/definition/contracts.py:345-346 | the loop keeps every view mounted, raises only IndexError and only through nested invoices, leaves the elements before its start alone, collects the row elements in order, and adds one entry per distributable element |
| Invoices.WalkMounts | hermitage/definition/contracts.py:345-352 | a loop that did not raise leaves every element it visited mounted as `_distribute_element` mounts it |
| Invoices.WalkViews | hermitage/definition/contracts.py:345-363 | a loop that did not raise appends to each of the items, clauses and meta views exactly what the mounted elements hold of that kind, in order |
| Invoices.PlacedItems | hermitage/definition/contracts.py:352-355 | for elements mounted one by one, the items they hold (a string standing for its item) are the given items, each mounted, in order |
| Invoices.PlacedClauses | hermitage/definition/contracts.py:359-361 | for elements mounted one by one, the clauses they hold are the given clauses, each mounted under the namespace, in order |
| Invoices.PlacedMeta | hermitage/definition/contracts.py:356-358 | for elements mounted one by one, the meta elements they hold are the given ones, each mounted under the namespace, in order |
| Invoices.DistributedViews | hermitage/definition/contracts.py:340-363 | after a rebuild that did not raise, every element is mounted, and the items, clauses, meta and rows views are exactly the given elements of each kind, in order, each mounted (items with their nested invoice re-mounted; rows as given) |
| Invoices.WalkStep | hermitage/definition/contracts.py:345-346 | one step of the loop places one element and stops at an error |
| Invoices.DistributeAll | hermitage/definition/contracts.py:340-346 | the `while` loop over the elements computes the walk from empty views |
| Invoices.RedistributeWalks | hermitage/definition/contracts.py:340-346 | rebuilding the views is the walk from the first element with empty views |
| Invoices.PlaceCounts | hermitage/definition/contracts.py:348-363 | placing one element adds its row, if it is one, and one view entry unless it is of no kind |
| Invoices.Redistribute | hermitage/definition/contracts.py:320-346 | setting a namespace keeps the element count, mounts every view under it, raises only IndexError from a nested invoice, and on success holds exactly the row elements as rows and one view entry per distributable element |
| Invoices.Remount | hermitage/definition/contracts.py:320-327 | a Namespace argument re-mounts everything; any other argument, a string included, changes nothing |
| Invoices.AddressEquals | hermitage/definition/contracts.py:24-25 | comparing two addresses raises AttributeError exactly when one side is missing; otherwise equal means the same address |
| Invoices.AnyAddressFound | hermitage/definition/contracts.py:334 | over addressed items, the duplicate check answers whether some item has the address |
| Invoices.DuplicateAddIsNoop | hermitage/definition/contracts.py:333-335 | adding an item whose address is taken leaves the invoice unchanged |
| Invoices.FreshAddAppends | hermitage/definition/contracts.py:333-338 | adding an item with a new address, with or without a nested invoice, appends it as `set_namespace` mounts it (a nested invoice re-mounted under the item's first segment) to the elements and to the items, whenever that mount does not raise |
| Invoices.TextAddAppends | hermitage/definition/contracts.py:333-338 | a string is never checked against the items: it is appended, and a mounted item for it joins the items |
| Invoices.MissingAddressRaises | hermitage/definition/contracts.py:334 | an item without address, added where the first item has one, raises AttributeError and changes nothing |
| Invoices.PlusKeepsMounted | hermitage/definition/contracts.py:333-338 | adding keeps the namespace and every view mounted under it |
| Invoices.RemountIsStable | hermitage/definition/contracts.py:131-137 | mounting an item twice under the same namespace leaves its nested invoice where the first mount put it |
| Invoices.RowsAreTheRowElements | hermitage/definition/contracts.py:340-346 | after a successful rebuild, the rows view holds exactly the row elements, in order |
| Invoices.RowsOfMembers | hermitage/definition/contracts.py:362-363 | a row is in the rows collected from a list exactly when it is a row element of the list |
| Invoices.EntriesCount | hermitage/definition/contracts.py:329-331 | after a successful rebuild, iteration yields one entry per distributable element |
| Invoices.EntriesOrder | hermitage/definition/contracts.py:329-331 | iteration is exactly the items, then the clauses, then the rows, then the meta elements, each block in its view's order |
| Invoices.CurrentRows | hermitage/definition/contracts.py:317-318 | the rows the invoice currently holds, each of them yielded by iteration (corrected `rows`) |
| Invoices.RedistributeReadsElements | hermitage/definition/contracts.py:320-327 | re-mounting does not depend on the namespace the invoice had before |
| Invoices.StaleRowsAfterRemount | hermitage/definition/contracts.py:316-346 | read `rows`, re-mount, add a row: the cached list misses the new row, which iteration yields |
| Invoices.Invoice.Init | hermitage/definition/contracts.py:287-294 | the attributes `__init__` sets before distributing: the namespace and the elements as given, every view empty and nothing cached; `Create` then distributes them |
| Invoices.Invoice.Create | hermitage/definition/contracts.py:287-295 | a string namespace is parsed first; an element that raises aborts construction |
| Invoices.Invoice.DistributeElements | hermitage/definition/contracts.py:340-346 | the object's new state is `Redistribute` of its old state |
| Invoices.Invoice.SetNamespace | hermitage/definition/contracts.py:320-327 | the object's new state is `Remount` of its old state |
| Invoices.Invoice.Add | hermitage/definition/contracts.py:333-338 | the object's new state is `Plus` of its old state |
| Invoices.Invoice.Iterate | hermitage/definition/contracts.py:329-331 | position by position: entry `i` is item `i`, then clause entries follow the items, row entries the clauses and meta entries the rows, every row included |
| Invoices.Invoice.ReadRows | hermitage/definition/contracts.py:316-318 | the first read caches the rows view of that moment; later reads return the cache |
| Registry.Registered | hermitage/definition/contracts.py:397-401 | the keys are exactly the given beacons, each mapped to a plugin with that beacon |
| Registry.FirstSeen | hermitage/definition/contracts.py:397-401 | the key order holds exactly the given beacons |
| Registry.LastWins | hermitage/definition/contracts.py:397-401 | the plugin registered for a beacon is the last one given with that beacon |
| Registry.RepeatKeepsOrder | hermitage/definition/contracts.py:397-401 | a repeated beacon does not move its key |
| Registry.PluginRegistry.constructor | hermitage/definition/contracts.py:397-401 | the registry holds the dictionary the comprehension builds |
| Registry.PluginRegistry.Get | hermitage/definition/contracts.py:403-404 | `get` is None exactly for a beacon nobody registered |
| Registry.PluginRegistry.GetItem | hermitage/definition/contracts.py:419-421 | `registry[key]` raises KeyError exactly for a beacon nobody registered |
| Registry.PluginRegistry.Keys | hermitage/definition/contracts.py:409-417 | every registered beacon exactly once, in order of first registration |
| Registry.PluginRegistry.Values | hermitage/definition/contracts.py:412-413 | the plugins, in key order |
| Registry.DistinctBeacons | hermitage/definition/contracts.py:397-401 | plugins with distinct beacons are each held under their beacon, in the given order |
| Notation.Merge | hermitage/notation/default.py:87-91 | a new expression: this stack, then a clause as one operand or another expression's whole stack, then the operator; None for an operand that is neither clause nor expression |
| Notation.ClauseJoin | hermitage/notation/default.py:46-58 | `clause & x`: with a clause, both clauses then the operator; with an expression, the expression's merge with this clause |
| Notation.ClauseEquals | hermitage/notation/default.py:60-63 | comparing with a non-clause raises TypeError; two clauses are equal exactly when their names are equal |
| Notation.Combine | hermitage/notation/default.py:75-79 | `&` and `|` on expressions and clauses never fail |
| Notation.CombineWellFormed | hermitage/notation/default.py:75-91 | one `&` or `|` keeps the stack well-formed and carries over the clauses of both sides |
| Notation.EvalWellFormed | hermitage/notation/default.py:46-91 | however clauses are combined, the stack is well-formed postfix holding every clause of the expression |
| Notation.ClausesOutnumberOperators | hermitage/notation/default.py:72-91 | such a stack has one more clause than operators |
| Notation.PayloadEquals | hermitage/notation/default.py:60-63 | a mapping value against another: clause against clause by name; a clause against anything else raises TypeError, on either side; two items exactly as `Item.__eq__` compares them; any other pair as values |
| Notation.PlainMappingsCompareAsMaps | hermitage/notation/default.py:34-38 | two mappings of plain values, as a write event's item holds, are equal exactly when they map the same keys to the same values |
| Notation.ItemEquals | hermitage/notation/default.py:34-38 | `Item.__eq__`: two strings as strings; a string never equals a mapping; equal mappings have the same keys; only a value comparison can raise, and then with TypeError |
| Notation.PayloadEqualsReflexive | hermitage/notation/default.py:60-63 | every mapping value equals itself, clauses included |
| Notation.ItemEqualsReflexive | hermitage/notation/default.py:34-38 | every item equals itself |
| Notation.Found | hermitage/notation/default.py:142 | the scan over held items: true only when some held item is equal, false only when every held item is unequal, and otherwise the TypeError of a comparison |
| Notation.FoundAppend | hermitage/notation/default.py:142 | scanning a list with one more element goes on to that element only when the shorter list gave false |
| Notation.FoundHeld | hermitage/notation/default.py:140-145 | an item already held is never scanned as absent |
| Notation.AddTwice | hermitage/notation/default.py:140-145 | adding the same item twice, when the first add did not raise, is adding it once |
| Notation.AddedHolds | hermitage/notation/default.py:140-145 | after an add that did not raise, the scan finds the item in the bucket, and what it held before is still there, in order |
| Notation.AddedDropsEqualItems | hermitage/notation/default.py:140-145 | an item is dropped, changing nothing, exactly when the scan finds an equal one; it is appended when the scan finds none, and the add raises TypeError when the scan does; an item already held is never appended again; any non-item is appended |
| Notation.MappingOrderIgnored | hermitage/notation/default.py:34-38 | mappings written in different key order are equal, and text never equals a mapping |
| Notation.ClauseValuesCompareByName | hermitage/notation/default.py:140-145 | a bucket holding `Item({k: a})` drops `Item({k: b})` when clauses `a` and `b` share a name, whatever their operations, and appends it otherwise; `Item({k: value})` with a plain value raises TypeError |
| Notation.Bucket.constructor | hermitage/notation/default.py:95-105 | the elements are kept as given, duplicates included, with no qualifier or label |
| Notation.Bucket.Address | hermitage/notation/default.py:111-112 | the qualifier when set, the name otherwise |
| Notation.Bucket.QualifiedName | hermitage/notation/default.py:115-121 | name, qualifier and label joined by colons, empty parts kept: splitting at the colons gives the three parts back |
| Notation.Bucket.SubstitutionName | hermitage/notation/default.py:124-129 | the label, else the qualifier, else the name |
| Notation.Bucket.GetQua | hermitage/notation/default.py:131-132 | None while no qualifier is set |
| Notation.Bucket.GetLabel | hermitage/notation/default.py:134-135 | None while no label is set |
| Notation.Bucket.Qua | hermitage/notation/default.py:147-149 | sets the qualifier, nothing else |
| Notation.Bucket.Label | hermitage/notation/default.py:151-156 | sets the label unless it equals the bucket's name |
| Notation.Bucket.Add | hermitage/notation/default.py:140-145 | the new elements are `Added` of the old, and a comparison that raises is returned with the elements unchanged |
| Notation.Bucket.Iterate | hermitage/notation/default.py:137-138 | the elements in the order given and added |
| TypeChains.Evoke | hermitage/adapters/cqea.py:110-125 | a non-generic annotation as it is (a missing one as Empty); a generic starts with its origin, one with one argument continues with that argument's chain spliced in (a non-generic argument as one entry), and one with other than one argument carries the tuple of its arguments' chains |
| TypeChains.TowerFlattens | hermitage/adapters/cqea.py:115-122 | nested one-argument generics unroll into one flat chain |
| TypeChains.Search | hermitage/adapters/cqea.py:128-145 | None when Callable is at this level; anything found is the needle or derives from it |
| TypeChains.SearchIsFirstCandidate | hermitage/adapters/cqea.py:128-145 | the search returns the first matching candidate in depth-first order |
| TypeChains.OptionalClauseBit | hermitage/adapters/cqea.py:110-145 | `ClauseBit[T] | None` is operation-bearing |
| TypeChains.CallableNeverBears | hermitage/adapters/cqea.py:133-134 | a `Callable[...]` annotation is never operation-bearing |
| Values.Members | hermitage/adapters/cqea.py:50-52 | a tuple's members are its items and a string's its characters; anything that is not a sequence is one member |
| Values.MapValues | hermitage/mappers/invoice.py:34-36 | `[f(v) for v in vs]`: same length, element-wise image |
| Adapter.ForField | hermitage/adapters/cqea.py:27-29 | the modifiers kept for a field are all registered for that field |
| Adapter.GroupLookup | hermitage/adapters/cqea.py:27-29 | each field name gets exactly its modifiers, in registration order |
| Adapter.Index | hermitage/adapters/cqea.py:27-29 | the indexing loop builds that grouping |
| Adapter.Declined | hermitage/adapters/cqea.py:73-81 | declined exactly when some constraint for the field declines the value; other modifiers never do |
| Adapter.FoldIgnoresOthers | hermitage/adapters/cqea.py:84-94 | constraints and other modifiers take no part in the transformer fold |
| Adapter.ApplyTransformers | hermitage/adapters/cqea.py:84-94 | the loop applies the field's transformers in order |
| Adapter.ParseMembers | hermitage/adapters/cqea.py:52-61 | each member as a slice or a clause, passed through the field's transformers |
| Adapter.ParseField | hermitage/adapters/cqea.py:41-70 | one field's elements |
| Adapter.ParseQuery | hermitage/adapters/cqea.py:35-70 | every field's elements, field by field |
| Adapter.PlainField | hermitage/adapters/cqea.py:62-70 | a plain field yields one transformed `EQ` clause of its value |
| Adapter.SingleOperation | hermitage/adapters/cqea.py:50-51 | an operation-bearing field whose value is not a sequence yields one element |
| Adapter.SkippedField | hermitage/adapters/cqea.py:42-45 | a declined or Empty field yields nothing |
| Adapter.EventDataContents | hermitage/adapters/cqea.py:96-107 | the write event mapping holds exactly the fields that are not declined, transformed |
| Adapter.ParseWriteEvent | hermitage/adapters/cqea.py:96-107 | a single item holding that mapping |
| Adapter.Call | hermitage/adapters/cqea.py:22-33 | a query gives its elements, a write event its item, anything else None |
| Adapter.OneElementEach | hermitage/adapters/cqea.py:35-70 | fields that each yield one element give one element per field, in field order |
| Adapter.BitFieldYieldsOne | hermitage/adapters/cqea.py:50-61 | an operation-bearing field holding one bit yields that bit's element when no modifier is registered |
| Adapter.GetTasksYieldsFive | tests/adapters/test_cqea.py:9-22 | the GetTasks query yields exactly five elements, the last being the Limit slice |
| Transformers.Target | hermitage/adapters/transformers.py:9-17 | the injection field, or the field name when it is absent or empty |
| Transformers.ApplyValue | hermitage/adapters/transformers.py:19-22 | a callable entity is applied; anything else passes the value through |
| Transformers.OperationOf | hermitage/adapters/transformers.py:24-26 | clauses and slices have an operation; plain values raise AttributeError |
| Transformers.Rewritten | hermitage/adapters/transformers.py:26-35 | a SET is mapped member by member; any other bit keeps its kind around its mapped value; a non-bit raises AttributeError |
| Transformers.Apply | hermitage/adapters/transformers.py:24-36 | succeeds exactly when there is a bit operation; the result is a clause named after the target, holding the rewritten operation |
| Transformers.InertOnlyRenames | hermitage/adapters/transformers.py:19-36 | a non-callable entity only renames the clause |
| Transformers.SliceBecomesClause | hermitage/adapters/transformers.py:24-36 | a slice comes out as a clause |
| Transformers.KeyOfFirst | tests/adapters/definitions.py:25-32 | the reference returns the key of the first pair holding the member, and None when no pair holds it |
| Transformers.InjectStates | tests/adapters/test_transformers.py:8-21 | injecting the state reference into `SET(new, done)` gives the clause "state_id" holding `SET(1, 3)` |
| Constraints.DeclinesExactlyListed | hermitage/adapters/constraints.py:4-9 | `Exclude` declines exactly the listed names, whatever the value, and nothing when none is listed |
| Constraints.OnlyTheNameSetMatters | hermitage/adapters/constraints.py:5-6 | constraints over the same set of names answer alike |
| Injectors.AddressString | hermitage/mappers/invoice.py:31 | `str(clause.address)`: "None" with no address; `Address(None)` raises TypeError |
| Injectors.JunctionOf | hermitage/mappers/invoice.py:38 | `LogicalOperator(v)` succeeds exactly for the member values 1 and 2, and raises ValueError otherwise |
| Injectors.Translated | hermitage/mappers/invoice.py:32-38 | a SET is mapped member by member; any other bit keeps its kind around its mapped value; a logical operator becomes the operator its mapped value names, and raises that lookup's error when it names none; no operation raises AttributeError |
| Injectors.AddressAndOperation | hermitage/mappers/invoice.py:39-41 | `Clause(Address(key), op)` applies the operation, then the address |
| Injectors.Inject | hermitage/mappers/invoice.py:30-43 | a clause not addressed by the search key is returned as it is; a matching one is rebuilt with the injection address, the translated operation and the old namespace; a rebuilt logical clause's stack is its translated operator alone, the sub-clauses being dropped |
| Injectors.InjectSettles | hermitage/mappers/invoice.py:30-43 | with an injection key unlike the search key, injecting twice is injecting once |
| Injectors.OtherClausesUntouched | hermitage/mappers/invoice.py:31 | a clause addressed by another key comes back unchanged |
| Injectors.MissingKeyBreaksChaining | hermitage/mappers/invoice.py:39-42 | without an injection key, the rebuilt clause makes any later injector raise TypeError |
| QueryParsing.Then | hermitage/parsers/query.py:24-45 | running a generator part after another: nothing of the second happens once the first has raised |
| QueryParsing.ThenAssociates | hermitage/parsers/query.py:24-45 | sequencing generator parts is associative |
| QueryParsing.MappedAppend | hermitage/parsers/query.py:47-51 | mapping by `a + b` is mapping by `a`, then by `b` |
| QueryParsing.FieldValue | hermitage/parsers/query.py:44 | `getattr(query, name)` raises AttributeError exactly when no field has that name; otherwise it is that field's value |
| QueryParsing.MembersStop | hermitage/parsers/query.py:38-40 | once a member's mappers have raised, the later members change nothing |
| QueryParsing.QueryStops | hermitage/parsers/query.py:27-45 | once a field has raised, the later fields change nothing |
| QueryParsing.QueryParser.constructor | hermitage/parsers/query.py:11-14 | no mappers, no substitutes |
| QueryParsing.QueryParser.Map | hermitage/parsers/query.py:16-18 | replaces the mappers, it does not add to them |
| QueryParsing.QueryParser.Sub | hermitage/parsers/query.py:20-22 | records one substitution, leaving the others |
| QueryParsing.QueryParser.ApplyMappers | hermitage/parsers/query.py:47-51 | the loop applies the mappers in order, stopping at a raise |
| QueryParsing.QueryParser.EmitMembers | hermitage/parsers/query.py:36-40 | the member clauses, each through the mappers, until one raises |
| QueryParsing.QueryParser.EmitField | hermitage/parsers/query.py:28-45 | one field: skipped when None, its members when operation-bearing, else one equality clause |
| QueryParsing.QueryParser.Iterate | hermitage/parsers/query.py:24-45 | no query yields nothing; otherwise the clauses yielded and the error that stopped the generator |
| QueryParsing.MembersWithoutMappers | hermitage/parsers/query.py:38-40 | without mappers nothing raises, and each member becomes its own clause, in order |
| QueryParsing.RenamedAddresses | hermitage/parsers/query.py:28-45 | without mappers, every clause a field yields is addressed by its substituted name |
| QueryParsing.SubRenames | hermitage/parsers/query.py:20-22 | after `sub(s, t)`, the clauses of field `s` are addressed by `t` |
| QueryParsing.SubstitutedPlainFieldRaises | hermitage/parsers/query.py:42-45 | a plain field is read under its substituted name; when no field has that name, iteration raises AttributeError and yields nothing for it |
| QueryParsing.PlainFieldYieldsEquality | hermitage/parsers/query.py:40-45 | any non-None field of a type with no query bit, in a query with distinct field names, gives exactly one unmapped `EQ` clause on its own value and raises nothing |
| QueryParsing.NoneFieldSkipped | hermitage/parsers/query.py:30-31 | a field holding None yields nothing and raises nothing, whatever its type, substitutes or mappers |
| QueryParsing.SliceMemberIsClause | hermitage/parsers/query.py:38-40 | a slice member becomes a clause like any other bit |
| QueryParsing.InjectorAsMapper | hermitage/mappers/invoice.py:30-43 | a `ClauseInjector` as the only mapper rewrites its field's clause to the injection key and the reference's value |
| QueryParsing.NameKeepsOperation | hermitage/definition/contracts.py:260-278 | a field name, dotted or not, sets only the address and the fixed namespace |
| QueryParsing.BitAlone | hermitage/definition/contracts.py:274-275 | `Clause(bit)` alone sets only the operation |
| QueryParsing.OperationOfBit | hermitage/parsers/query.py:39 | the clause of a bit member carries that bit as its operation |

## Left out

- Object identity and aliasing: items, nested invoices and clauses are values. Mutating an element that two invoices share is not modelled. The nested invoice an item mounts is re-mounted as a value.
- Hashing: `Address.__hash__`, `Namespace.__hash__` and `Item.__hash__` use uuid5. Hashes are not modelled; equality is.
- Generator laziness: a generator is modelled by everything it yields up to the first exception. Interleaving with a consumer that stops early is not captured.
- Methods that `return self` for chaining (`Row.update`, `Bucket.qua`, `QueryParser.map`, …) update the object; the returned alias is not modelled.
- The `View` class, `Total`/`Upsert`, the notation `Invoice`, and the `ReadPlugin`/`WritePlugin` hooks: abstract or I/O-bound, with no logic in the core. `PluginRegistry.items()` is covered by `Keys` and `Values` together.
- `Row.__iter__` and `as_dict` are not modelled separately; `Rows.Row` exposes its ordered keys and its map directly.
- `str.strip` removes the ASCII whitespace `str.isspace` accepts: space, `\t`, `\n`, `\v`, `\f`, `\r` and `\x1c`–`\x1f`. It does not remove `\x85`, `\xa0` or other non-ASCII Unicode spaces.
- `getattr` reaches the query's dataclass fields only, not methods or class attributes. `typing` forward references written as strings are not modelled.
- Exceptions raised inside a user-supplied modifier or mapper are modelled for mappers in the query parser, which may raise. Transformers in the adapter are folded as total functions. `Transformers.Apply` is not registered as an adapter modifier, because the adapter's fold is total.
- `Exclude` is modelled on its own. It takes `(name, value)` and has no `field_name`, so it is not a `ConstraintContract`, and the adapter cannot use it as one.
- Transformers.Rewritten: an operation that is not a bit raises AttributeError. An enum value's `.value` is not modelled.
- Injectors.JunctionOf: Python's `True == 1` is not modelled; only integer member values name an operator.
- Item content in the write event is a map keyed by field name. Dictionary insertion order is not modelled.
- Notation.ItemEquals: Python compares two mappings key by key in insertion order. When one key's values differ and another key's comparison raises, Python raises only if the raising key comes first. The model always raises in that case, because it does not keep insertion order.
- Notation.PayloadEquals: lists and tuples are both a `Tuple`, so `[1] == (1,)` is taken as true. `True == 1` is not modelled. Expressions and buckets, which Python compares by identity, are compared by value. The `x is y` shortcut of container comparison is not modelled.
- An enum member that mixes in `str`, such as `TaskState(str, enum.Enum)`, is a string to Python, so it is a `Sequence` of characters and a string operand. The model does not tell it apart from a plain enum member. Given directly as a field value or operand, it must be written as `Text` to get Python's behaviour. The worked examples write `TaskState` members as `Atom`s only inside a `SET`, where their string nature plays no part.
- QueryParsing.QueryParser.Iterate: `if not self._query` treats only a missing query as false. A dataclass query defining `__bool__` or `__len__` is not modelled.
- Behaviour of the code a reader might not expect, which the model keeps:
  - `part(-1)` drops the last segment;
  - `_remove_duplicates` collapses every adjacent run, not only the join point;
  - a `SET` is not a `Sequence`, so GetTasks yields five elements;
  - the registry keeps the last plugin per beacon;
  - an unknown message makes the adapter return None;
  - `Clause.__eq__` with a non-clause raises TypeError;
  - `str(Address(None))` raises TypeError;
  - the query parser reads a plain field under its substituted name.

## Findings

| source | as written | input that shows it | evidently intended | confidence | as-written member | corrected member |
|---|---|---|---|---|---|---|
| hermitage/definition/contracts.py:316-346 | `rows` is a `functools.cached_property`, while `_distribute_elements` replaces `_rows` with a new list on every re-mount | an invoice with one row: read `invoice.rows`, then `set_namespace(ns)`, then `invoice + other_row`; `rows` still lists only the first row, while iteration yields both | `rows` returns the rows view the invoice currently holds, like `items`, `clauses` and `meta` | not executed | Invoices.CachedRows, Invoices.StaleRowsAfterRemount | Invoices.CurrentRows |

=== FILE: adapter.dfy ===
/**
  The CQEA adapter (hermitage/adapters/cqea.py): turns a query message into
  notation clauses and slices, one per field or per member of an
  operation-bearing field, and a write event into a single item holding the
  event's fields; per-field modifiers can decline a field (constraints) or
  rewrite what it produces (transformers).

  A message is given as its dataclass fields in declaration order; modifiers
  are total functions (what happens when one raises is not modelled).
 */
module Adapter {
  import opened Builtins
  import opened Values
  import opened TypeChains
  import opened Notation

  /** A `ModifierContract`: a constraint, a transformer, or another subclass the adapter ignores. */
  datatype Modifier =
    | Constraint(fieldName: string, declines: Value -> bool)
    | Transformer(fieldName: string, rewrite: Payload -> Payload)
    | Untyped(fieldName: string)

  /** A dataclass field of a message: its name, its annotation and the value it holds. */
  datatype Field = Field(name: string, typ: TypeExpr, value: Value)

  datatype Message = Query(fields: seq<Field>) | WriteEvent(fields: seq<Field>) | Unknown

  // ---------------------------------------------------------------------------
  // Grouping the modifiers by field name
  // ---------------------------------------------------------------------------

  /** The modifiers registered for `name`, in registration order. */
  function ForField(mods: seq<Modifier>, name: string): (r: seq<Modifier>)
    ensures |r| <= |mods|
    ensures forall i :: 0 <= i < |r| ==> r[i].fieldName == name
  {
    if mods == [] then []
    else
      var last := mods[|mods| - 1];
      ForField(mods[..|mods| - 1], name) + (if last.fieldName == name then [last] else [])
  }

  function Names(mods: seq<Modifier>): set<string>
  {
    set i | 0 <= i < |mods| :: mods[i].fieldName
  }

  /** `modifiers.get(name, ())`. */
  function Lookup(idx: map<string, seq<Modifier>>, name: string): seq<Modifier>
  {
    if name in idx then idx[name] else []
  }

  /** The `defaultdict(list)` the adapter fills. */
  function Group(mods: seq<Modifier>): map<string, seq<Modifier>>
  {
    map name | name in Names(mods) :: ForField(mods, name)
  }

  lemma {:induction false} ForFieldAbsent(mods: seq<Modifier>, name: string)
    requires name !in Names(mods)
    ensures ForField(mods, name) == []
  {
    if mods != [] {
      var front := mods[..|mods| - 1];
      assert Names(front) <= Names(mods) by {
        forall n | n in Names(front) ensures n in Names(mods) {
          var i :| 0 <= i < |front| && front[i].fieldName == n;
          assert mods[i] == front[i];
        }
      }
      ForFieldAbsent(front, name);
      assert mods[|mods| - 1].fieldName in Names(mods);
    }
  }

  /** Every field name gets exactly the modifiers registered for it, in order; other names get none. */
  lemma GroupLookup(mods: seq<Modifier>, name: string)
    ensures Lookup(Group(mods), name) == ForField(mods, name)
  {
    if name !in Names(mods) {
      ForFieldAbsent(mods, name);
    } else {
      assert name in Group(mods) && Group(mods)[name] == ForField(mods, name);
    }
  }

  lemma GroupStep(mods: seq<Modifier>, i: nat)
    requires i < |mods|
    ensures var g := Group(mods[..i]);
            var m := mods[i];
            Group(mods[..i + 1]) == g[m.fieldName := Lookup(g, m.fieldName) + [m]]
  {
    var g := Group(mods[..i]);
    var m := mods[i];
    var front := mods[..i + 1];
    assert front[..i] == mods[..i];
    assert Names(front) == Names(mods[..i]) + {m.fieldName} by {
      forall n | n in Names(front) ensures n in Names(mods[..i]) + {m.fieldName} {
        var j :| 0 <= j < |front| && front[j].fieldName == n;
        if j < i {
          assert mods[..i][j] == front[j];
        }
      }
      forall n | n in Names(mods[..i]) ensures n in Names(front) {
        var j :| 0 <= j < i && mods[..i][j].fieldName == n;
        assert front[j] == mods[..i][j];
      }
      assert front[i] == m;
    }
    var updated := g[m.fieldName := Lookup(g, m.fieldName) + [m]];
    assert front[..|front| - 1] == mods[..i] && front[|front| - 1] == m;
    forall n | n in Names(front) ensures Group(front)[n] == updated[n] {
      GroupLookup(mods[..i], n);
    }
  }

  /** `for modifier in modifiers: indexed[modifier.field_name].append(modifier)`. */
  method Index(mods: seq<Modifier>) returns (idx: map<string, seq<Modifier>>)
    ensures idx == Group(mods)
    ensures forall name :: Lookup(idx, name) == ForField(mods, name)
  {
    idx := map[];
    assert Group(mods[..0]) == map[];
    for i := 0 to |mods|
      invariant idx == Group(mods[..i])
    {
      GroupStep(mods, i);
      var m := mods[i];
      var sofar := if m.fieldName in idx then idx[m.fieldName] else [];
      idx := idx[m.fieldName := sofar + [m]];
    }
    assert mods[..|mods|] == mods;
    forall name ensures Lookup(idx, name) == ForField(mods, name) {
      GroupLookup(mods, name);
    }
  }

  // ---------------------------------------------------------------------------
  // _is_declined and _apply_transformers
  // ---------------------------------------------------------------------------

  /** `_is_declined`: some constraint registered for the field declines the value; other modifiers never do. */
  function Declined(v: Value, ms: seq<Modifier>): (r: bool)
    ensures r <==> exists i :: 0 <= i < |ms| && ms[i].Constraint? && ms[i].declines(v)
  {
    if ms == [] then false
    else
      assert forall i :: 1 <= i < |ms| ==> ms[i] == ms[1..][i - 1];
      (ms[0].Constraint? && ms[0].declines(v)) || Declined(v, ms[1..])
  }

  function Step(p: Payload, m: Modifier): Payload
  {
    if m.Transformer? then m.rewrite(p) else p
  }

  /** The transformers of `ms`, applied as a left fold in registration order. */
  function Fold(p: Payload, ms: seq<Modifier>): Payload
    decreases ms
  {
    if ms == [] then p else Fold(Step(p, ms[0]), ms[1..])
  }

  function Transformers(ms: seq<Modifier>): (r: seq<Modifier>)
    ensures forall i :: 0 <= i < |r| ==> r[i].Transformer?
  {
    if ms == [] then [] else (if ms[0].Transformer? then [ms[0]] else []) + Transformers(ms[1..])
  }

  lemma {:induction false} FoldAppend(p: Payload, a: seq<Modifier>, b: seq<Modifier>)
    decreases a
    ensures Fold(p, a + b) == Fold(Fold(p, a), b)
  {
    if a == [] {
      assert a + b == b;
    } else {
      assert (a + b)[0] == a[0];
      assert (a + b)[1..] == a[1..] + b;
      FoldAppend(Step(p, a[0]), a[1..], b);
    }
  }

  /** Constraints and other modifiers take no part in the fold. */
  lemma {:induction false} FoldIgnoresOthers(p: Payload, ms: seq<Modifier>)
    decreases ms
    ensures Fold(p, ms) == Fold(p, Transformers(ms))
  {
    if ms != [] {
      FoldIgnoresOthers(Step(p, ms[0]), ms[1..]);
      if ms[0].Transformer? {
        assert ([ms[0]] + Transformers(ms[1..]))[1..] == Transformers(ms[1..]);
      } else {
        assert [] + Transformers(ms[1..]) == Transformers(ms[1..]);
      }
    }
  }

  /** `_apply_transformers`. */
  method ApplyTransformers(ms: seq<Modifier>, p: Payload) returns (r: Payload)
    ensures r == Fold(p, ms)
  {
    r := p;
    for i := 0 to |ms|
      invariant Fold(r, ms[i..]) == Fold(p, ms)
    {
      assert ms[i..][1..] == ms[i + 1..];
      if ms[i].Transformer? {
        r := ms[i].rewrite(r);
      }
    }
  }

  // ---------------------------------------------------------------------------
  // _parse_query
  // ---------------------------------------------------------------------------

  /** What one member of an operation-bearing field becomes: a Slice for a slice bit, else a clause. */
  function MemberElement(name: string, v: Value): Payload
  {
    if IsSlice(v) then Elem(SliceE(v.op)) else Elem(ClauseE(Clause(name, v)))
  }

  function MemberElements(name: string, vs: seq<Value>, ms: seq<Modifier>): (r: seq<Payload>)
    ensures |r| == |vs|
    ensures forall i :: 0 <= i < |vs| ==> r[i] == Fold(MemberElement(name, vs[i]), ms)
  {
    if vs == [] then []
    else MemberElements(name, vs[..|vs| - 1], ms) + [Fold(MemberElement(name, vs[|vs| - 1]), ms)]
  }

  /** What one query field yields. */
  function FieldElements(f: Field, ms: seq<Modifier>, mro: string -> seq<string>): seq<Payload>
  {
    if Declined(f.value, ms) || f.value == Empty then []
    else if OperationBearing(f.typ, mro) then MemberElements(f.name, Members(f.value), ms)
    else [Fold(Elem(ClauseE(Clause(f.name, Bit(Equals(f.value))))), ms)]
  }

  function QueryElements(fields: seq<Field>, idx: map<string, seq<Modifier>>, mro: string -> seq<string>): seq<Payload>
  {
    if fields == [] then []
    else
      var last := fields[|fields| - 1];
      QueryElements(fields[..|fields| - 1], idx, mro) + FieldElements(last, Lookup(idx, last.name), mro)
  }

  /** The members of an operation-bearing field, each as a slice or a clause through the field's transformers. */
  method ParseMembers(name: string, vs: seq<Value>, ms: seq<Modifier>) returns (out: seq<Payload>)
    ensures out == MemberElements(name, vs, ms)
  {
    out := [];
    for k := 0 to |vs|
      invariant out == MemberElements(name, vs[..k], ms)
    {
      assert vs[..k + 1][..k] == vs[..k];
      var r := ApplyTransformers(ms, MemberElement(name, vs[k]));
      out := out + [r];
    }
    assert vs[..|vs|] == vs;
  }

  /** One query field: nothing when declined or Empty, else its members or one `EQ` clause. */
  method ParseField(f: Field, ms: seq<Modifier>, mro: string -> seq<string>) returns (out: seq<Payload>)
    ensures out == FieldElements(f, ms, mro)
  {
    if Declined(f.value, ms) || f.value == Empty {
      return [];
    }
    if OperationBearing(f.typ, mro) {
      out := ParseMembers(f.name, Members(f.value), ms);
    } else {
      var r := ApplyTransformers(ms, Elem(ClauseE(Clause(f.name, Bit(Equals(f.value))))));
      out := [r];
    }
  }

  /** `_parse_query`: the elements of every field, field by field. */
  method ParseQuery(fields: seq<Field>, idx: map<string, seq<Modifier>>, mro: string -> seq<string>) returns (out: seq<Payload>)
    ensures out == QueryElements(fields, idx, mro)
  {
    out := [];
    for i := 0 to |fields|
      invariant out == QueryElements(fields[..i], idx, mro)
    {
      assert fields[..i + 1][..i] == fields[..i];
      var elements := ParseField(fields[i], Lookup(idx, fields[i].name), mro);
      out := out + elements;
    }
    assert fields[..|fields|] == fields;
  }

  /** A field that is not operation-bearing, not declined and not Empty yields one `EQ` clause, transformed. */
  lemma PlainField(f: Field, ms: seq<Modifier>, mro: string -> seq<string>)
    requires !OperationBearing(f.typ, mro) && !Declined(f.value, ms) && f.value != Empty
    ensures FieldElements(f, ms, mro) == [Fold(Elem(ClauseE(Clause(f.name, Bit(Op(EQ, f.value))))), ms)]
  {
  }

  /** An operation-bearing field whose value is not a sequence yields exactly one element. */
  lemma SingleOperation(f: Field, ms: seq<Modifier>, mro: string -> seq<string>)
    requires OperationBearing(f.typ, mro) && !Declined(f.value, ms) && f.value != Empty && !IsSequence(f.value)
    ensures FieldElements(f, ms, mro) == [Fold(MemberElement(f.name, f.value), ms)]
  {
  }

  /** A declined or Empty field yields nothing. */
  lemma SkippedField(f: Field, ms: seq<Modifier>, mro: string -> seq<string>)
    requires Declined(f.value, ms) || f.value == Empty
    ensures FieldElements(f, ms, mro) == []
  {
  }

  // ---------------------------------------------------------------------------
  // _parse_write_event
  // ---------------------------------------------------------------------------

  /** The mapping `_parse_write_event` builds: every field that is not declined, Empty ones included, transformed. */
  function EventData(fields: seq<Field>, idx: map<string, seq<Modifier>>): map<string, Payload>
  {
    if fields == [] then map[]
    else
      var last := fields[|fields| - 1];
      var data := EventData(fields[..|fields| - 1], idx);
      var ms := Lookup(idx, last.name);
      if Declined(last.value, ms) then data else data[last.name := Fold(Raw(last.value), ms)]
  }

  predicate DistinctNames(fields: seq<Field>)
  {
    forall i, j :: 0 <= i < j < |fields| ==> fields[i].name != fields[j].name
  }

  /** With distinct field names (as dataclass fields have), the mapping holds exactly the fields that are not declined. */
  lemma {:induction false} EventDataContents(fields: seq<Field>, idx: map<string, seq<Modifier>>)
    requires DistinctNames(fields)
    ensures forall i :: 0 <= i < |fields| ==>
      var ms := Lookup(idx, fields[i].name);
      (fields[i].name in EventData(fields, idx) <==> !Declined(fields[i].value, ms))
      && (!Declined(fields[i].value, ms) ==> EventData(fields, idx)[fields[i].name] == Fold(Raw(fields[i].value), ms))
    ensures forall k :: k in EventData(fields, idx) ==> exists i :: 0 <= i < |fields| && fields[i].name == k
  {
    if fields != [] {
      var front := fields[..|fields| - 1];
      EventDataContents(front, idx);
      forall i | 0 <= i < |front| ensures front[i] == fields[i] && fields[i].name != fields[|fields| - 1].name {
      }
    }
  }

  /** `_parse_write_event`: a single item holding the mapping. */
  method ParseWriteEvent(fields: seq<Field>, idx: map<string, seq<Modifier>>) returns (out: seq<Payload>)
    ensures out == [Elem(ItemE(Item(CMap(EventData(fields, idx)))))]
  {
    var data: map<string, Payload> := map[];
    for i := 0 to |fields|
      invariant data == EventData(fields[..i], idx)
    {
      assert fields[..i + 1][..i] == fields[..i];
      var f := fields[i];
      var ms := Lookup(idx, f.name);
      if !Declined(f.value, ms) {
        var r := ApplyTransformers(ms, Raw(f.value));
        data := data[f.name := r];
      }
    }
    assert fields[..|fields|] == fields;
    out := [Elem(ItemE(Item(CMap(data))))];
  }

  // ---------------------------------------------------------------------------
  // __call__
  // ---------------------------------------------------------------------------

  /** `Adapter()(message, *modifiers)`: None for a message that is neither a query nor a write event. */
  method Call(message: Message, mods: seq<Modifier>, mro: string -> seq<string>) returns (r: Option<seq<Payload>>)
    ensures r.None? <==> message.Unknown?
    ensures message.Query? ==> r == Some(QueryElements(message.fields, Group(mods), mro))
    ensures message.WriteEvent? ==> r == Some([Elem(ItemE(Item(CMap(EventData(message.fields, Group(mods))))))])
  {
    var idx := Index(mods);
    match message {
      case Query(fields) =>
        var out := ParseQuery(fields, idx, mro);
        r := Some(out);
      case WriteEvent(fields) =>
        var out := ParseWriteEvent(fields, idx);
        r := Some(out);
      case Unknown =>
        r := None;
    }
  }

  // ---------------------------------------------------------------------------
  // The GetTasks query
  // ---------------------------------------------------------------------------

  /** `ClauseBit[T] | None`, the annotation of the query's filter fields. */
  function OptionalBit(t: string): TypeExpr
  {
    Generic("Union", [Generic(ClauseBitName, [Plain(t)]), Plain("NoneType")])
  }

  /** The GetTasks query with all five fields set: four filters (one a SET) and a `Limit`. */
  function GetTasks(): seq<Field>
  {
    [ Field("owner_id", OptionalBit("UUID"), Bit(Op(EQ, Atom("owner")))),
      Field("name", OptionalBit("str"), Bit(Op(EQ, Text("test")))),
      Field("state", OptionalBit("TaskState"), Bit(Set([Atom("TaskState.new"), Atom("TaskState.done")]))),
      Field("created_at", OptionalBit("datetime"), Bit(Op(Filtering("RANGE"), Tuple([Atom("GE"), Atom("LE")])))),
      Field("limit", Generic("Union", [Plain("Limit"), Plain("NoneType")]), Bit(Op(Slicing("Limit"), Int(10)))) ]
  }

  /** Fields that each yield one element give one element per field. */
  lemma {:induction false} OneElementEach(fields: seq<Field>, idx: map<string, seq<Modifier>>, mro: string -> seq<string>)
    requires forall i :: 0 <= i < |fields| ==> |FieldElements(fields[i], Lookup(idx, fields[i].name), mro)| == 1
    ensures |QueryElements(fields, idx, mro)| == |fields|
    ensures fields != [] ==> QueryElements(fields, idx, mro)[|fields| - 1]
                              == FieldElements(fields[|fields| - 1], Lookup(idx, fields[|fields| - 1].name), mro)[0]
  {
    if fields != [] {
      var front := fields[..|fields| - 1];
      forall i | 0 <= i < |front| ensures front[i] == fields[i] {}
      OneElementEach(front, idx, mro);
    }
  }

  /** An operation-bearing field holding one bit yields that bit's element when no modifier is registered. */
  lemma BitFieldYieldsOne(f: Field, mro: string -> seq<string>)
    requires OperationBearing(f.typ, mro) && f.value.Bit?
    ensures FieldElements(f, [], mro) == [MemberElement(f.name, f.value)]
  {
    assert Members(f.value) == [f.value];
  }

  lemma LimitBears(mro: string -> seq<string>)
    requires ClauseBitName !in mro("Union") && ClauseBitName in mro("Limit")
    ensures OperationBearing(Generic("Union", [Plain("Limit"), Plain("NoneType")]), mro)
  {
    var limit := Generic("Union", [Plain("Limit"), Plain("NoneType")]);
    assert EvokeAll([Plain("Limit"), Plain("NoneType")]) == [Class("Limit"), Class("NoneType")];
    var tuple := Items([Class("Limit"), Class("NoneType")]);
    var h := Evoke(limit);
    assert h == Items([Class("Union"), tuple]);
    assert Scan(tuple, 0, ClauseBitName, mro) == Some(Class("Limit"));
    assert Search(tuple, ClauseBitName, mro) == Some(Class("Limit"));
    assert Scan(h, 1, ClauseBitName, mro) == Some(Class("Limit"));
    assert Scan(h, 0, ClauseBitName, mro) == Some(Class("Limit"));
  }

  /**
    Without modifiers the GetTasks query yields exactly five elements: a SET
    is not a sequence, so it stays one clause, and the `Limit`, which derives
    from the operation-bit class, becomes the last element, a slice.
   */
  lemma GetTasksYieldsFive(mro: string -> seq<string>)
    requires ClauseBitName !in mro("Union")
    requires ClauseBitName in mro("Limit")
    ensures |QueryElements(GetTasks(), map[], mro)| == 5
    ensures QueryElements(GetTasks(), map[], mro)[4] == Elem(SliceE(Op(Slicing("Limit"), Int(10))))
  {
    var fs := GetTasks();
    forall i | 0 <= i < |fs| ensures |FieldElements(fs[i], Lookup(map[], fs[i].name), mro)| == 1 {
      if i == 0 {
        OptionalClauseBit("UUID", mro);
      } else if i == 1 {
        OptionalClauseBit("str", mro);
      } else if i == 2 {
        OptionalClauseBit("TaskState", mro);
      } else if i == 3 {
        OptionalClauseBit("datetime", mro);
      } else {
        LimitBears(mro);
      }
      BitFieldYieldsOne(fs[i], mro);
    }
    OneElementEach(fs, map[], mro);
    LimitBears(mro);
    BitFieldYieldsOne(fs[4], mro);
  }
}

=== FILE: builtins.dfy ===
/**
  The few pieces of Python's runtime that the hermitage core relies on:
  optional values, raised exceptions, `str.split`/`str.join`/`str.strip`
  and list slicing and indexing with negative positions.
 */
module Builtins {

  datatype Option<+T> = None | Some(value: T)

  /** The exceptions the core can raise on its own (never caught inside it). */
  datatype PyError = TypeError | IndexError | AttributeError | KeyError | ValueError

  /** The outcome of a Python call: a returned value or a raised exception. */
  datatype Outcome<+T> = Ok(value: T) | Raise(error: PyError)

  // ---------------------------------------------------------------------------
  // str.split(sep) and sep.join(parts)
  // ---------------------------------------------------------------------------

  /** `s.split(sep)`: never empty; an empty string gives `[""]`. */
  function Split(s: string, sep: char): (parts: seq<string>)
    ensures |parts| >= 1
  {
    if s == [] then [""]
    else if s[0] == sep then [""] + Split(s[1..], sep)
    else
      var rest := Split(s[1..], sep);
      [[s[0]] + rest[0]] + rest[1..]
  }

  /** `sep.join(parts)`. */
  function Join(parts: seq<string>, sep: char): string
  {
    if |parts| == 0 then ""
    else if |parts| == 1 then parts[0]
    else parts[0] + [sep] + Join(parts[1..], sep)
  }

  predicate Free(s: string, sep: char)
  {
    forall i :: 0 <= i < |s| ==> s[i] != sep
  }

  predicate AllFree(parts: seq<string>, sep: char)
  {
    forall i :: 0 <= i < |parts| ==> Free(parts[i], sep)
  }

  /** Every part of a split is free of the separator. */
  lemma {:induction false} SplitPartsFree(s: string, sep: char)
    ensures AllFree(Split(s, sep), sep)
  {
    if s != [] {
      SplitPartsFree(s[1..], sep);
    }
  }

  /** A string without the separator splits into itself. */
  lemma {:induction false} SplitFree(s: string, sep: char)
    requires Free(s, sep)
    ensures Split(s, sep) == [s]
  {
    if s != [] {
      SplitFree(s[1..], sep);
      assert [s[0]] + s[1..] == s;
    }
  }

  /** A string with the separator splits into at least two parts. */
  lemma {:induction false} SplitNotFree(s: string, sep: char)
    requires !Free(s, sep)
    ensures |Split(s, sep)| >= 2
  {
    if s[0] != sep {
      SplitNotFree(s[1..], sep);
    }
  }

  lemma {:induction false} SplitAfterPrefix(x: string, sep: char, rest: string)
    requires Free(x, sep)
    ensures Split(x + [sep] + rest, sep) == [x] + Split(rest, sep)
  {
    if x == [] {
      assert x + [sep] + rest == [sep] + rest;
    } else {
      assert (x + [sep] + rest)[1..] == x[1..] + [sep] + rest;
      SplitAfterPrefix(x[1..], sep, rest);
      assert [x[0]] + x[1..] == x;
    }
  }

  /** Round trip one way: joining the parts of a split gives the string back. */
  lemma {:induction false} JoinSplit(s: string, sep: char)
    ensures Join(Split(s, sep), sep) == s
  {
    if s != [] {
      JoinSplit(s[1..], sep);
      var rest := Split(s[1..], sep);
      if s[0] != sep {
        var parts := [[s[0]] + rest[0]] + rest[1..];
        if |rest| == 1 {
          assert Join(parts, sep) == [s[0]] + rest[0];
        } else {
          assert parts[1..] == rest[1..];
          assert Join(rest, sep) == rest[0] + [sep] + Join(rest[1..], sep);
        }
      }
    }
  }

  /** Round trip the other way: separator-free, non-empty lists of parts survive join then split. */
  lemma {:induction false} SplitJoin(parts: seq<string>, sep: char)
    requires |parts| >= 1 && AllFree(parts, sep)
    ensures Split(Join(parts, sep), sep) == parts
  {
    if |parts| == 1 {
      SplitFree(parts[0], sep);
    } else {
      SplitJoin(parts[1..], sep);
      SplitAfterPrefix(parts[0], sep, Join(parts[1..], sep));
    }
  }

  /** A string splits into one part exactly when it holds no separator. */
  lemma SplitCount(s: string, sep: char)
    ensures Free(s, sep) <==> |Split(s, sep)| == 1
  {
    if Free(s, sep) {
      SplitFree(s, sep);
    } else {
      SplitNotFree(s, sep);
    }
  }

  /** Joining two or more parts puts the last one after a final separator. */
  lemma {:induction false} JoinLast(parts: seq<string>, sep: char)
    requires |parts| >= 2
    ensures Join(parts, sep) == Join(parts[..|parts| - 1], sep) + [sep] + parts[|parts| - 1]
  {
    var front := parts[..|parts| - 1];
    if |parts| == 2 {
      assert parts[1..] == [parts[1]] && front == [parts[0]];
    } else {
      var rest := parts[1..];
      JoinLast(rest, sep);
      assert rest[..|rest| - 1] == front[1..];
      assert Join(front, sep) == front[0] + [sep] + Join(front[1..], sep);
    }
  }

  /**
    A string with a separator is its text up to the last separator, that
    separator, and the separator-free last part of its split.
   */
  lemma LastSeparator(s: string, sep: char)
    requires !Free(s, sep)
    ensures var parts := Split(s, sep);
      var k := |Join(parts[..|parts| - 1], sep)|;
      |parts| >= 2 && k < |s| && s[k] == sep &&
      s[..k] == Join(parts[..|parts| - 1], sep) && s[k + 1..] == parts[|parts| - 1] && Free(s[k + 1..], sep)
  {
    var parts := Split(s, sep);
    SplitNotFree(s, sep);
    JoinSplit(s, sep);
    JoinLast(parts, sep);
    SplitPartsFree(s, sep);
    var k := |Join(parts[..|parts| - 1], sep)|;
    assert s == Join(parts[..|parts| - 1], sep) + [sep] + parts[|parts| - 1];
    assert s[k + 1..] == parts[|parts| - 1];
  }

  /** Two separator-free, non-empty part lists with the same join are equal. */
  lemma JoinInjective(a: seq<string>, b: seq<string>, sep: char)
    requires |a| >= 1 && |b| >= 1 && AllFree(a, sep) && AllFree(b, sep)
    requires Join(a, sep) == Join(b, sep)
    ensures a == b
  {
    SplitJoin(a, sep);
    SplitJoin(b, sep);
  }

  // ---------------------------------------------------------------------------
  // str.strip()
  // ---------------------------------------------------------------------------

  /** The ASCII characters Python's `str.isspace` accepts. */
  predicate IsSpace(c: char)
  {
    c == ' ' || c == '\t' || c == '\n' || c == '\r' || c == '\U{000B}' || c == '\U{000C}' ||
    c == '\U{001C}' || c == '\U{001D}' || c == '\U{001E}' || c == '\U{001F}'
  }

  function StripLeft(s: string): (r: string)
    ensures |r| <= |s|
    ensures r == [] || !IsSpace(r[0])
    ensures r == s[|s| - |r|..]
  {
    if s != [] && IsSpace(s[0]) then StripLeft(s[1..]) else s
  }

  function StripRight(s: string): (r: string)
    ensures |r| <= |s|
    ensures r == [] || !IsSpace(r[|r| - 1])
    ensures r == s[..|r|]
  {
    if s != [] && IsSpace(s[|s| - 1]) then StripRight(s[..|s| - 1]) else s
  }

  /** `s.strip()`: no leading or trailing white space, and the middle of `s` kept. */
  function Strip(s: string): (r: string)
  {
    StripRight(StripLeft(s))
  }

  predicate Stripped(s: string)
  {
    s == [] || (!IsSpace(s[0]) && !IsSpace(s[|s| - 1]))
  }

  lemma StripResult(s: string)
    ensures Stripped(Strip(s))
    ensures |Strip(s)| <= |s|
    ensures Stripped(s) ==> Strip(s) == s
  {
    var l := StripLeft(s);
    var r := StripRight(l);
    if r != [] {
      assert r == l[..|r|];
      assert r[0] == l[0];
    }
  }

  lemma StripIdempotent(s: string)
    ensures Strip(Strip(s)) == Strip(s)
  {
    StripResult(s);
    StripResult(Strip(s));
  }

  /** Stripping a string without the separator keeps it without the separator. */
  lemma StripFree(s: string, sep: char)
    requires Free(s, sep)
    ensures Free(Strip(s), sep)
  {
    var l := StripLeft(s);
    var r := StripRight(l);
    forall i | 0 <= i < |r| ensures r[i] != sep {
      assert r[i] == l[i] == s[|s| - |l| + i];
    }
  }

  // ---------------------------------------------------------------------------
  // Sequence indexing and slicing with Python's negative positions
  // ---------------------------------------------------------------------------

  /** A slice bound as Python resolves it: negative counts from the end, then clamped. */
  function ClampIndex(i: int, len: nat): (k: nat)
    ensures k <= len
  {
    if i < 0 then (if i + len < 0 then 0 else i + len) else if i > len then len else i
  }

  /** `s[start:end]`. */
  function PySlice<T>(s: seq<T>, start: int, end: int): (r: seq<T>)
    ensures |r| <= |s|
  {
    var lo := ClampIndex(start, |s|);
    var hi := ClampIndex(end, |s|);
    if lo < hi then s[lo..hi] else []
  }

  /** `s[i]`: IndexError outside `-len(s) <= i < len(s)`. */
  function PyIndex<T>(s: seq<T>, i: int): (r: Outcome<T>)
    ensures r.Ok? <==> -|s| <= i < |s|
    ensures 0 <= i < |s| ==> r == Ok(s[i])
    ensures -|s| <= i < 0 ==> r == Ok(s[|s| + i])
  {
    if 0 <= i < |s| then Ok(s[i])
    else if -|s| <= i < 0 then Ok(s[|s| + i])
    else Raise(IndexError)
  }

  /** `s[:-1]` drops the last element (and is empty for an empty list). */
  lemma SliceDropLast<T>(s: seq<T>)
    ensures |s| >= 1 ==> PySlice(s, 0, -1) == s[..|s| - 1]
    ensures |s| == 0 ==> PySlice(s, 0, -1) == []
  {
  }
}

=== FILE: clauses.dfy ===
/**
  The invoice-level `Clause` (hermitage/definition/contracts.py): a leaf
  filter addressed by an `Address` and an optional fixed namespace, or an
  AND/OR node whose operands sit on a stack.  The constructor consumes its
  operands right to left from a double-ended queue; iterating a compound
  clause flattens it into postfix order.
 */
module Clauses {
  import opened Builtins
  import opened Values
  import opened Namespaces
  import Postfix

  /** `clause.operation`: an operation bit or a `LogicalOperator`. */
  datatype ClauseOp = BitOp(bit: Operation) | LogicalOp(junction: Junction)

  /** What the constructor pushes on `_stack`: a sub-clause or a `LogicalOperator`. */
  datatype StackEntry = Sub(clause: Clause) | Token(junction: Junction)

  /**
    A clause.  `fixed` is the fixed namespace (an absent one is empty: only its
    truth value is ever consulted); `stack` is empty while `_stack` is None
    (the deque is created by its first push, so it is never empty once it
    exists); `namespace` is None until the clause is mounted.
   */
  datatype Clause = Clause(
    address: Option<Address>,
    fixed: Namespace,
    operation: Option<ClauseOp>,
    stack: seq<StackEntry>,
    namespace: Option<Namespace>)

  /** A constructor operand, told apart the way `_distribute` tells them apart. */
  datatype Operand =
    | OText(s: string)
    | OAddress(a: Address)
    | ONamespace(ns: Namespace)
    | OBit(op: Operation)
    | OLogical(j: Junction)
    | OClause(c: Clause)
    | OOther

  const Blank := Clause(None, [], None, [], None)

  /** `clause.kind is LogicalOperator`. */
  predicate IsCompound(c: Clause)
  {
    c.operation.Some? && c.operation.value.LogicalOp?
  }

  /** An operand as a call value: strings and bits are recognised, anything else is ignored. */
  function OperandOf(v: Value): Operand
  {
    match v
    case Text(s) => OText(s)
    case Bit(op) => OBit(op)
    case _ => OOther
  }

  // ---------------------------------------------------------------------------
  // Clause._distribute
  // ---------------------------------------------------------------------------

  /**
    What one popped operand turns into: a dotted string becomes its namespace
    part followed by its address part (the order they are popped in), any other
    string an address, anything else itself.
   */
  function Expand(o: Operand): (r: seq<Operand>)
    ensures forall i :: 0 <= i < |r| ==> !r[i].OText?
    ensures !o.OText? ==> r == [o]
    ensures o.OText? && Free(o.s, '.') ==> r == [OAddress(Address(o.s))]
    ensures o.OText? && !Free(o.s, '.') ==>
      exists k :: 0 <= k < |o.s| && o.s[k] == '.' && Free(o.s[k + 1..], '.') &&
        r == [ONamespace(Parse(o.s[..k])), OAddress(Address(o.s[k + 1..]))]
  {
    match o
    case OText(s) =>
      var parts := Split(s, '.');
      SplitCount(s, '.');
      if |parts| > 1 then
        LastSeparator(s, '.');
        [ONamespace(Parse(Join(parts[..|parts| - 1], '.'))), OAddress(Address(parts[|parts| - 1]))]
      else
        [OAddress(Address(s))]
    case _ => [o]
  }

  /** The order in which operands take effect: last operand first. */
  function Processed(os: seq<Operand>): seq<Operand>
  {
    if os == [] then [] else Expand(os[|os| - 1]) + Processed(os[..|os| - 1])
  }

  /** The effect of one non-string operand; the type checks are independent `if`s, so a `LogicalOperator` counts twice. */
  function Effect(c: Clause, o: Operand): Clause
  {
    match o
    case OAddress(a) => c.(address := Some(a))
    case ONamespace(ns) => c.(fixed := ns)
    case OBit(op) => c.(operation := Some(BitOp(op)))
    case OLogical(j) => c.(operation := Some(LogicalOp(j)), stack := c.stack + [Token(j)])
    case OClause(d) => c.(stack := c.stack + [Sub(d)])
    case _ => c
  }

  function Apply(c: Clause, atoms: seq<Operand>): Clause
    decreases |atoms|
  {
    if atoms == [] then c else Apply(Effect(c, atoms[0]), atoms[1..])
  }

  /** `Clause(*operands)` as a value. */
  function Build(os: seq<Operand>): Clause
  {
    Apply(Blank, Processed(os))
  }

  function OperandWeight(o: Operand): nat
  {
    if o.OText? then 3 else 1
  }

  function QueueWeight(d: seq<Operand>): nat
  {
    if d == [] then 0 else QueueWeight(d[..|d| - 1]) + OperandWeight(d[|d| - 1])
  }

  /** `Clause.__init__`: pop operands from the right of a deque until it is empty. */
  method Distribute(os: seq<Operand>) returns (c: Clause)
    ensures c == Build(os)
    ensures c.namespace.None?
  {
    var d := os;
    c := Blank;
    while |d| > 0
      invariant Apply(c, Processed(d)) == Build(os)
      invariant c.namespace.None?
      decreases QueueWeight(d)
    {
      PopLast(c, d);
      var o := d[|d| - 1];
      d := d[..|d| - 1];
      if o.OText? {
        ApplyConcat(c, Expand(o), Processed(d));
        d := PushParts(d, o.s);
      } else {
        ApplyOne(c, o);
        c := Consume(c, o);
      }
    }
  }

  /**
    One popped operand that is not a string, by the type checks of
    `_distribute`: an address sets the address, a namespace the fixed
    namespace, a bit the operation; a `LogicalOperator` sets the operation
    and is pushed on the stack, a sub-clause is pushed; anything else is
    ignored.  Every other field is kept.
   */
  method Consume(c: Clause, o: Operand) returns (c': Clause)
    requires !o.OText?
    ensures c' == Effect(c, o)
    ensures c'.namespace == c.namespace
    ensures c'.address == (if o.OAddress? then Some(o.a) else c.address)
    ensures c'.fixed == (if o.ONamespace? then o.ns else c.fixed)
    ensures o.OBit? ==> c'.operation == Some(BitOp(o.op))
    ensures o.OLogical? ==> c'.operation == Some(LogicalOp(o.j)) && c'.stack == c.stack + [Token(o.j)]
    ensures o.OClause? ==> c'.stack == c.stack + [Sub(o.c)]
    ensures !o.OBit? && !o.OLogical? ==> c'.operation == c.operation
    ensures !o.OLogical? && !o.OClause? ==> c'.stack == c.stack
    ensures o.OOther? ==> c' == c
  {
    c' := c;
    match o {
      case OAddress(a) =>
        c' := c'.(address := Some(a));
      case ONamespace(ns) =>
        c' := c'.(fixed := ns);
      case OBit(op) =>
        c' := c'.(operation := Some(BitOp(op)));
      case OLogical(j) =>
        c' := c'.(operation := Some(LogicalOp(j)));
        c' := c'.(stack := c'.stack + [Token(j)]);
      case OClause(sub) =>
        c' := c'.(stack := c'.stack + [Sub(sub)]);
      case OOther =>
    }
  }

  /** A popped string goes back on the queue as an address, or as an address and then a namespace. */
  method PushParts(d: seq<Operand>, s: string) returns (d': seq<Operand>)
    ensures Processed(d') == Expand(OText(s)) + Processed(d)
    ensures QueueWeight(d') < QueueWeight(d) + OperandWeight(OText(s))
  {
    var parts := Split(s, '.');
    if |parts| > 1 {
      var address := OAddress(Address(parts[|parts| - 1]));
      var namespace := ONamespace(Parse(Join(parts[..|parts| - 1], '.')));
      assert Expand(OText(s)) == [namespace, address];
      PushTwo(d, address, namespace);
      d' := d + [address, namespace];
    } else {
      var address := OAddress(Address(s));
      assert Expand(OText(s)) == [address];
      PushOne(d, address);
      d' := d + [address];
    }
  }

  /** Popping the last operand: its expansion takes effect before the rest of the queue. */
  lemma PopLast(c: Clause, d: seq<Operand>)
    requires |d| > 0
    ensures Apply(c, Processed(d)) == Apply(Apply(c, Expand(d[|d| - 1])), Processed(d[..|d| - 1]))
    ensures QueueWeight(d) == QueueWeight(d[..|d| - 1]) + OperandWeight(d[|d| - 1])
  {
    ApplyConcat(c, Expand(d[|d| - 1]), Processed(d[..|d| - 1]));
  }

  /** Pushing one non-string operand back: it is popped next, lighter than the string was. */
  lemma PushOne(d: seq<Operand>, x: Operand)
    requires !x.OText?
    ensures Processed(d + [x]) == [x] + Processed(d)
    ensures QueueWeight(d + [x]) == QueueWeight(d) + 1
  {
    var all := d + [x];
    assert all[..|all| - 1] == d;
    assert Expand(x) == [x];
  }

  /** Pushing two non-string operands back: they are popped in reverse order. */
  lemma PushTwo(d: seq<Operand>, x: Operand, y: Operand)
    requires !x.OText? && !y.OText?
    ensures Processed(d + [x, y]) == [y, x] + Processed(d)
    ensures QueueWeight(d + [x, y]) == QueueWeight(d) + 2
  {
    var all := d + [x, y];
    assert all[..|all| - 1] == d + [x];
    assert Expand(y) == [y];
    PushOne(d, x);
  }

  lemma ApplyOne(c: Clause, o: Operand)
    ensures Apply(c, Expand(o)) == (if o.OText? then Apply(c, Expand(o)) else Effect(c, o))
  {
    if !o.OText? {
      assert [o][1..] == [];
    }
  }

  lemma {:induction false} ApplyConcat(c: Clause, xs: seq<Operand>, ys: seq<Operand>)
    ensures Apply(c, xs + ys) == Apply(Apply(c, xs), ys)
    decreases xs
  {
    if xs == [] {
      assert xs + ys == ys;
    } else {
      assert (xs + ys)[0] == xs[0];
      assert (xs + ys)[1..] == xs[1..] + ys;
      ApplyConcat(Effect(c, xs[0]), xs[1..], ys);
    }
  }

  lemma {:induction false} ProcessedFront(x: Operand, rest: seq<Operand>)
    ensures Processed([x] + rest) == Processed(rest) + Expand(x)
  {
    var all := [x] + rest;
    if rest == [] {
      assert all[..|all| - 1] == [];
    } else {
      assert all[|all| - 1] == rest[|rest| - 1];
      assert all[..|all| - 1] == [x] + rest[..|rest| - 1];
      ProcessedFront(x, rest[..|rest| - 1]);
    }
  }

  /** The leftmost operand is consumed last, so whatever it sets overrides the operands to its right. */
  lemma LeftmostOperandLast(x: Operand, rest: seq<Operand>)
    ensures Build([x] + rest) == Apply(Build(rest), Expand(x))
  {
    ProcessedFront(x, rest);
    ApplyConcat(Blank, Processed(rest), Expand(x));
  }

  /** An address given first wins over every address given after it. */
  lemma LeftmostAddressWins(a: Address, rest: seq<Operand>)
    ensures Build([OAddress(a)] + rest).address == Some(a)
    ensures Build([OAddress(a)] + rest).fixed == Build(rest).fixed
    ensures Build([OAddress(a)] + rest).stack == Build(rest).stack
  {
    LeftmostOperandLast(OAddress(a), rest);
    assert [OAddress(a)][1..] == [];
  }

  /** A dot-free string operand is an address. */
  lemma PlainTextOperand(s: string, rest: seq<Operand>)
    requires Free(s, '.')
    ensures Build([OText(s)] + rest).address == Some(Address(s))
    ensures Build([OText(s)] + rest).fixed == Build(rest).fixed
  {
    SplitFree(s, '.');
    LeftmostOperandLast(OText(s), rest);
    assert [OAddress(Address(s))][1..] == [];
  }

  lemma ExpandDotted(ns: Namespace)
    requires Clean(ns) && |ns| >= 2
    ensures Expand(OText(Dotted(ns))) == [ONamespace(ns[..|ns| - 1]), OAddress(Address(ns[|ns| - 1]))]
  {
    assert AllFree(ns, '.');
    SplitJoin(ns, '.');
    ParseText(ns[..|ns| - 1]);
  }

  /** A dotted string "a.b.c" is the fixed namespace "a.b" and the address "c". */
  lemma DottedOperand(ns: Namespace, rest: seq<Operand>)
    requires Clean(ns) && |ns| >= 2
    ensures Build([OText(Dotted(ns))] + rest).fixed == ns[..|ns| - 1]
    ensures Build([OText(Dotted(ns))] + rest).address == Some(Address(ns[|ns| - 1]))
  {
    var atoms := [ONamespace(ns[..|ns| - 1]), OAddress(Address(ns[|ns| - 1]))];
    ExpandDotted(ns);
    LeftmostOperandLast(OText(Dotted(ns)), rest);
    var c := Build(rest);
    assert atoms[1..] == [atoms[1]];
    assert atoms[1..][1..] == [];
    assert Apply(c, atoms) == Apply(Effect(c, atoms[0]), [atoms[1]]);
  }

  // ---------------------------------------------------------------------------
  // Clause.__and__ / __or__ / __iter__
  // ---------------------------------------------------------------------------

  /** `a & b` (And) and `a | b` (Or): `Clause(LogicalOperator, a, b)`. */
  function Junct(a: Clause, b: Clause, j: Junction): Clause
  {
    Build([OLogical(j), OClause(a), OClause(b)])
  }

  /** The right operand is pushed first, then the left one, then the operator token. */
  lemma JunctShape(a: Clause, b: Clause, j: Junction)
    ensures Junct(a, b, j) == Clause(None, [], Some(LogicalOp(j)), [Sub(b), Sub(a), Token(j)], None)
    ensures IsCompound(Junct(a, b, j))
  {
    var os := [OLogical(j), OClause(a), OClause(b)];
    var two := [OLogical(j), OClause(a)];
    assert os[..2] == two && os[2] == OClause(b);
    assert two[..1] == [OLogical(j)] && two[1] == OClause(a);
    assert [OLogical(j)][..0] == [];
    assert Processed([OLogical(j)]) == [OLogical(j)];
    assert Processed(two) == [OClause(a), OLogical(j)];
    var atoms := [OClause(b), OClause(a), OLogical(j)];
    assert Processed(os) == atoms;
    assert atoms[1..] == [OClause(a), OLogical(j)];
    assert atoms[1..][1..] == [OLogical(j)];
    assert atoms[1..][1..][1..] == [];
    var c1 := Effect(Blank, OClause(b));
    assert c1.stack == [Sub(b)];
    var c2 := Effect(c1, OClause(a));
    assert c2.stack == [Sub(b), Sub(a)];
    var c3 := Effect(c2, OLogical(j));
    assert c3.stack == [Sub(b), Sub(a), Token(j)];
    assert Apply(c3, []) == c3;
    assert Apply(c2, atoms[1..][1..]) == c3;
    assert Apply(c1, atoms[1..]) == c3;
    assert Apply(Blank, atoms) == c3;
  }

  /** What `__iter__` yields: a clause object or a `LogicalOperator` token. */
  datatype Yield = YClause(clause: Clause) | YToken(junction: Junction)

  predicate IsToken(y: Yield)
  {
    y.YToken?
  }

  /** `iter(clause)`: a clause without a stack yields itself, otherwise its stack flattened. */
  function Iter(c: Clause): seq<Yield>
    decreases c, |c.stack| + 1
  {
    if c.stack == [] then [YClause(c)] else Flatten(c, 0)
  }

  /** The stack from position `i` on: compound operands are iterated recursively, everything else is yielded as it is. */
  function Flatten(c: Clause, i: nat): seq<Yield>
    requires i <= |c.stack|
    decreases c, |c.stack| - i
  {
    if i == |c.stack| then []
    else
      var head := match c.stack[i]
        case Sub(d) =>
          assert c.stack[i] in c.stack;
          if IsCompound(d) then Iter(d) else [YClause(d)]
        case Token(j) => [YToken(j)];
      head + Flatten(c, i + 1)
  }

  /** What one operand on the stack contributes to the iteration. */
  function Contribution(d: Clause): seq<Yield>
  {
    if IsCompound(d) then Iter(d) else [YClause(d)]
  }

  /** `a & b` iterates as b, then a, then the operator. */
  lemma IterJunct(a: Clause, b: Clause, j: Junction)
    ensures Iter(Junct(a, b, j)) == Contribution(b) + Contribution(a) + [YToken(j)]
  {
    JunctShape(a, b, j);
    var c := Junct(a, b, j);
    assert Flatten(c, 3) == [];
    assert Flatten(c, 2) == [YToken(j)];
    assert Flatten(c, 1) == Contribution(a) + [YToken(j)];
    assert Flatten(c, 0) == Contribution(b) + Flatten(c, 1);
  }

  /** A clause that iterates as itself. */
  predicate Simple(c: Clause)
  {
    c.stack == [] && !IsCompound(c)
  }

  /** `(a & b) & c` yields c, b, a, AND, AND; nesting is flattened whatever the operator. */
  lemma IterExamples(a: Clause, b: Clause, c: Clause)
    requires Simple(a) && Simple(b) && Simple(c)
    ensures Iter(Junct(Junct(a, b, And), c, And)) ==
      [YClause(c), YClause(b), YClause(a), YToken(And), YToken(And)]
    ensures Iter(Junct(a, Junct(b, c, Or), And)) ==
      [YClause(c), YClause(b), YToken(Or), YClause(a), YToken(And)]
  {
    IterJunct(a, b, And);
    IterJunct(Junct(a, b, And), c, And);
    JunctShape(a, b, And);
    IterJunct(b, c, Or);
    IterJunct(a, Junct(b, c, Or), And);
    JunctShape(b, c, Or);
  }

  /** How a compound clause was put together with `&` and `|` from simple clauses. */
  datatype Tree = Leaf(c: Clause) | Node(left: Tree, j: Junction, right: Tree)

  predicate AllSimple(t: Tree)
  {
    match t
    case Leaf(c) => Simple(c)
    case Node(l, _, r) => AllSimple(l) && AllSimple(r)
  }

  function Compose(t: Tree): Clause
  {
    match t
    case Leaf(c) => c
    case Node(l, j, r) => Junct(Compose(l), Compose(r), j)
  }

  /** The simple clauses of a tree, left to right. */
  function LeavesOf(t: Tree): seq<Clause>
  {
    match t
    case Leaf(c) => [c]
    case Node(l, _, r) => LeavesOf(l) + LeavesOf(r)
  }

  function YieldedClauses(ys: seq<Yield>): seq<Clause>
  {
    if ys == [] then [] else (if ys[0].YClause? then [ys[0].clause] else []) + YieldedClauses(ys[1..])
  }

  function Reverse<T>(s: seq<T>): seq<T>
  {
    if s == [] then [] else Reverse(s[1..]) + [s[0]]
  }

  lemma {:induction false} YieldedClausesAppend(a: seq<Yield>, b: seq<Yield>)
    ensures YieldedClauses(a + b) == YieldedClauses(a) + YieldedClauses(b)
  {
    if a == [] {
      assert a + b == b;
    } else {
      assert (a + b)[0] == a[0];
      assert (a + b)[1..] == a[1..] + b;
      YieldedClausesAppend(a[1..], b);
    }
  }

  lemma {:induction false} ReverseAppend<T>(a: seq<T>, b: seq<T>)
    ensures Reverse(a + b) == Reverse(b) + Reverse(a)
  {
    if a == [] {
      assert a + b == b;
    } else {
      assert (a + b)[0] == a[0];
      assert (a + b)[1..] == a[1..] + b;
      ReverseAppend(a[1..], b);
    }
  }

  /**
    Iterating any clause built from simple clauses with `&` and `|` gives a
    well-formed postfix sequence that yields the simple clauses right to left:
    one more clause than operator tokens.
   */
  lemma {:induction false} IterPostfix(t: Tree)
    requires AllSimple(t)
    ensures Postfix.WellFormed(Iter(Compose(t)), IsToken)
    ensures YieldedClauses(Iter(Compose(t))) == Reverse(LeavesOf(t))
    ensures Contribution(Compose(t)) == Iter(Compose(t))
  {
    match t
    case Leaf(c) =>
      Postfix.SingleOperand(YClause(c), IsToken);
    case Node(l, j, r) =>
      IterPostfix(l);
      IterPostfix(r);
      var a, b := Compose(l), Compose(r);
      IterJunct(a, b, j);
      JunctShape(a, b, j);
      Postfix.Combine(Iter(b), Iter(a), YToken(j), IsToken);
      YieldedClausesAppend(Iter(b) + Iter(a), [YToken(j)]);
      YieldedClausesAppend(Iter(b), Iter(a));
      ReverseAppend(LeavesOf(l), LeavesOf(r));
  }

  lemma ClausesOutnumberTokens(t: Tree)
    requires AllSimple(t)
    ensures Postfix.Operands(Iter(Compose(t)), IsToken) == Postfix.Operators(Iter(Compose(t)), IsToken) + 1
  {
    IterPostfix(t);
    Postfix.OperandsOutnumberOperators(Iter(Compose(t)), IsToken);
  }
}

=== FILE: constraints.dfy ===
/**
  The `Exclude` constraint (hermitage/adapters/constraints.py): a predicate
  on a field name and value that holds exactly when the name is one of
  those it was built with.
 */
module Constraints {
  import opened Values

  /** `Exclude(*names)`: the names keep the order and repetitions they were given in. */
  datatype Exclude = Exclude(names: seq<string>)

  /** `exclude(name, value)`. */
  predicate Declines(x: Exclude, name: string, value: Value)
  {
    name in x.names
  }

  /** The answer is membership of the name, for every value; with no names it is always false. */
  lemma DeclinesExactlyListed(x: Exclude, name: string, value: Value)
    ensures Declines(x, name, value) <==> exists i :: 0 <= i < |x.names| && x.names[i] == name
    ensures x.names == [] ==> !Declines(x, name, value)
  {
  }

  /**
    Two constraints built from the same set of names answer alike, whatever
    the order or repetition of the names and whatever the values.
   */
  lemma OnlyTheNameSetMatters(a: Exclude, b: Exclude, name: string, v: Value, w: Value)
    requires forall n :: n in a.names <==> n in b.names
    ensures Declines(a, name, v) == Declines(b, name, w)
  {
  }
}

=== FILE: injectors.dfy ===
/**
  `ClauseInjector` (hermitage/mappers/invoice.py): a query-parser mapper
  that finds the clauses addressed by a search key and rebuilds them with
  the operation's value translated through a reference (an enum member to
  its stored key, say) and a new address, the injection key.
 */
module Injectors {
  import opened Builtins
  import opened Values
  import opened Namespaces
  import opened Clauses

  /** `ClauseInjector(reference, search_key, injection_key=None)`. */
  datatype Injector = Injector(reference: Value -> Value, searchKey: string, injectionKey: Option<string>)

  /** `str(clause.address)`: "None" for a clause without address; `Address(None)` has no string form. */
  function AddressString(a: Option<Address>): (r: Outcome<string>)
    ensures a.None? ==> r == Ok("None")
    ensures a.Some? && a.value.Address? ==> r == Ok(a.value.value)
    ensures a.Some? && a.value.NoneAddress? ==> r == Raise(TypeError)
  {
    if a.None? then Ok("None") else AddressText(a.value)
  }

  /** `LogicalOperator.AND.value` and `LogicalOperator.OR.value`. */
  function JunctionCode(j: Junction): int
  {
    if j == And then 1 else 2
  }

  /** `LogicalOperator(v)`: only the two member values name a member. */
  function JunctionOf(v: Value): (r: Outcome<Junction>)
    ensures r.Ok? <==> v == Int(1) || v == Int(2)
    ensures r.Raise? ==> r.error == ValueError
    ensures forall j :: r == Ok(j) ==> v == Int(JunctionCode(j))
  {
    if v == Int(1) then Ok(And) else if v == Int(2) then Ok(Or) else Raise(ValueError)
  }

  /**
    The operation rebuilt around the translated value, as the operand the new
    clause is built from: a SET member by member, any other bit around its
    one value, a logical operator from its translated member value.  A
    clause without operation raises AttributeError (`None.value`).
   */
  function Translated(op: Option<ClauseOp>, reference: Value -> Value): (r: Outcome<Operand>)
    ensures op.None? ==> r == Raise(AttributeError)
    ensures op.Some? && op.value.BitOp? && op.value.bit.Set? ==>
      r.Ok? && r.value.OBit? && r.value.op.Set? && r.value.op.members == MapValues(op.value.bit.members, reference)
    ensures op.Some? && op.value.BitOp? && op.value.bit.Op? ==>
      r == Ok(OBit(Op(op.value.bit.kind, reference(op.value.bit.value))))
    ensures op.Some? && op.value.LogicalOp? ==>
      var t := JunctionOf(reference(Int(JunctionCode(op.value.junction))));
      (t.Raise? ==> r == Raise(t.error)) && (t.Ok? ==> r == Ok(OLogical(t.value)))
    ensures r.Ok? ==> r.value.OBit? || r.value.OLogical?
  {
    match op
    case None => Raise(AttributeError)
    case Some(BitOp(Set(ms))) => Ok(OBit(Set(MapValues(ms, reference))))
    case Some(BitOp(Op(kind, v))) => Ok(OBit(Op(kind, reference(v))))
    case Some(LogicalOp(j)) =>
      match JunctionOf(reference(Int(JunctionCode(j))))
      case Ok(k) => Ok(OLogical(k))
      case Raise(e) => Raise(e)
  }

  /** `Address(injection_key)`: with no key it is `Address(None)`. */
  function InjectedAddress(key: Option<string>): Address
  {
    if key.Some? then Address(key.value) else NoneAddress
  }

  /** `Clause(Address(key), operation)`: built from an address and a non-string operand. */
  lemma AddressAndOperation(a: Address, o: Operand)
    requires o.OBit? || o.OLogical?
    ensures Build([OAddress(a), o]) == Effect(Effect(Blank, o), OAddress(a))
  {
    assert [OAddress(a), o][..1] == [OAddress(a)];
    assert Processed([OAddress(a)]) == [OAddress(a)];
    assert Processed([OAddress(a), o]) == [o, OAddress(a)];
    assert Apply(Blank, [o, OAddress(a)]) == Apply(Effect(Blank, o), [OAddress(a)]);
    assert [OAddress(a)][1..] == [];
    assert Apply(Effect(Blank, o), [OAddress(a)]) == Apply(Effect(Effect(Blank, o), OAddress(a)), []);
  }

  /**
    `injector(clause)`.  A matching compound clause is rebuilt from its
    operator alone: its sub-clauses are not carried over to the new clause.
   */
  function Inject(inj: Injector, c: Clause): (r: Outcome<Clause>)
    ensures AddressString(c.address).Raise? ==> r == Raise(TypeError)
    ensures AddressString(c.address).Ok? && AddressString(c.address).value != inj.searchKey ==> r == Ok(c)
    ensures AddressString(c.address) == Ok(inj.searchKey) ==> (r.Raise? <==> Translated(c.operation, inj.reference).Raise?)
    ensures AddressString(c.address) == Ok(inj.searchKey) && r.Ok? ==>
      && r.value.address == Some(InjectedAddress(inj.injectionKey))
      && r.value.namespace == c.namespace
      && r.value.fixed == []
      && r.value.operation.Some?
      && (c.operation.value.BitOp? ==> r.value.operation == Some(BitOp(Translated(c.operation, inj.reference).value.op)) && r.value.stack == [])
      && (c.operation.value.LogicalOp? ==>
            var k := JunctionOf(inj.reference(Int(JunctionCode(c.operation.value.junction)))).value;
            r.value.operation == Some(LogicalOp(k)) && r.value.stack == [Token(k)])
  {
    match AddressString(c.address)
    case Raise(e) => Raise(e)
    case Ok(s) =>
      if s != inj.searchKey then Ok(c)
      else
        match Translated(c.operation, inj.reference)
        case Raise(e) => Raise(e)
        case Ok(o) =>
          var a := InjectedAddress(inj.injectionKey);
          AddressAndOperation(a, o);
          Ok(Build([OAddress(a), o]).(namespace := c.namespace))
  }

  /**
    A clause the injector has rebuilt is addressed by the injection key, so
    as long as that key differs from the search key, running the injector
    over its own output changes nothing.
   */
  lemma InjectSettles(inj: Injector, c: Clause)
    requires inj.injectionKey.Some? && inj.injectionKey.value != inj.searchKey
    requires Inject(inj, c).Ok?
    ensures Inject(inj, Inject(inj, c).value) == Inject(inj, c)
  {
  }

  /** A clause addressed by another key comes back as it is, whatever its operation. */
  lemma OtherClausesUntouched(inj: Injector, c: Clause, key: string)
    requires c.address == Some(Address(key)) && key != inj.searchKey
    ensures Inject(inj, c) == Ok(c)
  {
  }

  /** Without an injection key the rebuilt clause is addressed by `Address(None)`, which a second injector cannot print. */
  lemma MissingKeyBreaksChaining(inj: Injector, c: Clause, other: Injector)
    requires inj.injectionKey.None? && Inject(inj, c).Ok? && c.address != Inject(inj, c).value.address
    ensures Inject(other, Inject(inj, c).value) == Raise(TypeError)
  {
  }
}

=== FILE: invoices.dfy ===
/**
  Items, meta elements and the `Invoice` container
  (hermitage/definition/contracts.py).  An invoice keeps the elements it was
  given and four views rebuilt from them: items, clauses, rows and meta.
  Distributing an element mounts it under the invoice namespace; an item
  that carries a nested invoice re-mounts that invoice in turn.

  Items, clauses and meta elements are values here: mounting returns the
  element with its namespace set, and the invoice stores that value both in
  its element list and in the view, as the shared object would show it.
 */
module Invoices {
  import opened Builtins
  import opened Namespaces
  import opened Clauses
  import opened Rows

  /** `Item(name, *elements)`: a data element, optionally holding a nested invoice. */
  datatype Item = Item(
    name: string,
    address: Option<Address>,
    fixed: Namespace,
    invoice: Option<InvoiceValue>,
    namespace: Option<Namespace>)

  /** A `MetaElement`: only its fixed namespace and the namespace it gets matter to the core. */
  datatype Meta = Meta(beacon: string, fixed: Namespace, namespace: Option<Namespace>)

  /** What an invoice may be given; a string stands for an item of that name and address. */
  datatype Element =
    | ItemE(item: Item)
    | ClauseE(clause: Clause)
    | MetaE(meta: Meta)
    | RowE(row: Row)
    | TextE(s: string)
    | OtherE

  /**
    The `functools.cached_property` behind `invoice.rows`: not read yet, holding
    the current `_rows` list, or holding a list that `_rows` no longer is.
   */
  datatype RowsCache = Uncached | Live | Frozen(rows: seq<Row>)

  /** The state of one `Invoice` object. */
  datatype InvoiceValue = InvoiceValue(
    namespace: Namespace,
    elements: seq<Element>,
    items: seq<Item>,
    clauses: seq<Clause>,
    rows: seq<Row>,
    meta: seq<Meta>,
    cache: RowsCache)

  /** What one distributed element adds to the four views. */
  datatype Views = Views(items: seq<Item>, clauses: seq<Clause>, rows: seq<Row>, meta: seq<Meta>)

  const NoViews := Views([], [], [], [])

  function Extend(a: Views, b: Views): Views
  {
    Views(a.items + b.items, a.clauses + b.clauses, a.rows + b.rows, a.meta + b.meta)
  }

  function ViewsOf(v: InvoiceValue): Views
  {
    Views(v.items, v.clauses, v.rows, v.meta)
  }

  function WithViews(v: InvoiceValue, w: Views): InvoiceValue
  {
    v.(items := w.items, clauses := w.clauses, rows := w.rows, meta := w.meta)
  }

  // ---------------------------------------------------------------------------
  // Item._distribute
  // ---------------------------------------------------------------------------

  /** An `Item` constructor argument, told apart the way `_distribute` tells them apart. */
  datatype ItemArg = IText(s: string) | IInvoice(v: InvoiceValue) | IAddress(a: Address) | INamespace(ns: Namespace) | IOther

  function AddressPick(x: ItemArg): Option<Address>
  {
    match x
    case IText(s) => Some(Address(s))
    case IAddress(a) => Some(a)
    case _ => None
  }

  function InvoicePick(x: ItemArg): Option<InvoiceValue>
  {
    if x.IInvoice? then Some(x.v) else None
  }

  function NamespacePick(x: ItemArg): Option<Namespace>
  {
    if x.INamespace? then Some(x.ns) else None
  }

  /** What the last argument that sets a given attribute sets it to. */
  function LastOf<T, U>(xs: seq<T>, pick: T -> Option<U>): Option<U>
  {
    if xs == [] then None
    else if pick(xs[|xs| - 1]).Some? then pick(xs[|xs| - 1])
    else LastOf(xs[..|xs| - 1], pick)
  }

  /** Nothing is set when no argument sets it; otherwise it is set by an argument after which none sets it. */
  lemma {:induction false} LastOfIsLast<T, U>(xs: seq<T>, pick: T -> Option<U>)
    ensures LastOf(xs, pick).None? <==> forall i :: 0 <= i < |xs| ==> pick(xs[i]).None?
    ensures LastOf(xs, pick).Some? ==>
      exists i :: 0 <= i < |xs| && pick(xs[i]) == LastOf(xs, pick) && forall j :: i < j < |xs| ==> pick(xs[j]).None?
  {
    if xs != [] && pick(xs[|xs| - 1]).None? {
      var front := xs[..|xs| - 1];
      LastOfIsLast(front, pick);
      assert forall i :: 0 <= i < |front| ==> front[i] == xs[i];
      if LastOf(front, pick).Some? {
        var k :| 0 <= k < |front| && pick(front[k]) == LastOf(front, pick) && forall j :: k < j < |front| ==> pick(front[j]).None?;
        assert pick(xs[k]) == LastOf(xs, pick);
      }
    }
  }

  function OrEmpty(ns: Option<Namespace>): Namespace
  {
    if ns.Some? then ns.value else []
  }

  /** `Item(name, *elements)`: later arguments override earlier ones of the same kind; others are ignored. */
  method NewItem(name: string, args: seq<ItemArg>) returns (it: Item)
    ensures it.name == name && it.namespace.None?
    ensures it.address == LastOf(args, AddressPick)
    ensures it.invoice == LastOf(args, InvoicePick)
    ensures it.fixed == OrEmpty(LastOf(args, NamespacePick))
  {
    it := Item(name, None, [], None, None);
    for i := 0 to |args|
      invariant it.name == name && it.namespace.None?
      invariant it.address == LastOf(args[..i], AddressPick)
      invariant it.invoice == LastOf(args[..i], InvoicePick)
      invariant it.fixed == OrEmpty(LastOf(args[..i], NamespacePick))
    {
      assert args[..i + 1][..i] == args[..i];
      match args[i] {
        case IText(s) => it := it.(address := Some(Address(s)));
        case IInvoice(v) => it := it.(invoice := Some(v));
        case IAddress(a) => it := it.(address := Some(a));
        case INamespace(ns) => it := it.(fixed := ns);
        case IOther =>
      }
    }
    assert args[..|args|] == args;
  }

  /** `_normalize_element(s)`: `Item(s, Address(s))`. */
  function FromText(s: string): Item
  {
    Item(s, Some(Address(s)), [], None, None)
  }

  // ---------------------------------------------------------------------------
  // set_namespace and _distribute_elements
  // ---------------------------------------------------------------------------

  /** `InvoiceElement.set_namespace(ns)` on an item, without the nested invoice. */
  function Placed(it: Item, ns: Namespace): Item
  {
    it.(namespace := Some(Effective(ns, it.fixed)))
  }

  /**
    `Item.set_namespace(ns)`: mount the item, then re-mount its nested invoice
    under the item's first segment followed by the nested invoice's own
    namespace.  `first()` raises IndexError when the item's namespace is empty.
   */
  function MountItem(it: Item, ns: Namespace): (r: (Item, Option<PyError>))
    decreases it
    ensures r.0.name == it.name && r.0.address == it.address && r.0.fixed == it.fixed
    ensures r.0.namespace == Some(Effective(ns, it.fixed))
    ensures r.0.invoice.Some? <==> it.invoice.Some?
    ensures it.invoice.None? ==> r.1.None?
    ensures r.1.Some? ==> r.1 == Some(IndexError)
    ensures it.invoice.Some? && |Effective(ns, it.fixed)| == 0 ==> r.1 == Some(IndexError)
    ensures it.invoice.Some? && |Effective(ns, it.fixed)| > 0 ==>
      r.0.invoice.value.namespace == Concat(Parse(Effective(ns, it.fixed)[0]), it.invoice.value.namespace)
    ensures it.invoice.None? || |Effective(ns, it.fixed)| == 0 ==> r.0 == Placed(it, ns)
    ensures it.invoice.Some? && |Effective(ns, it.fixed)| > 0 ==>
      var inner := it.invoice.value;
      var d := Redistribute(inner, Concat(Parse(Effective(ns, it.fixed)[0]), inner.namespace));
      r == (Placed(it, ns).(invoice := Some(d.0)), d.1)
  {
    var placed := Placed(it, ns);
    if it.invoice.None? then (placed, None)
    else
      match First(placed.namespace.value)
      case Raise(e) => (placed, Some(e))
      case Ok(f) =>
        var inner := it.invoice.value;
        var (remounted, err) := Redistribute(inner, Concat(f, inner.namespace));
        (placed.(invoice := Some(remounted)), err)
  }

  /** `InvoiceElement.set_namespace(ns)` on a clause. */
  function MountClause(c: Clause, ns: Namespace): (r: Clause)
    ensures r.namespace == Some(Effective(ns, c.fixed))
    ensures r.(namespace := c.namespace) == c
  {
    c.(namespace := Some(Effective(ns, c.fixed)))
  }

  /** `InvoiceElement.set_namespace(ns)` on a meta element. */
  function MountMeta(m: Meta, ns: Namespace): (r: Meta)
    ensures r.namespace == Some(Effective(ns, m.fixed))
    ensures r.(namespace := m.namespace) == m
  {
    m.(namespace := Some(Effective(ns, m.fixed)))
  }

  /**
    `_distribute_element`: mount the element and say what it adds to the
    views.  An item is mounted and, unless re-mounting its nested invoice
    raised, added to the items; a string adds the item it stands for; a
    clause or meta element is mounted and added to its view; a row is added
    as it is; anything else is kept and adds nothing.
   */
  function Place(ns: Namespace, e: Element): (r: (Element, Views, Option<PyError>))
    decreases e
    ensures r.2.Some? ==> r.1 == NoViews && r.2 == Some(IndexError)
    ensures Mounted(r.1, ns)
    ensures e.RowE? ==> r == (e, Views([], [], [e.row], []), None)
    ensures !e.RowE? ==> r.1.rows == []
    ensures e.ItemE? ==> r.0.ItemE? && r.0.item == MountItem(e.item, ns).0
    ensures !HoldsInvoice(e) ==> r.2.None?
    ensures e.TextE? ==> r.0 == e && r.1 == Views([Placed(FromText(e.s), ns)], [], [], [])
    ensures r.2.None? ==> Size(r.1) == (if e.OtherE? then 0 else 1)
    ensures e.ItemE? ==> r.2 == MountItem(e.item, ns).1 && (r.2.None? ==> r.1 == Views([r.0.item], [], [], []))
    ensures e.ClauseE? ==> r == (ClauseE(MountClause(e.clause, ns)), Views([], [MountClause(e.clause, ns)], [], []), None)
    ensures e.MetaE? ==> r == (MetaE(MountMeta(e.meta, ns)), Views([], [], [], [MountMeta(e.meta, ns)]), None)
    ensures e.OtherE? ==> r == (e, NoViews, None)
  {
    match e
    case ItemE(it) =>
      var (mounted, err) := MountItem(it, ns);
      (ItemE(mounted), if err.Some? then NoViews else Views([mounted], [], [], []), err)
    case TextE(s) => (e, Views([Placed(FromText(s), ns)], [], [], []), None)
    case MetaE(m) =>
      var mounted := MountMeta(m, ns);
      (MetaE(mounted), Views([], [], [], [mounted]), None)
    case ClauseE(c) =>
      var mounted := MountClause(c, ns);
      (ClauseE(mounted), Views([], [mounted], [], []), None)
    case RowE(row) => (e, Views([], [], [row], []), None)
    case OtherE => (e, NoViews, None)
  }

  /** Only an item with a nested invoice can make distribution raise. */
  predicate HoldsInvoice(e: Element)
  {
    e.ItemE? && e.item.invoice.Some?
  }

  /** Every item, clause and meta element in the views is mounted under `ns`; rows are never mounted. */
  predicate Mounted(w: Views, ns: Namespace)
  {
    && (forall i :: 0 <= i < |w.items| ==> w.items[i].namespace == Some(Effective(ns, w.items[i].fixed)))
    && (forall i :: 0 <= i < |w.clauses| ==> w.clauses[i].namespace == Some(Effective(ns, w.clauses[i].fixed)))
    && (forall i :: 0 <= i < |w.meta| ==> w.meta[i].namespace == Some(Effective(ns, w.meta[i].fixed)))
  }

  function Size(w: Views): nat
  {
    |w.items| + |w.clauses| + |w.rows| + |w.meta|
  }

  /** The rows among the elements, in order. */
  function RowsOf(es: seq<Element>): seq<Row>
  {
    if es == [] then [] else (if es[0].RowE? then [es[0].row] else []) + RowsOf(es[1..])
  }

  /** The items among the given elements, a string standing for `Item(s, Address(s))`, in order. */
  function ItemsOf(es: seq<Element>): seq<Item>
  {
    if es == [] then []
    else (match es[0] case ItemE(it) => [it] case TextE(s) => [FromText(s)] case _ => []) + ItemsOf(es[1..])
  }

  /** The clauses among the elements, in order. */
  function ClausesOf(es: seq<Element>): seq<Clause>
  {
    if es == [] then [] else (if es[0].ClauseE? then [es[0].clause] else []) + ClausesOf(es[1..])
  }

  /** The meta elements among the elements, in order. */
  function MetaOf(es: seq<Element>): seq<Meta>
  {
    if es == [] then [] else (if es[0].MetaE? then [es[0].meta] else []) + MetaOf(es[1..])
  }

  /** The items view that mounted elements give: an item as it was mounted, a string as its item mounted under `ns`. */
  function ItemView(ns: Namespace, ms: seq<Element>): seq<Item>
  {
    if ms == [] then []
    else (match ms[0] case ItemE(it) => [it] case TextE(s) => [Placed(FromText(s), ns)] case _ => []) + ItemView(ns, ms[1..])
  }

  /** How many elements are of a kind the invoice distributes. */
  function Distributable(es: seq<Element>): nat
  {
    if es == [] then 0 else (if es[0].OtherE? then 0 else 1) + Distributable(es[1..])
  }

  /**
    The loop of `_distribute_elements` from position `i` of `v`'s elements,
    with the element list as mounted so far and the views built so far; it
    stops at the first element that raises.
   */
  function Walk(ns: Namespace, v: InvoiceValue, i: nat, es: seq<Element>, w: Views): (r: (seq<Element>, Views, Option<PyError>))
    requires i <= |v.elements| && |es| == |v.elements|
    decreases v, |v.elements| - i
    ensures |r.0| == |v.elements|
    ensures Mounted(w, ns) ==> Mounted(r.1, ns)
    ensures r.2.Some? ==> r.2 == Some(IndexError)
    ensures (forall j :: i <= j < |v.elements| ==> !HoldsInvoice(v.elements[j])) ==> r.2.None?
    ensures r.2.None? ==> r.1.rows == w.rows + RowsOf(v.elements[i..])
    ensures r.2.None? ==> Size(r.1) == Size(w) + Distributable(v.elements[i..])
    ensures forall j :: 0 <= j < i ==> r.0[j] == es[j]
  {
    if i == |v.elements| then (es, w, None)
    else
      assert v.elements[i] in v.elements;
      assert v.elements[i..][1..] == v.elements[i + 1..];
      var (e, add, err) := Place(ns, v.elements[i]);
      var es', w' := es[i := e], Extend(w, add);
      ExtendMounted(w, add, ns);
      if err.Some? then (es', w', err)
      else
        PlaceCounts(v.elements[i..], ns, w);
        Walk(ns, v, i + 1, es', w')
  }

  /** One step of the walk: place element `i`, then stop on an error or walk on. */
  lemma WalkStep(ns: Namespace, v: InvoiceValue, i: nat, es: seq<Element>, w: Views)
    requires i < |v.elements| && |es| == |v.elements|
    ensures Walk(ns, v, i, es, w) ==
      var r := Place(ns, v.elements[i]);
      if r.2.Some? then (es[i := r.0], Extend(w, r.1), r.2) else Walk(ns, v, i + 1, es[i := r.0], Extend(w, r.1))
  {
  }

  /**
    The loop of `_distribute_elements` over `v`'s elements: mount each in
    turn, append what it adds to the views, and stop at the first error,
    with the element list and views as far as they got.
   */
  method DistributeAll(ns: Namespace, v: InvoiceValue) returns (es: seq<Element>, w: Views, raised: Option<PyError>)
    ensures (es, w, raised) == Walk(ns, v, 0, v.elements, NoViews)
  {
    ghost var target := Walk(ns, v, 0, v.elements, NoViews);
    es, w, raised := v.elements, NoViews, None;
    var i := 0;
    while i < |es|
      invariant 0 <= i <= |es| == |v.elements|
      invariant forall j :: i <= j < |es| ==> es[j] == v.elements[j]
      invariant Walk(ns, v, i, es, w) == target
    {
      WalkStep(ns, v, i, es, w);
      var r := Place(ns, es[i]);
      es, w := es[i := r.0], Extend(w, r.1);
      if r.2.Some? {
        raised := r.2;
        return;
      }
      i := i + 1;
    }
  }

  /** From position `i` on, a walk that did not raise leaves each element mounted as `Place` mounts it. */
  lemma {:induction false} WalkMounts(ns: Namespace, v: InvoiceValue, i: nat, es: seq<Element>, w: Views)
    requires i <= |v.elements| && |es| == |v.elements|
    decreases |v.elements| - i
    ensures var r := Walk(ns, v, i, es, w);
      r.2.None? ==> forall j :: i <= j < |v.elements| ==> r.0[j] == Place(ns, v.elements[j]).0
  {
    if i < |v.elements| {
      WalkStep(ns, v, i, es, w);
      var p := Place(ns, v.elements[i]);
      if p.2.None? {
        WalkMounts(ns, v, i + 1, es[i := p.0], Extend(w, p.1));
      }
    }
  }

  /** From position `i` on, a walk that did not raise appends to each view what the mounted elements hold of its kind, in order. */
  lemma {:induction false} WalkViews(ns: Namespace, v: InvoiceValue, i: nat, es: seq<Element>, w: Views)
    requires i <= |v.elements| && |es| == |v.elements|
    decreases |v.elements| - i
    ensures var r := Walk(ns, v, i, es, w);
      r.2.None? ==>
        && r.1.items == w.items + ItemView(ns, r.0[i..])
        && r.1.clauses == w.clauses + ClausesOf(r.0[i..])
        && r.1.meta == w.meta + MetaOf(r.0[i..])
  {
    if i < |v.elements| {
      WalkStep(ns, v, i, es, w);
      var p := Place(ns, v.elements[i]);
      if p.2.None? {
        var es', w' := es[i := p.0], Extend(w, p.1);
        assert Walk(ns, v, i, es, w) == Walk(ns, v, i + 1, es', w');
        WalkViews(ns, v, i + 1, es', w');
        var r := Walk(ns, v, i + 1, es', w');
        if r.2.None? {
          assert r.0[i] == p.0;
          PlaceAdds(v.elements[i..], r.0[i..], ns);
          assert r.0[i..][1..] == r.0[i + 1..];
          ViewsStep(ns, r.0, i, w, p.1, r.1);
        }
      }
    } else {
      assert Walk(ns, v, i, es, w).0[i..] == [];
    }
  }

  lemma ViewsStep(ns: Namespace, ms: seq<Element>, i: nat, w: Views, add: Views, u: Views)
    requires i < |ms|
    requires ItemView(ns, ms[i..]) == add.items + ItemView(ns, ms[i + 1..])
    requires ClausesOf(ms[i..]) == add.clauses + ClausesOf(ms[i + 1..])
    requires MetaOf(ms[i..]) == add.meta + MetaOf(ms[i + 1..])
    requires u.items == Extend(w, add).items + ItemView(ns, ms[i + 1..])
    requires u.clauses == Extend(w, add).clauses + ClausesOf(ms[i + 1..])
    requires u.meta == Extend(w, add).meta + MetaOf(ms[i + 1..])
    ensures u.items == w.items + ItemView(ns, ms[i..])
    ensures u.clauses == w.clauses + ClausesOf(ms[i..])
    ensures u.meta == w.meta + MetaOf(ms[i..])
  {
  }

  /** `[MountItem(x, ns) for x in its]`, keeping the items and dropping the errors. */
  function MountItems(its: seq<Item>, ns: Namespace): (r: seq<Item>)
    ensures |r| == |its| && forall k :: 0 <= k < |its| ==> r[k] == MountItem(its[k], ns).0
  {
    if its == [] then [] else [MountItem(its[0], ns).0] + MountItems(its[1..], ns)
  }

  function MountClauses(cs: seq<Clause>, ns: Namespace): (r: seq<Clause>)
    ensures |r| == |cs| && forall k :: 0 <= k < |cs| ==> r[k] == MountClause(cs[k], ns)
  {
    if cs == [] then [] else [MountClause(cs[0], ns)] + MountClauses(cs[1..], ns)
  }

  function MountMetas(ms: seq<Meta>, ns: Namespace): (r: seq<Meta>)
    ensures |r| == |ms| && forall k :: 0 <= k < |ms| ==> r[k] == MountMeta(ms[k], ns)
  {
    if ms == [] then [] else [MountMeta(ms[0], ns)] + MountMetas(ms[1..], ns)
  }

  /** Elements mounted one by one with `Place`, from `es` to `ms`. */
  predicate PlacedEach(es: seq<Element>, ms: seq<Element>, ns: Namespace)
  {
    |ms| == |es| && forall j :: 0 <= j < |es| ==> ms[j] == Place(ns, es[j]).0
  }

  lemma PlacedEachTail(es: seq<Element>, ms: seq<Element>, ns: Namespace)
    requires es != [] && PlacedEach(es, ms, ns)
    ensures ms[0] == Place(ns, es[0]).0 && PlacedEach(es[1..], ms[1..], ns)
  {
    forall j | 0 <= j < |es| - 1
      ensures ms[1..][j] == Place(ns, es[1..][j]).0
    {
      assert ms[1..][j] == ms[j + 1] && es[1..][j] == es[j + 1];
    }
  }

  /** Elements mounted one by one hold the given items, a string standing for its item, each mounted, in order. */
  lemma {:induction false} PlacedItems(es: seq<Element>, ms: seq<Element>, ns: Namespace)
    requires PlacedEach(es, ms, ns)
    ensures ItemView(ns, ms) == MountItems(ItemsOf(es), ns)
  {
    if es != [] {
      PlacedEachTail(es, ms, ns);
      PlacedItems(es[1..], ms[1..], ns);
      var rest := ItemsOf(es[1..]);
      match es[0]
      case ItemE(it) =>
        assert ([it] + rest)[1..] == rest;
      case TextE(s) =>
        assert ([FromText(s)] + rest)[1..] == rest;
      case _ =>
    }
  }

  /** Elements mounted one by one hold the given clauses, each mounted, in order. */
  lemma {:induction false} PlacedClauses(es: seq<Element>, ms: seq<Element>, ns: Namespace)
    requires PlacedEach(es, ms, ns)
    ensures ClausesOf(ms) == MountClauses(ClausesOf(es), ns)
  {
    if es != [] {
      PlacedEachTail(es, ms, ns);
      PlacedClauses(es[1..], ms[1..], ns);
      if es[0].ClauseE? {
        assert ([es[0].clause] + ClausesOf(es[1..]))[1..] == ClausesOf(es[1..]);
      }
    }
  }

  /** Elements mounted one by one hold the given meta elements, each mounted, in order. */
  lemma {:induction false} PlacedMeta(es: seq<Element>, ms: seq<Element>, ns: Namespace)
    requires PlacedEach(es, ms, ns)
    ensures MetaOf(ms) == MountMetas(MetaOf(es), ns)
  {
    if es != [] {
      PlacedEachTail(es, ms, ns);
      PlacedMeta(es[1..], ms[1..], ns);
      if es[0].MetaE? {
        assert ([es[0].meta] + MetaOf(es[1..]))[1..] == MetaOf(es[1..]);
      }
    }
  }

  /**
    After a distribution that did not raise, every element is mounted as
    `Place` mounts it, and each view holds exactly the given elements of its
    kind, in order, each mounted under the new namespace: the items (a
    string standing for its item) with their nested invoices re-mounted,
    the clauses and the meta elements; the rows view holds the rows.
   */
  lemma DistributedViews(v: InvoiceValue, ns: Namespace)
    requires Redistribute(v, ns).1.None?
    ensures var r := Redistribute(v, ns).0;
      && (forall j :: 0 <= j < |v.elements| ==> r.elements[j] == Place(ns, v.elements[j]).0)
      && r.items == MountItems(ItemsOf(v.elements), ns)
      && r.clauses == MountClauses(ClausesOf(v.elements), ns)
      && r.meta == MountMetas(MetaOf(v.elements), ns)
      && r.rows == RowsOf(v.elements)
  {
    WalkMounts(ns, v, 0, v.elements, NoViews);
    WalkViews(ns, v, 0, v.elements, NoViews);
    var w := Walk(ns, v, 0, v.elements, NoViews);
    assert w.0[0..] == w.0;
    PlacedItems(v.elements, w.0, ns);
    PlacedClauses(v.elements, w.0, ns);
    PlacedMeta(v.elements, w.0, ns);
  }

  /** `Redistribute` is the walk from the first element with empty views, under the refreshed cache. */
  lemma RedistributeWalks(v: InvoiceValue, ns: Namespace)
    ensures var w := Walk(ns, v, 0, v.elements, NoViews);
      Redistribute(v, ns) == (InvoiceValue(ns, w.0, w.1.items, w.1.clauses, w.1.rows, w.1.meta, Refreshed(v.cache, v.rows)), w.2)
  {
  }

  /** A placed element contributes to each view what the projections read off its mounted form. */
  lemma PlaceAdds(es: seq<Element>, ms: seq<Element>, ns: Namespace)
    requires es != [] && Place(ns, es[0]).2.None? && ms != [] && ms[0] == Place(ns, es[0]).0
    ensures ItemView(ns, ms) == Place(ns, es[0]).1.items + ItemView(ns, ms[1..])
    ensures ClausesOf(ms) == Place(ns, es[0]).1.clauses + ClausesOf(ms[1..])
    ensures MetaOf(ms) == Place(ns, es[0]).1.meta + MetaOf(ms[1..])
  {
  }

  lemma ExtendMounted(a: Views, b: Views, ns: Namespace)
    requires Mounted(b, ns)
    ensures Mounted(a, ns) ==> Mounted(Extend(a, b), ns)
  {
  }

  /** Placing the first of `es` adds its row, if it is one, and one view entry unless it is of no kind. */
  lemma PlaceCounts(es: seq<Element>, ns: Namespace, w: Views)
    requires es != [] && Place(ns, es[0]).2.None?
    ensures Extend(w, Place(ns, es[0]).1).rows + RowsOf(es[1..]) == w.rows + RowsOf(es)
    ensures Size(Extend(w, Place(ns, es[0]).1)) + Distributable(es[1..]) == Size(w) + Distributable(es)
  {
    var add := Place(ns, es[0]).1;
    assert add.rows == (if es[0].RowE? then [es[0].row] else []);
    assert (w.rows + add.rows) + RowsOf(es[1..]) == w.rows + (add.rows + RowsOf(es[1..]));
  }

  /** What `_distribute_elements` does to the cache: a live cache keeps the list being replaced. */
  function Refreshed(cache: RowsCache, previous: seq<Row>): RowsCache
  {
    if cache.Live? then Frozen(previous) else cache
  }

  /** `invoice.set_namespace(ns)` for a Namespace `ns`: set the namespace and rebuild every view. */
  function Redistribute(v: InvoiceValue, ns: Namespace): (r: (InvoiceValue, Option<PyError>))
    decreases v, |v.elements| + 1
    ensures r.0.namespace == ns && |r.0.elements| == |v.elements|
    ensures r.0.cache == Refreshed(v.cache, v.rows)
    ensures Mounted(ViewsOf(r.0), ns)
    ensures r.1.Some? ==> r.1 == Some(IndexError)
    ensures (forall j :: 0 <= j < |v.elements| ==> !HoldsInvoice(v.elements[j])) ==> r.1.None?
    ensures r.1.None? ==> r.0.rows == RowsOf(v.elements)
    ensures r.1.None? ==> Size(ViewsOf(r.0)) == Distributable(v.elements)
  {
    var (es, w, err) := Walk(ns, v, 0, v.elements, NoViews);
    assert v.elements[0..] == v.elements;
    (InvoiceValue(ns, es, w.items, w.clauses, w.rows, w.meta, Refreshed(v.cache, v.rows)), err)
  }

  /** `invoice.set_namespace(arg)`: a Namespace re-mounts everything; any other argument, a string included, changes nothing. */
  datatype NamespaceArg = NsObject(ns: Namespace) | NsText(s: string) | NsOther

  function Remount(v: InvoiceValue, arg: NamespaceArg): (r: (InvoiceValue, Option<PyError>))
    ensures !arg.NsObject? ==> r == (v, None)
    ensures arg.NsObject? ==> r.0.namespace == arg.ns && Mounted(ViewsOf(r.0), arg.ns)
  {
    if arg.NsObject? then Redistribute(v, arg.ns) else (v, None)
  }

  // ---------------------------------------------------------------------------
  // __add__
  // ---------------------------------------------------------------------------

  /**
    `x.address == other.address` for two item addresses: `Address.__eq__`
    reads `other.value`, so a missing address on either side (and not both)
    raises AttributeError.
   */
  function AddressEquals(a: Option<Address>, b: Option<Address>): (r: Outcome<bool>)
    ensures r.Raise? <==> a.Some? != b.Some?
    ensures r.Raise? ==> r.error == AttributeError
    ensures r.Ok? ==> (r.value <==> a == b)
  {
    if a.None? && b.None? then Ok(true)
    else if a.None? || b.None? then Raise(AttributeError)
    else Ok(a.value == b.value)
  }

  /** `any(filter(lambda x: x.address == address, items))`, scanning left to right. */
  function AnyAddress(items: seq<Item>, address: Option<Address>): (r: Outcome<bool>)
  {
    if items == [] then Ok(false)
    else match AddressEquals(items[0].address, address)
      case Raise(e) => Raise(e)
      case Ok(true) => Ok(true)
      case Ok(false) => AnyAddress(items[1..], address)
  }

  /** `_elements.append(e)` followed by `_distribute_element(e)`. */
  function Append(v: InvoiceValue, e: Element): (r: (InvoiceValue, Option<PyError>))
  {
    var (placed, add, err) := Place(v.namespace, e);
    (WithViews(v.(elements := v.elements + [placed]), Extend(ViewsOf(v), add)), err)
  }

  /** `invoice + e`: an item whose address an item of the invoice already has is dropped. */
  function Plus(v: InvoiceValue, e: Element): (r: (InvoiceValue, Option<PyError>))
  {
    if e.ItemE? then
      match AnyAddress(v.items, e.item.address)
      case Raise(err) => (v, Some(err))
      case Ok(true) => (v, None)
      case Ok(false) => Append(v, e)
    else Append(v, e)
  }

  /** Every item of the invoice and the added one carry an address. */
  predicate Addressed(v: InvoiceValue, it: Item)
  {
    it.address.Some? && forall i :: 0 <= i < |v.items| ==> v.items[i].address.Some?
  }

  lemma {:induction false} AnyAddressFound(items: seq<Item>, a: Address)
    requires forall i :: 0 <= i < |items| ==> items[i].address.Some?
    ensures AnyAddress(items, Some(a)) == Ok(exists i :: 0 <= i < |items| && items[i].address == Some(a))
  {
    if items != [] {
      AnyAddressFound(items[1..], a);
      if items[0].address != Some(a) {
        assert (exists i :: 0 <= i < |items| && items[i].address == Some(a))
          <==> (exists i :: 0 <= i < |items[1..]| && items[1..][i].address == Some(a)) by {
          forall i | 0 <= i < |items| && items[i].address == Some(a)
            ensures 0 <= i - 1 < |items[1..]| && items[1..][i - 1].address == Some(a)
          {
          }
        }
      }
    }
  }

  /** Adding an item whose address is already taken leaves the invoice as it was. */
  lemma DuplicateAddIsNoop(v: InvoiceValue, it: Item)
    requires Addressed(v, it)
    requires exists i :: 0 <= i < |v.items| && v.items[i].address == it.address
    ensures Plus(v, ItemE(it)) == (v, None)
  {
    AnyAddressFound(v.items, it.address.value);
  }

  /** Adding an item with a new address appends it to the elements and, mounted, to the items. */
  lemma FreshAddAppends(v: InvoiceValue, it: Item)
    requires Addressed(v, it)
    requires forall i :: 0 <= i < |v.items| ==> v.items[i].address != it.address
    requires MountItem(it, v.namespace).1.None?
    ensures Plus(v, ItemE(it)) == (v.(elements := v.elements + [ItemE(MountItem(it, v.namespace).0)],
                                      items := v.items + [MountItem(it, v.namespace).0]), None)
  {
    AnyAddressFound(v.items, it.address.value);
    assert Place(v.namespace, ItemE(it)).1 == Views([MountItem(it, v.namespace).0], [], [], []);
    assert v.clauses + [] == v.clauses && v.rows + [] == v.rows && v.meta + [] == v.meta;
  }

  /** A string element is never checked against the items: `invoice + s` always appends. */
  lemma TextAddAppends(v: InvoiceValue, s: string)
    ensures Plus(v, TextE(s)) == (v.(elements := v.elements + [TextE(s)],
                                     items := v.items + [Placed(FromText(s), v.namespace)]), None)
  {
    assert v.clauses + [] == v.clauses && v.rows + [] == v.rows && v.meta + [] == v.meta;
  }

  /** An item without an address, added to an invoice whose first item has one, raises AttributeError. */
  lemma MissingAddressRaises(v: InvoiceValue, it: Item)
    requires it.address.None? && |v.items| > 0 && v.items[0].address.Some?
    ensures Plus(v, ItemE(it)) == (v, Some(AttributeError))
  {
  }

  /** Adding keeps every view mounted under the invoice namespace. */
  lemma PlusKeepsMounted(v: InvoiceValue, e: Element)
    requires Mounted(ViewsOf(v), v.namespace)
    ensures Plus(v, e).0.namespace == v.namespace
    ensures Mounted(ViewsOf(Plus(v, e).0), v.namespace)
  {
    var (_, add, _) := Place(v.namespace, e);
    assert Mounted(add, v.namespace);
    var w := Extend(ViewsOf(v), add);
    assert forall i :: 0 <= i < |w.items| ==> w.items[i] == (if i < |v.items| then v.items[i] else add.items[i - |v.items|]);
    assert forall i :: 0 <= i < |w.clauses| ==> w.clauses[i] == (if i < |v.clauses| then v.clauses[i] else add.clauses[i - |v.clauses|]);
    assert forall i :: 0 <= i < |w.meta| ==> w.meta[i] == (if i < |v.meta| then v.meta[i] else add.meta[i - |v.meta|]);
  }

  // ---------------------------------------------------------------------------
  // Properties of mounting
  // ---------------------------------------------------------------------------

  /**
    Mounting an item with a nested invoice twice under the same namespace
    leaves the nested invoice where the first mount put it: the item's first
    segment is not prefixed a second time.
   */
  lemma RemountIsStable(it: Item, ns: Namespace)
    requires it.invoice.Some?
    requires |Effective(ns, it.fixed)| > 0 && Free(Effective(ns, it.fixed)[0], '.')
    ensures MountItem(MountItem(it, ns).0, ns).0.invoice.value.namespace == MountItem(it, ns).0.invoice.value.namespace
  {
    var segment := Effective(ns, it.fixed)[0];
    ParseSegment(segment);
    ConcatAbsorbs(Parse(segment), it.invoice.value.namespace);
  }

  /** On success every row element is in the rows view, in order, and nothing else is. */
  lemma RowsAreTheRowElements(v: InvoiceValue, ns: Namespace)
    requires Redistribute(v, ns).1.None?
    ensures Redistribute(v, ns).0.rows == RowsOf(v.elements)
    ensures forall r :: r in Redistribute(v, ns).0.rows <==> RowE(r) in v.elements
  {
    RowsOfMembers(v.elements);
  }

  lemma {:induction false} RowsOfMembers(es: seq<Element>)
    ensures forall r :: r in RowsOf(es) <==> RowE(r) in es
  {
    if es != [] {
      RowsOfMembers(es[1..]);
      assert es == [es[0]] + es[1..];
    }
  }

  // ---------------------------------------------------------------------------
  // iteration and the cached rows
  // ---------------------------------------------------------------------------

  /** What `iter(invoice)` yields. */
  datatype Entry = ItemEntry(item: Item) | ClauseEntry(clause: Clause) | RowEntry(row: Row) | MetaEntry(meta: Meta)

  function ItemEntries(xs: seq<Item>): (r: seq<Entry>)
    ensures |r| == |xs| && forall i :: 0 <= i < |xs| ==> r[i] == ItemEntry(xs[i])
  {
    if xs == [] then [] else [ItemEntry(xs[0])] + ItemEntries(xs[1..])
  }

  function ClauseEntries(xs: seq<Clause>): (r: seq<Entry>)
    ensures |r| == |xs| && forall i :: 0 <= i < |xs| ==> r[i] == ClauseEntry(xs[i])
  {
    if xs == [] then [] else [ClauseEntry(xs[0])] + ClauseEntries(xs[1..])
  }

  function RowEntries(xs: seq<Row>): (r: seq<Entry>)
    ensures |r| == |xs| && forall i :: 0 <= i < |xs| ==> r[i] == RowEntry(xs[i])
  {
    if xs == [] then [] else [RowEntry(xs[0])] + RowEntries(xs[1..])
  }

  function MetaEntries(xs: seq<Meta>): (r: seq<Entry>)
    ensures |r| == |xs| && forall i :: 0 <= i < |xs| ==> r[i] == MetaEntry(xs[i])
  {
    if xs == [] then [] else [MetaEntry(xs[0])] + MetaEntries(xs[1..])
  }

  /** `iter(invoice)`: items, then clauses, then rows, then meta elements. */
  function Entries(v: InvoiceValue): seq<Entry>
  {
    ItemEntries(v.items) + ClauseEntries(v.clauses) + RowEntries(v.rows) + MetaEntries(v.meta)
  }

  /** After a distribution that did not raise, iteration yields one entry per element that is not of a foreign kind. */
  lemma EntriesCount(v: InvoiceValue, ns: Namespace)
    requires Redistribute(v, ns).1.None?
    ensures |Entries(Redistribute(v, ns).0)| == Distributable(v.elements)
  {
  }

  /** Iteration visits the views in order: the items come first, the meta elements last. */
  lemma EntriesOrder(v: InvoiceValue)
    ensures Entries(v)[..|v.items|] == ItemEntries(v.items)
    ensures Entries(v)[|v.items|..|v.items| + |v.clauses|] == ClauseEntries(v.clauses)
    ensures Entries(v)[|v.items| + |v.clauses|..|v.items| + |v.clauses| + |v.rows|] == RowEntries(v.rows)
    ensures Entries(v)[|Entries(v)| - |v.meta|..] == MetaEntries(v.meta)
  {
    var a, b, c, d := ItemEntries(v.items), ClauseEntries(v.clauses), RowEntries(v.rows), MetaEntries(v.meta);
    assert Entries(v) == a + b + c + d;
    assert (a + b + c + d)[|a|..|a| + |b|] == b;
    assert (a + b + c + d)[|a| + |b|..|a| + |b| + |c|] == c;
  }

  /** `invoice.rows` as written: once read, the cached list is served even after `_rows` is replaced. */
  function CachedRows(v: InvoiceValue): seq<Row>
  {
    if v.cache.Frozen? then v.cache.rows else v.rows
  }

  /** `invoice.rows` as evidently intended: the rows view the invoice currently holds. */
  function CurrentRows(v: InvoiceValue): (r: seq<Row>)
    ensures r == v.rows
    ensures forall x :: x in r ==> RowEntry(x) in Entries(v)
  {
    assert forall x :: x in v.rows ==> RowEntry(x) in RowEntries(v.rows);
    v.rows
  }

  lemma {:induction false} WalkReadsElements(ns: Namespace, v: InvoiceValue, u: InvoiceValue, i: nat, es: seq<Element>, w: Views)
    requires v.elements == u.elements && i <= |v.elements| && |es| == |v.elements|
    decreases |v.elements| - i
    ensures Walk(ns, v, i, es, w) == Walk(ns, u, i, es, w)
  {
    if i < |v.elements| {
      var (e, add, err) := Place(ns, v.elements[i]);
      if err.None? {
        WalkReadsElements(ns, v, u, i + 1, es[i := e], Extend(w, add));
      }
    }
  }

  /** Re-mounting does not depend on the namespace the invoice had before. */
  lemma RedistributeReadsElements(v: InvoiceValue, ns: Namespace)
    ensures Redistribute(v.(namespace := ns), ns) == Redistribute(v, ns)
  {
    WalkReadsElements(ns, v, v.(namespace := ns), 0, v.elements, NoViews);
  }

  /** The value of a fresh invoice before its elements are distributed. */
  function Fresh(ns: Namespace, es: seq<Element>): InvoiceValue
  {
    InvoiceValue(ns, es, [], [], [], [], Uncached)
  }

  /**
    Reading `rows`, re-mounting and then adding a row: the cached list no
    longer matches what iteration yields, while the current rows view does.
   */
  lemma StaleRowsAfterRemount(first: Row, second: Row)
    requires first != second
    ensures var read := Redistribute(Fresh(["a"], [RowE(first)]), ["a"]).0.(cache := Live);
            var remounted := Redistribute(read, ["b"]).0;
            var added := Plus(remounted, RowE(second)).0;
            && CachedRows(added) == [first]
            && RowEntry(second) in Entries(added)
            && CurrentRows(added) == [first, second]
  {
    var v := Fresh(["a"], [RowE(first)]);
    var read := Redistribute(v, ["a"]).0.(cache := Live);
    assert RowsOf([RowE(first)]) == [first];
    assert Walk(["a"], v, 0, v.elements, NoViews).0 == [RowE(first)];
    assert read.elements == [RowE(first)];
    var remounted := Redistribute(read, ["b"]).0;
    assert remounted.rows == [first];
    var added := Plus(remounted, RowE(second)).0;
    assert added.rows == [first, second];
    assert RowEntries(added.rows)[1] == RowEntry(second);
  }

  // ---------------------------------------------------------------------------
  // Invoice
  // ---------------------------------------------------------------------------

  class Invoice {
    var namespace: Namespace
    var elements: seq<Element>
    var items: seq<Item>
    var clauses: seq<Clause>
    var rows: seq<Row>
    var meta: seq<Meta>
    var cache: RowsCache

    function Value(): InvoiceValue
      reads this
    {
      InvoiceValue(namespace, elements, items, clauses, rows, meta, cache)
    }

    constructor Init(ns: Namespace, es: seq<Element>)
      ensures Value() == Fresh(ns, es)
    {
      namespace, elements := ns, es;
      items, clauses, rows, meta := [], [], [], [];
      cache := Uncached;
    }

    /** `Invoice(namespace, *elements)`: a string namespace is parsed; an element that raises aborts construction. */
    static method Create(arg: NamespaceArg, es: seq<Element>) returns (r: Outcome<Invoice>)
      requires !arg.NsOther?
      ensures var ns := if arg.NsText? then Parse(arg.s) else arg.ns;
              var d := Redistribute(Fresh(ns, es), ns);
              && (r.Ok? <==> d.1.None?)
              && (r.Raise? ==> r.error == d.1.value)
              && (r.Ok? ==> fresh(r.value) && r.value.Value() == d.0)
    {
      var ns := if arg.NsText? then Parse(arg.s) else arg.ns;
      var inv := new Invoice.Init(ns, es);
      var raised := inv.DistributeElements();
      if raised.Some? {
        r := Raise(raised.value);
      } else {
        r := Ok(inv);
      }
    }

    /** `_distribute_elements`: rebuild the four views from the elements, mounting each one. */
    method DistributeElements() returns (raised: Option<PyError>)
      modifies this
      ensures (Value(), raised) == Redistribute(old(Value()), old(namespace))
    {
      RedistributeWalks(Value(), namespace);
      var es, w, err := DistributeAll(namespace, Value());
      elements, cache := es, Refreshed(cache, rows);
      items, clauses, rows, meta := w.items, w.clauses, w.rows, w.meta;
      raised := err;
    }

    /** `set_namespace(arg)`. */
    method SetNamespace(arg: NamespaceArg) returns (raised: Option<PyError>)
      modifies this
      ensures (Value(), raised) == Remount(old(Value()), arg)
    {
      if arg.NsObject? {
        RedistributeReadsElements(Value(), arg.ns);
        namespace := arg.ns;
        raised := DistributeElements();
      } else {
        raised := None;
      }
    }

    /** `invoice + e`. */
    method Add(e: Element) returns (raised: Option<PyError>)
      modifies this
      ensures (Value(), raised) == Plus(old(Value()), e)
    {
      if e.ItemE? {
        var found := AnyAddress(items, e.item.address);
        if found.Raise? {
          return Some(found.error);
        }
        if found.value {
          return None;
        }
      }
      var (placed, add, err) := Place(namespace, e);
      elements := elements + [placed];
      items, clauses, rows, meta := items + add.items, clauses + add.clauses, rows + add.rows, meta + add.meta;
      raised := err;
    }

    /** `iter(invoice)`. */
    function Iterate(): (r: seq<Entry>)
      reads this
      ensures |r| == |items| + |clauses| + |rows| + |meta|
      ensures forall i :: 0 <= i < |items| ==> r[i] == ItemEntry(items[i])
      ensures forall i :: 0 <= i < |clauses| ==> r[|items| + i] == ClauseEntry(clauses[i])
      ensures forall i :: 0 <= i < |rows| ==> r[|items| + |clauses| + i] == RowEntry(rows[i])
      ensures forall i :: 0 <= i < |meta| ==> r[|items| + |clauses| + |rows| + i] == MetaEntry(meta[i])
      ensures forall x :: x in rows ==> RowEntry(x) in r
    {
      assert forall x :: x in rows ==> RowEntry(x) in RowEntries(rows);
      Entries(Value())
    }

    /** `invoice.rows`, the cached property: the first read caches the list `_rows` holds at that time. */
    method ReadRows() returns (rs: seq<Row>)
      modifies this
      ensures rs == CachedRows(old(Value()))
      ensures cache == (if old(cache).Uncached? then Live else old(cache))
      ensures Value() == old(Value()).(cache := cache)
    {
      if cache.Uncached? {
        cache := Live;
      }
      rs := if cache.Frozen? then cache.rows else rows;
    }
  }
}

=== FILE: namespaces.dfy ===
/**
  Addresses and namespaces: the dotted paths every invoice element is
  filed under (hermitage/definition/contracts.py, `Address`, `Namespace`
  and the `_remove_duplicates` helper).
 */
module Namespaces {
  import opened Builtins

  /** `Address(value)`; `NoneAddress` is `Address(None)`, which a clause injector builds without an injection key. */
  datatype Address = Address(value: string) | NoneAddress

  /** `str(address)`: `__str__` returning None makes `str` raise TypeError. */
  function AddressText(a: Address): (r: Outcome<string>)
    ensures a.Address? ==> r == Ok(a.value)
    ensures a.NoneAddress? ==> r == Raise(TypeError)
  {
    match a
    case Address(v) => Ok(v)
    case NoneAddress => Raise(TypeError)
  }

  /** A namespace is its list of segments. */
  type Namespace = seq<string>

  /** What `Namespace(value)` may be given. */
  datatype Source = FromText(s: string) | FromSegments(segments: seq<string>) | FromOther

  /** `Namespace(s)` for a string: no segments for "", else the '.'-split of the stripped string. */
  function Parse(s: string): (ns: Namespace)
    ensures s == "" ==> ns == []
    ensures s != "" ==> ns == Split(Strip(s), '.') && |ns| >= 1
  {
    if s == "" then [] else Split(Strip(s), '.')
  }

  /** `Namespace(value)`: strings are parsed, sequences kept as they are, anything else is a TypeError. */
  function Make(src: Source): (r: Outcome<Namespace>)
    ensures src.FromText? ==> r == Ok(Parse(src.s))
    ensures src.FromSegments? ==> r == Ok(src.segments)
    ensures r.Raise? <==> src.FromOther?
    ensures src.FromOther? ==> r.error == TypeError
  {
    match src
    case FromText(s) => Ok(Parse(s))
    case FromSegments(segments) => Ok(segments)
    case FromOther => Raise(TypeError)
  }

  /** `str(ns)`: the segments joined with dots. */
  function Dotted(ns: Namespace): string
  {
    Join(ns, '.')
  }

  /** `ns == other`: namespaces compare by their dotted text. */
  predicate Same(a: Namespace, b: Namespace)
  {
    Dotted(a) == Dotted(b)
  }

  /** `bool(ns)`. */
  predicate Truthy(ns: Namespace)
  {
    |ns| > 0
  }

  /** Segments that parse back to themselves: non-empty, dot-free, no surrounding white space. */
  predicate Clean(ns: Namespace)
  {
    forall i :: 0 <= i < |ns| ==> ns[i] != "" && Free(ns[i], '.') && Stripped(ns[i])
  }

  lemma JoinEnds(parts: seq<string>, sep: char)
    requires |parts| >= 1 && forall i :: 0 <= i < |parts| ==> parts[i] != ""
    ensures |Join(parts, sep)| >= 1
    ensures Join(parts, sep)[0] == parts[0][0]
    ensures Join(parts, sep)[|Join(parts, sep)| - 1] == parts[|parts| - 1][|parts[|parts| - 1]| - 1]
  {
    if |parts| > 1 {
      JoinEnds(parts[1..], sep);
    }
  }

  /** Printing then re-parsing a clean namespace gives it back. */
  lemma ParseText(ns: Namespace)
    requires Clean(ns) && |ns| >= 1
    ensures Parse(Dotted(ns)) == ns
  {
    JoinEnds(ns, '.');
    var t := Dotted(ns);
    assert Stripped(t);
    StripResult(t);
    SplitJoin(ns, '.');
  }

  /** Parsing then printing gives the stripped string back. */
  lemma TextParse(s: string)
    ensures Dotted(Parse(s)) == Strip(s)
  {
    if s != "" {
      JoinSplit(Strip(s), '.');
    }
  }

  /** Equality by text coincides with equality of segments for clean, non-empty namespaces ... */
  lemma SameIffEqual(a: Namespace, b: Namespace)
    requires Clean(a) && Clean(b) && |a| >= 1 && |b| >= 1
    ensures Same(a, b) <==> a == b
  {
    if Same(a, b) {
      JoinInjective(a, b, '.');
    }
  }

  /** ... but not in general: no segments and one empty segment compare equal. */
  lemma SameNotEqual()
    ensures Same([], [""]) && [] != [""]
  {
  }

  /** What iterating a namespace yields for one segment, as a string: `str(Namespace(segment))`. */
  function SegmentText(segment: string): string
  {
    Dotted(Parse(segment))
  }

  lemma SegmentTextIsStrip(segment: string)
    ensures SegmentText(segment) == Strip(segment)
  {
    TextParse(segment);
  }

  // ---------------------------------------------------------------------------
  // _remove_duplicates
  // ---------------------------------------------------------------------------

  /** `_remove_duplicates` started with `previous` already set. */
  function DedupAfter(s: seq<string>, previous: Option<string>): seq<string>
  {
    if s == [] then []
    else if previous == Some(s[0]) then DedupAfter(s[1..], previous)
    else [s[0]] + DedupAfter(s[1..], Some(s[0]))
  }

  /** `list(_remove_duplicates(s))`: every run of equal consecutive segments collapsed to one. */
  function Dedup(s: seq<string>): seq<string>
  {
    DedupAfter(s, None)
  }

  predicate NoAdjacentRepeats(s: seq<string>)
  {
    forall i :: 0 <= i < |s| - 1 ==> s[i] != s[i + 1]
  }

  /** The generator as the source writes it: a loop that remembers the previous segment. */
  method RemoveDuplicates(s: seq<string>) returns (r: seq<string>)
    ensures r == Dedup(s)
    ensures NoAdjacentRepeats(r)
    ensures forall x :: x in r <==> x in s
  {
    var previous: Option<string> := None;
    r := [];
    var i := 0;
    while i < |s|
      invariant 0 <= i <= |s|
      invariant r + DedupAfter(s[i..], previous) == Dedup(s)
      invariant previous.None? <==> r == []
      invariant r != [] ==> previous == Some(r[|r| - 1])
    {
      assert s[i..][0] == s[i] && s[i..][1..] == s[i + 1..];
      if previous != Some(s[i]) {
        ghost var rest := DedupAfter(s[i + 1..], Some(s[i]));
        assert DedupAfter(s[i..], previous) == [s[i]] + rest;
        assert (r + [s[i]]) + rest == r + ([s[i]] + rest);
        r := r + [s[i]];
        previous := Some(s[i]);
      } else {
        assert DedupAfter(s[i..], previous) == DedupAfter(s[i + 1..], previous);
      }
      i := i + 1;
    }
    assert s[i..] == [];
    DedupShape(s, None);
  }

  /** What `DedupAfter` keeps: no repeats, never `previous` first, and exactly the segments of `s`. */
  lemma {:induction false} DedupShape(s: seq<string>, previous: Option<string>)
    ensures var r := DedupAfter(s, previous);
      && NoAdjacentRepeats(r)
      && (r != [] ==> previous != Some(r[0]))
      && (forall x :: x in r ==> x in s)
      && (forall x :: x in s ==> x in r || previous == Some(x))
  {
    if s != [] {
      var r := DedupAfter(s, previous);
      if previous == Some(s[0]) {
        DedupShape(s[1..], previous);
      } else {
        DedupShape(s[1..], Some(s[0]));
        var rest := DedupAfter(s[1..], Some(s[0]));
        assert r == [s[0]] + rest;
        forall x | x in s ensures x in r || previous == Some(x) {
          if x != s[0] {
            assert x in s[1..];
          }
        }
      }
    }
  }

  /** A list without repeats is its own deduplication. */
  lemma {:induction false} DedupFixpoint(s: seq<string>, previous: Option<string>)
    requires NoAdjacentRepeats(s)
    requires s != [] ==> previous != Some(s[0])
    ensures DedupAfter(s, previous) == s
  {
    if s != [] {
      DedupFixpoint(s[1..], Some(s[0]));
    }
  }

  lemma DedupIdempotent(s: seq<string>)
    ensures Dedup(Dedup(s)) == Dedup(s)
  {
    DedupShape(s, None);
    DedupFixpoint(Dedup(s), None);
  }

  // ---------------------------------------------------------------------------
  // Namespace.__add__, __getitem__, first, last, part
  // ---------------------------------------------------------------------------

  /**
    `self + other`: an empty side returns the other side unchanged; otherwise
    the left segments followed by the (re-parsed) right segments, with every
    run of equal consecutive segments collapsed.
   */
  function Concat(a: Namespace, b: Namespace): Namespace
  {
    if !Truthy(a) then b
    else if !Truthy(b) then a
    else Dedup(a + seq(|b|, i requires 0 <= i < |b| => SegmentText(b[i])))
  }

  predicate AllStripped(ns: Namespace)
  {
    forall i :: 0 <= i < |ns| ==> Stripped(ns[i])
  }

  lemma SegmentTextsOfStripped(b: Namespace)
    requires AllStripped(b)
    ensures seq(|b|, i requires 0 <= i < |b| => SegmentText(b[i])) == b
  {
    forall i | 0 <= i < |b| ensures SegmentText(b[i]) == b[i] {
      SegmentTextIsStrip(b[i]);
      StripResult(b[i]);
    }
  }

  /** For stripped segments, concatenation is plain deduplication of the joined lists. */
  lemma ConcatStripped(a: Namespace, b: Namespace)
    requires AllStripped(b) && |a| > 0 && |b| > 0
    ensures Concat(a, b) == Dedup(a + b)
  {
    SegmentTextsOfStripped(b);
  }

  /** "a.b" + "b.c" is "a.b.c", and a run inside one side collapses too. */
  lemma ConcatExamples()
    ensures Concat(["a", "b"], ["b", "c"]) == ["a", "b", "c"]
    ensures Concat(["a", "a"], ["b"]) == ["a", "b"]
    ensures Concat([], ["x", "x"]) == ["x", "x"]
  {
    ConcatStripped(["a", "b"], ["b", "c"]);
    var s1: seq<string> := ["a", "b", "b", "c"];
    assert ["a", "b"] + ["b", "c"] == s1;
    assert s1[1..] == ["b", "b", "c"] && s1[2..] == ["b", "c"] && s1[3..] == ["c"] && s1[4..] == [];
    assert DedupAfter(s1[2..], Some("b")) == DedupAfter(s1[3..], Some("b"));
    ConcatStripped(["a", "a"], ["b"]);
    var s2: seq<string> := ["a", "a", "b"];
    assert ["a", "a"] + ["b"] == s2;
    assert s2[1..] == ["a", "b"] && s2[2..] == ["b"] && s2[3..] == [];
  }

  /** Concatenating a non-empty namespace never gives an empty one. */
  lemma ConcatNonEmpty(a: Namespace, b: Namespace)
    requires |a| > 0 || |b| > 0
    ensures |Concat(a, b)| > 0
  {
    if |a| > 0 && |b| > 0 {
      var joined := a + seq(|b|, i requires 0 <= i < |b| => SegmentText(b[i]));
      DedupShape(joined, None);
      assert joined[0] in joined;
    }
  }

  /**
    Prefixing twice with the same single (stripped) segment is the same as
    prefixing once: this is why re-mounting a nested invoice under the same
    first segment does not grow its namespace.
   */
  lemma ConcatAbsorbs(f: Namespace, b: Namespace)
    requires |f| <= 1 && AllStripped(f)
    ensures Concat(f, Concat(f, b)) == Concat(f, b)
  {
    if |f| == 1 {
      var x := f[0];
      if |b| == 0 {
        assert Concat(f, b) == f;
        ConcatStripped(f, f);
        assert f + f == [x, x];
        assert [x, x][1..] == [x] && [x][1..] == [];
        assert DedupAfter([x], Some(x)) == DedupAfter([], Some(x)) == [];
        assert Dedup([x, x]) == [x] + DedupAfter([x], Some(x));
      } else {
        var stripped := seq(|b|, i requires 0 <= i < |b| => SegmentText(b[i]));
        forall i | 0 <= i < |stripped| ensures Stripped(stripped[i]) {
          SegmentTextIsStrip(b[i]);
          StripResult(b[i]);
        }
        var c := Dedup(f + stripped);
        DedupShape(f + stripped, None);
        assert c == [x] + DedupAfter(stripped, Some(x));
        assert AllStripped(c) by {
          forall i | 0 <= i < |c| ensures Stripped(c[i]) {
            assert c[i] in f + stripped;
          }
        }
        ConcatStripped(f, c);
        assert Concat(f, c) == DedupAfter([x] + c, None);
        assert ([x] + c)[1..] == c;
        assert DedupAfter([x] + c, None) == [x] + DedupAfter(c, Some(x));
        assert c[1..] == DedupAfter(stripped, Some(x));
        assert DedupAfter(c, Some(x)) == DedupAfter(c[1..], Some(x));
        DedupShape(stripped, Some(x));
        DedupFixpoint(c[1..], Some(x));
      }
    }
  }

  /** `ns[index]`: None past the end, IndexError before `-len(ns)`, else the segment re-parsed (a negative index counting from the end). */
  function At(ns: Namespace, index: int): (r: Outcome<Option<Namespace>>)
    ensures index >= |ns| ==> r == Ok(None)
    ensures 0 <= index < |ns| ==> r == Ok(Some(Parse(ns[index])))
    ensures -|ns| <= index < 0 ==> r == Ok(Some(Parse(ns[|ns| + index])))
    ensures index < -|ns| ==> r == Raise(IndexError)
  {
    if index >= |ns| then Ok(None)
    else
      match PyIndex(ns, index)
      case Ok(segment) => Ok(Some(Parse(segment)))
      case Raise(e) => Raise(e)
  }

  /** `ns.first()`: IndexError on an empty namespace. */
  function First(ns: Namespace): (r: Outcome<Namespace>)
    ensures r.Raise? <==> |ns| == 0
    ensures |ns| > 0 ==> r == Ok(Parse(ns[0]))
  {
    match PyIndex(ns, 0)
    case Ok(segment) => Ok(Parse(segment))
    case Raise(e) => Raise(e)
  }

  /** `ns.last()`: IndexError on an empty namespace. */
  function Last(ns: Namespace): (r: Outcome<Namespace>)
    ensures r.Raise? <==> |ns| == 0
    ensures |ns| > 0 ==> r == Ok(Parse(ns[|ns| - 1]))
  {
    match PyIndex(ns, |ns| - 1)
    case Ok(segment) => Ok(Parse(segment))
    case Raise(e) => Raise(e)
  }

  /** `ns.part(end, start)`: the segments `[start:end]`, joined and re-parsed. */
  function Part(ns: Namespace, end: int, start: int := 0): Namespace
  {
    Parse(Dotted(PySlice(ns, start, end)))
  }

  /** `part(-1)` drops the last segment of a clean namespace. */
  lemma PartDropsLast(ns: Namespace)
    requires Clean(ns) && |ns| > 1
    ensures Part(ns, -1) == ns[..|ns| - 1]
  {
    SliceDropLast(ns);
    ParseText(ns[..|ns| - 1]);
  }

  lemma ParseFreeSegment(segment: string)
    requires Free(segment, '.') && segment != ""
    ensures Parse(segment) == [Strip(segment)]
  {
    StripFree(segment, '.');
    SplitFree(Strip(segment), '.');
  }

  lemma SingletonStripped(t: string)
    requires Stripped(t)
    ensures AllStripped([t])
  {
    assert [t][0] == t;
  }

  /** A single dot-free segment parses to at most one stripped segment. */
  lemma ParseSegment(segment: string)
    requires Free(segment, '.')
    ensures |Parse(segment)| <= 1 && AllStripped(Parse(segment))
  {
    if segment != "" {
      ParseFreeSegment(segment);
      StripResult(segment);
      SingletonStripped(Strip(segment));
    }
  }

  // ---------------------------------------------------------------------------
  // InvoiceElement.set_namespace
  // ---------------------------------------------------------------------------

  /**
    The namespace an element ends up with when mounted under `n`: `n` itself
    when it has no (truthy) fixed namespace, otherwise `n` without its last
    segment (when it has more than one) followed by the fixed namespace.
   */
  function Effective(n: Namespace, fixed: Namespace): Namespace
  {
    if Truthy(fixed) then Concat(if |n| > 1 then Part(n, -1) else n, fixed) else n
  }

  /** The mount rule on clean namespaces, in terms of segments. */
  lemma EffectiveRule(n: Namespace, fixed: Namespace)
    requires Clean(n) && Clean(fixed)
    ensures |fixed| == 0 ==> Effective(n, fixed) == n
    ensures |fixed| > 0 && |n| > 1 ==> Effective(n, fixed) == Concat(n[..|n| - 1], fixed)
    ensures |fixed| > 0 && |n| <= 1 ==> Effective(n, fixed) == Concat(n, fixed)
    ensures |fixed| > 0 ==> |Effective(n, fixed)| > 0
  {
    if |fixed| > 0 && |n| > 1 {
      PartDropsLast(n);
    }
    if |fixed| > 0 {
      ConcatNonEmpty(if |n| > 1 then Part(n, -1) else n, fixed);
    }
  }

  /**
    Mounting a fixed namespace `[c]` under a two-segment namespace `[a, b]`
    keeps the first segment only: "tasks.detail" with "audit" gives "tasks.audit".
   */
  lemma EffectiveDropsMountPoint(a: string, b: string, c: string)
    requires Clean([a, b, c]) && a != c
    ensures Effective([a, b], [c]) == [a, c]
  {
    var n: Namespace := [a, b];
    assert Clean(n) && Clean([c]) by {
      assert forall i :: 0 <= i < |n| ==> n[i] == [a, b, c][i];
      assert [c][0] == [a, b, c][2];
    }
    EffectiveRule(n, [c]);
    assert n[..1] == [a];
    assert AllStripped([c]);
    ConcatStripped([a], [c]);
    var joined: Namespace := [a, c];
    assert [a] + [c] == joined;
    assert joined[1..] == [c] && joined[2..] == [];
    assert Dedup(joined) == [a] + DedupAfter([c], Some(a));
    assert DedupAfter([c], Some(a)) == [c] + DedupAfter([], Some(c));
  }
}

=== FILE: notation.dfy ===
/**
  The notation layer (hermitage/notation/default.py): the frozen `Clause`
  that names a field and an operation, the postfix `ClauseExpression` that
  `&` and `|` build, the `Item` compared by content, and the mutable
  `Bucket` that collects elements under a name.
 */
module Notation {
  import opened Builtins
  import opened Values
  import Postfix

  /** `Clause(name, operation)`: the dataclass does not check that the operation is a bit. */
  datatype Clause = Clause(name: string, operation: Value)

  /** An entry of an expression stack: a clause, or `operator.and_` / `operator.or_`. */
  datatype Token = Operand(clause: Clause) | Operator(junction: Junction)

  /** `ClauseExpression(*elements)`: a stack of tokens in postfix order. */
  datatype Expression = Expression(stack: seq<Token>)

  /** The right operand of `&` or `|`: a clause, an expression, or a value of any other type. */
  datatype Other = OfClause(c: Clause) | OfExpression(e: Expression) | Foreign

  /** The content of an `Item`: a string or a mapping (whose key order `==` ignores). */
  datatype Content = CText(s: string) | CMap(entries: map<string, Payload>)

  /** Anything a modifier or a mapping may hold: a plain value or a notation element. */
  datatype Payload = Raw(value: Value) | Elem(element: Element)

  datatype Item = Item(content: Content)

  /** What a bucket may hold. */
  datatype Element =
    | ItemE(item: Item)
    | ClauseE(clause: Clause)
    | SliceE(operation: Operation)
    | ExprE(expression: Expression)
    | BucketE(bucket: Bucket)
    | MetaE(kind: string)

  predicate IsOperator(t: Token)
  {
    t.Operator?
  }

  /** The clauses of a token sequence, in order. */
  function ClausesOf(s: seq<Token>): seq<Clause>
  {
    if s == [] then [] else (if s[0].Operand? then [s[0].clause] else []) + ClausesOf(s[1..])
  }

  lemma {:induction false} ClausesOfAppend(a: seq<Token>, b: seq<Token>)
    ensures ClausesOf(a + b) == ClausesOf(a) + ClausesOf(b)
  {
    if a == [] {
      assert a + b == b;
    } else {
      assert (a + b)[0] == a[0];
      assert (a + b)[1..] == a[1..] + b;
      ClausesOfAppend(a[1..], b);
    }
  }

  lemma {:induction false} ClausesCountOperands(s: seq<Token>)
    ensures |ClausesOf(s)| == Postfix.Operands(s, IsOperator)
  {
    if s != [] {
      ClausesCountOperands(s[1..]);
    }
  }

  function ClausesOfOther(other: Other): seq<Clause>
  {
    match other
    case OfClause(c) => [c]
    case OfExpression(e) => ClausesOf(e.stack)
    case Foreign => []
  }

  /**
    `ClauseExpression._merge(other, op)`: a new expression that keeps this
    stack, then the other operand, then the operator; None for an operand
    that is neither a clause nor an expression.
   */
  function Merge(e: Expression, other: Other, j: Junction): (r: Option<Expression>)
    ensures r.None? <==> other.Foreign?
    ensures r.Some? ==> |r.value.stack| > |e.stack| && r.value.stack[..|e.stack|] == e.stack
    ensures r.Some? ==> r.value.stack[|r.value.stack| - 1] == Operator(j)
    ensures r.Some? ==> ClausesOf(r.value.stack) == ClausesOf(e.stack) + ClausesOfOther(other)
    ensures other.OfClause? ==> r == Some(Expression(e.stack + [Operand(other.c), Operator(j)]))
    ensures other.OfExpression? ==> r == Some(Expression(e.stack + other.e.stack + [Operator(j)]))
  {
    match other
    case OfClause(c) =>
      ClausesOfAppend(e.stack + [Operand(c)], [Operator(j)]);
      ClausesOfAppend(e.stack, [Operand(c)]);
      assert e.stack + [Operand(c)] + [Operator(j)] == e.stack + [Operand(c), Operator(j)];
      Some(Expression(e.stack + [Operand(c)] + [Operator(j)]))
    case OfExpression(x) =>
      ClausesOfAppend(e.stack + x.stack, [Operator(j)]);
      ClausesOfAppend(e.stack, x.stack);
      Some(Expression(e.stack + x.stack + [Operator(j)]))
    case Foreign => None
  }

  /**
    `clause & other` / `clause | other`: with a clause, the two clauses then
    the operator; with an expression, the expression's merge with this
    clause, so the expression comes first.  Any other operand makes Python
    fall back to the reflected operator, which nothing defines: TypeError.
   */
  function ClauseJoin(a: Clause, other: Other, j: Junction): (r: Outcome<Expression>)
    ensures r.Raise? <==> other.Foreign?
    ensures r.Raise? ==> r.error == TypeError
    ensures other.OfClause? ==> r == Ok(Expression([Operand(a), Operand(other.c), Operator(j)]))
    ensures other.OfExpression? ==> r == Ok(Expression(other.e.stack + [Operand(a), Operator(j)]))
  {
    match other
    case OfClause(b) =>
      assert [Operand(a)] + [Operand(b)] + [Operator(j)] == [Operand(a), Operand(b), Operator(j)];
      Ok(Merge(Expression([Operand(a)]), other, j).value)
    case OfExpression(x) =>
      assert x.stack + [Operand(a)] + [Operator(j)] == x.stack + [Operand(a), Operator(j)];
      Ok(Merge(x, OfClause(a), j).value)
    case Foreign => Raise(TypeError)
  }

  /** `Clause.__eq__`: by name only; comparing with a non-clause raises (it raises `NotImplemented`, a TypeError). */
  function ClauseEquals(a: Clause, other: Element): (r: Outcome<bool>)
    ensures r.Raise? <==> !other.ClauseE?
    ensures r.Raise? ==> r.error == TypeError
    ensures other.ClauseE? ==> r == Ok(a.name == other.clause.name)
    ensures other.ClauseE? && other.clause.name == a.name ==> r == Ok(true)
    ensures other.ClauseE? && other.clause.name != a.name ==> r == Ok(false)
  {
    if other.ClauseE? then Ok(a.name == other.clause.name) else Raise(TypeError)
  }

  /** A notation clause, as a mapping value. */
  predicate IsClause(p: Payload)
  {
    p.Elem? && p.element.ClauseE?
  }

  /** An item, as a mapping value. */
  predicate IsItem(p: Payload)
  {
    p.Elem? && p.element.ItemE?
  }

  /**
    `a == b` between two values a mapping holds.  A clause compares by name
    with a clause and raises TypeError against anything else, on either
    side: the other value's `__eq__` declines and Python then calls the
    clause's.  Two items compare by content; any other pair compares as
    values.
   */
  function PayloadEquals(a: Payload, b: Payload): (r: Outcome<bool>)
    decreases a, 1
    ensures r.Raise? <==> IsClause(a) != IsClause(b) || (IsItem(a) && IsItem(b) && ItemEquals(a.element.item, b.element.item).Raise?)
    ensures r.Raise? ==> r.error == TypeError
    ensures IsClause(a) && IsClause(b) ==> r == Ok(a.element.clause.name == b.element.clause.name)
    ensures !IsClause(a) && !IsClause(b) && !(IsItem(a) && IsItem(b)) ==> r == Ok(a == b)
    ensures IsItem(a) && IsItem(b) ==> r == ItemEquals(a.element.item, b.element.item)
  {
    if IsClause(a) && IsClause(b) then ClauseEquals(a.element.clause, b.element)
    else if IsClause(a) || IsClause(b) then Raise(TypeError)
    else if IsItem(a) && IsItem(b) then ItemEquals(a.element.item, b.element.item)
    else Ok(a == b)
  }

  /**
    `Item.__eq__` between two items: `self() == other()`.  Two strings
    compare as strings, and a string never equals a mapping.  Mappings of
    different sizes are unequal before any value is compared; otherwise a
    value comparison that raises makes the comparison raise, and else the
    mappings are equal when they have the same keys and equal values under
    each key, in whatever order the keys were written.
   */
  function ItemEquals(a: Item, b: Item): (r: Outcome<bool>)
    decreases a, 0
    ensures r.Raise? ==> r.error == TypeError
    ensures a.content.CText? && b.content.CText? ==> r == Ok(a.content.s == b.content.s)
    ensures a.content.CText? != b.content.CText? ==> r == Ok(false)
    ensures r == Ok(true) && a.content.CMap? ==> b.content.CMap? && a.content.entries.Keys == b.content.entries.Keys
  {
    match (a.content, b.content)
    case (CText(s), CText(t)) => Ok(s == t)
    case (CMap(x), CMap(y)) =>
      if |x| != |y| then Ok(false)
      else if exists k | k in x && k in y :: PayloadEquals(x[k], y[k]).Raise? then Raise(TypeError)
      else Ok(x.Keys == y.Keys && forall k | k in x && k in y :: PayloadEquals(x[k], y[k]) == Ok(true))
    case _ => Ok(false)
  }

  /**
    Two mappings of plain values, as a write event's item holds, are equal
    exactly when they map the same keys to the same values.
   */
  lemma PlainMappingsCompareAsMaps(x: map<string, Payload>, y: map<string, Payload>)
    requires forall k | k in x :: x[k].Raw?
    requires forall k | k in y :: y[k].Raw?
    ensures ItemEquals(Item(CMap(x)), Item(CMap(y))) == Ok(x == y)
  {
    if |x| == |y| && x.Keys == y.Keys && x != y {
      var k :| k in x && x[k] != y[k];
      assert PayloadEquals(x[k], y[k]) == Ok(false);
    }
  }

  /** Every value equals itself: a clause by its own name, an item by its own content. */
  lemma {:induction false} PayloadEqualsReflexive(p: Payload)
    decreases p, 1
    ensures PayloadEquals(p, p) == Ok(true)
  {
    if IsItem(p) {
      ItemEqualsReflexive(p.element.item);
    }
  }

  /** Every item equals itself, whatever clauses its mapping holds. */
  lemma {:induction false} ItemEqualsReflexive(it: Item)
    decreases it, 0
    ensures ItemEquals(it, it) == Ok(true)
  {
    if it.content.CMap? {
      var x := it.content.entries;
      forall k | k in x
        ensures PayloadEquals(x[k], x[k]) == Ok(true)
      {
        PayloadEqualsReflexive(x[k]);
      }
    }
  }

  // ---------------------------------------------------------------------------
  // Expressions built from clauses with & and |
  // ---------------------------------------------------------------------------

  /** A Python expression over clauses, such as `a & (b | c)`. */
  datatype Formula = Leaf(clause: Clause) | Node(left: Formula, junction: Junction, right: Formula)

  /** The value of such an expression: a bare clause or a `ClauseExpression`. */
  datatype Combined = Single(c: Clause) | Compound(e: Expression)

  function Tokens(x: Combined): seq<Token>
  {
    if x.Single? then [Operand(x.c)] else x.e.stack
  }

  function AsOther(x: Combined): Other
  {
    if x.Single? then OfClause(x.c) else OfExpression(x.e)
  }

  /** `x & y` or `x | y` for two values of such expressions; it never fails. */
  function Combine(x: Combined, y: Combined, j: Junction): (r: Combined)
    ensures r.Compound?
    ensures x.Single? && y.Compound? ==> Tokens(r) == Tokens(y) + Tokens(x) + [Operator(j)]
    ensures !(x.Single? && y.Compound?) ==> Tokens(r) == Tokens(x) + Tokens(y) + [Operator(j)]
  {
    if x.Single? then
      var r := ClauseJoin(x.c, AsOther(y), j);
      if y.Single? then
        assert [Operand(x.c), Operand(y.c), Operator(j)] == [Operand(x.c)] + [Operand(y.c)] + [Operator(j)];
        Compound(r.value)
      else
        assert Tokens(y) + [Operand(x.c), Operator(j)] == Tokens(y) + [Operand(x.c)] + [Operator(j)];
        Compound(r.value)
    else
      var r := Merge(x.e, AsOther(y), j);
      Compound(r.value)
  }

  function Eval(f: Formula): Combined
  {
    match f
    case Leaf(c) => Single(c)
    case Node(l, j, r) => Combine(Eval(l), Eval(r), j)
  }

  function Leaves(f: Formula): seq<Clause>
  {
    match f
    case Leaf(c) => [c]
    case Node(l, _, r) => Leaves(l) + Leaves(r)
  }

  /** One `&` or `|` keeps the stack well-formed and carries over the clauses of both sides. */
  lemma CombineWellFormed(x: Combined, y: Combined, j: Junction)
    requires Postfix.WellFormed(Tokens(x), IsOperator) && Postfix.WellFormed(Tokens(y), IsOperator)
    ensures Postfix.WellFormed(Tokens(Combine(x, y, j)), IsOperator)
    ensures multiset(ClausesOf(Tokens(Combine(x, y, j)))) == multiset(ClausesOf(Tokens(x))) + multiset(ClausesOf(Tokens(y)))
  {
    var swapped := x.Single? && y.Compound?;
    var first := if swapped then Tokens(y) else Tokens(x);
    var second := if swapped then Tokens(x) else Tokens(y);
    Postfix.Combine(first, second, Operator(j), IsOperator);
    ClausesOfAppend(first + second, [Operator(j)]);
    ClausesOfAppend(first, second);
    assert ClausesOf([Operator(j)]) == [];
  }

  /**
    Whatever way clauses are combined with `&` and `|`, the stack is
    well-formed postfix and holds every clause of the expression exactly as
    often as the expression does.
   */
  lemma {:induction false} EvalWellFormed(f: Formula)
    ensures Postfix.WellFormed(Tokens(Eval(f)), IsOperator)
    ensures multiset(ClausesOf(Tokens(Eval(f)))) == multiset(Leaves(f))
  {
    match f
    case Leaf(c) =>
      Postfix.SingleOperand(Operand(c), IsOperator);
      assert ClausesOf([Operand(c)]) == [c] by { assert [Operand(c)][1..] == []; }
    case Node(l, j, r) =>
      EvalWellFormed(l);
      EvalWellFormed(r);
      CombineWellFormed(Eval(l), Eval(r), j);
  }

  /** Such an expression has one more clause than operators. */
  lemma ClausesOutnumberOperators(f: Formula)
    ensures |Leaves(f)| == Postfix.Operators(Tokens(Eval(f)), IsOperator) + 1
    ensures |ClausesOf(Tokens(Eval(f)))| == |Leaves(f)|
  {
    var s := Tokens(Eval(f));
    EvalWellFormed(f);
    assert |multiset(ClausesOf(s))| == |multiset(Leaves(f))|;
    Postfix.OperandsOutnumberOperators(s, IsOperator);
    ClausesCountOperands(s);
  }

  // ---------------------------------------------------------------------------
  // Bucket
  // ---------------------------------------------------------------------------

  /**
    `any(other == e for e in elements if isinstance(e, Item))`: the held
    items are compared with `it` in order; the scan stops at the first equal
    one, and a comparison that raises ends it with that error.
   */
  function Found(es: seq<Element>, it: Item): (r: Outcome<bool>)
    ensures r.Raise? ==> r.error == TypeError
    ensures r == Ok(true) ==> exists i :: 0 <= i < |es| && es[i].ItemE? && ItemEquals(it, es[i].item) == Ok(true)
    ensures r == Ok(false) ==> forall i :: 0 <= i < |es| && es[i].ItemE? ==> ItemEquals(it, es[i].item) == Ok(false)
  {
    if es == [] then Ok(false)
    else
      var rest := Found(es[1..], it);
      assert forall i :: 1 <= i < |es| ==> es[i] == es[1..][i - 1];
      if es[0].ItemE? then
        match ItemEquals(it, es[0].item)
        case Raise(err) => Raise(err)
        case Ok(true) => Ok(true)
        case Ok(false) => rest
      else rest
  }

  /** The elements after `bucket + e`, or the error that aborts it and leaves the bucket as it was. */
  function Added(es: seq<Element>, e: Element): Outcome<seq<Element>>
  {
    if !e.ItemE? then Ok(es + [e])
    else
      match Found(es, e.item)
      case Raise(err) => Raise(err)
      case Ok(true) => Ok(es)
      case Ok(false) => Ok(es + [e])
  }

  /** Scanning a longer list goes on past the old end only when the old list gave no answer. */
  lemma {:induction false} FoundAppend(es: seq<Element>, x: Element, it: Item)
    ensures Found(es + [x], it) == if Found(es, it) == Ok(false) then Found([x], it) else Found(es, it)
  {
    if es == [] {
      assert es + [x] == [x];
    } else {
      assert (es + [x])[0] == es[0];
      assert (es + [x])[1..] == es[1..] + [x];
      FoundAppend(es[1..], x, it);
    }
  }

  /** An item the bucket already holds is never appended again: the scan finds it, or raises first. */
  lemma {:induction false} FoundHeld(es: seq<Element>, it: Item)
    requires ItemE(it) in es
    ensures Found(es, it) != Ok(false)
  {
    var i :| 0 <= i < |es| && es[i] == ItemE(it);
    ItemEqualsReflexive(it);
  }

  /** Adding the same item twice is adding it once; an add that raised leaves the bucket as it was. */
  lemma AddTwice(es: seq<Element>, it: Item)
    ensures Added(es, ItemE(it)).Ok? ==> Added(Added(es, ItemE(it)).value, ItemE(it)) == Added(es, ItemE(it))
  {
    if Found(es, it) == Ok(false) {
      FoundAppend(es, ItemE(it), it);
      ItemEqualsReflexive(it);
    }
  }

  /** After adding an item, the bucket holds one equal to it; what it held before is still there, in order. */
  lemma AddedHolds(es: seq<Element>, it: Item)
    ensures Added(es, ItemE(it)).Ok? ==> Found(Added(es, ItemE(it)).value, it) == Ok(true)
    ensures Added(es, ItemE(it)).Ok? ==> Added(es, ItemE(it)).value[..|es|] == es
  {
    if Found(es, it) == Ok(false) {
      FoundAppend(es, ItemE(it), it);
      ItemEqualsReflexive(it);
    }
  }

  /**
    A bucket drops an added item exactly when the scan finds an equal one,
    and then changes nothing; it appends the item when every held item
    compares unequal, and raises the comparison's TypeError otherwise.  An
    item already held is never appended again, and anything that is not an
    item is always appended.
   */
  lemma AddedDropsEqualItems(es: seq<Element>, it: Item, e: Element)
    ensures Added(es, ItemE(it)) == Ok(es) <==> Found(es, it) == Ok(true)
    ensures Found(es, it) == Ok(false) ==> Added(es, ItemE(it)) == Ok(es + [ItemE(it)])
    ensures Found(es, it).Raise? ==> Added(es, ItemE(it)) == Raise(TypeError)
    ensures ItemE(it) in es ==> Added(es, ItemE(it)) != Ok(es + [ItemE(it)])
    ensures !e.ItemE? ==> Added(es, e) == Ok(es + [e])
  {
    if Found(es, it) == Ok(false) {
      assert |es + [ItemE(it)]| != |es|;
    }
    if ItemE(it) in es {
      FoundHeld(es, it);
      assert |es + [ItemE(it)]| != |es|;
    }
  }

  /** A mapping's key order plays no part: contents written in either order compare equal. */
  lemma MappingOrderIgnored(k1: string, k2: string, v1: Payload, v2: Payload)
    requires k1 != k2
    ensures ItemEquals(Item(CMap(map[k1 := v1, k2 := v2])), Item(CMap(map[k2 := v2, k1 := v1]))) == Ok(true)
    ensures ItemEquals(Item(CText(k1)), Item(CMap(map[k1 := v1]))) == Ok(false)
  {
    assert map[k1 := v1, k2 := v2] == map[k2 := v2, k1 := v1];
    ItemEqualsReflexive(Item(CMap(map[k1 := v1, k2 := v2])));
  }

  /**
    Mapping values compare with their own `==`: a bucket holding
    `Item({key: a})` drops `Item({key: b})` when the clauses `a` and `b`
    share a name, whatever their operations, and appends it otherwise; an
    item whose value under that key is a plain value makes the add raise
    TypeError.
   */
  lemma ClauseValuesCompareByName(key: string, a: Clause, b: Clause, v: Value)
    ensures var held := [ItemE(Item(CMap(map[key := Elem(ClauseE(a))])))];
            var added := ItemE(Item(CMap(map[key := Elem(ClauseE(b))])));
            && (a.name == b.name ==> Added(held, added) == Ok(held))
            && (a.name != b.name ==> Added(held, added) == Ok(held + [added]))
            && Added(held, ItemE(Item(CMap(map[key := Raw(v)])))) == Raise(TypeError)
  {
    var x := map[key := Elem(ClauseE(b))];
    var y := map[key := Elem(ClauseE(a))];
    assert PayloadEquals(x[key], y[key]) == Ok(b.name == a.name);
    assert forall k | k in x && k in y :: k == key;
    assert ItemEquals(Item(CMap(x)), Item(CMap(y))) == Ok(b.name == a.name);
    var held := [ItemE(Item(CMap(y)))];
    assert held[1..] == [];
    assert Found(held, Item(CMap(x))) == Ok(b.name == a.name);
    var z := map[key := Raw(v)];
    assert PayloadEquals(z[key], y[key]).Raise?;
  }

  class Bucket {
    var name: string
    var elements: seq<Element>
    var qua: string
    var labelName: string

    /** `Bucket(name, *elements)`: the elements are kept as given, duplicates included. */
    constructor (name: string, es: seq<Element>)
      ensures this.name == name && elements == es
      ensures qua == "" && labelName == ""
    {
      this.name := name;
      elements := es;
      qua := "";
      labelName := "";
    }

    /** `bucket.address`: the qualifier when one is set, the name otherwise. */
    function Address(): (r: string)
      reads this
      ensures qua != "" ==> r == qua
      ensures qua == "" ==> r == name
    {
      if qua != "" then qua else name
    }

    /** `bucket.qualified_name`: name, qualifier and label joined by colons, empty parts kept. */
    function QualifiedName(): (r: string)
      reads this
      ensures Free(name, ':') && Free(qua, ':') && Free(labelName, ':') ==> Split(r, ':') == [name, qua, labelName]
      ensures |r| == |name| + |qua| + |labelName| + 2
    {
      var parts := [name, qua, labelName];
      assert parts[1..] == [qua, labelName] && parts[1..][1..] == [labelName];
      assert Join([labelName], ':') == labelName;
      assert Join([qua, labelName], ':') == qua + [':'] + labelName;
      assert Join(parts, ':') == name + [':'] + (qua + [':'] + labelName);
      if Free(name, ':') && Free(qua, ':') && Free(labelName, ':') then
        SplitJoin(parts, ':');
        Join(parts, ':')
      else
        Join(parts, ':')
    }

    /** `bucket.substitution_name`: the label, else the qualifier, else the name. */
    function SubstitutionName(): (r: string)
      reads this
      ensures labelName != "" ==> r == labelName
      ensures labelName == "" && qua != "" ==> r == qua
      ensures labelName == "" && qua == "" ==> r == name
    {
      if labelName != "" then labelName else if qua != "" then qua else name
    }

    /** `get_qua()`: None while no qualifier is set. */
    function GetQua(): (r: Option<string>)
      reads this
      ensures r.None? <==> qua == ""
      ensures r.Some? ==> r.value == qua
    {
      if qua != "" then Some(qua) else None
    }

    /** `get_label()`: None while no label is set. */
    function GetLabel(): (r: Option<string>)
      reads this
      ensures r.None? <==> labelName == ""
      ensures r.Some? ==> r.value == labelName
    {
      if labelName != "" then Some(labelName) else None
    }

    /** `qua(value)`. */
    method Qua(value: string)
      modifies this
      ensures qua == value
      ensures name == old(name) && elements == old(elements) && labelName == old(labelName)
    {
      qua := value;
    }

    /** `label(value)`: a label equal to the bucket's name is ignored. */
    method Label(value: string)
      modifies this
      ensures labelName == (if value != name then value else old(labelName))
      ensures value != name ==> SubstitutionName() == (if value != "" then value else if qua != "" then qua else name)
      ensures value == name ==> SubstitutionName() == old(SubstitutionName())
      ensures name == old(name) && elements == old(elements) && qua == old(qua)
    {
      if name != value {
        labelName := value;
      }
    }

    /**
      `bucket + e`: an item equal to one already held is dropped; anything
      else is appended.  A comparison that raises aborts the add and leaves
      the elements as they were.
     */
    method Add(e: Element) returns (raised: Option<PyError>)
      modifies this
      ensures Added(old(elements), e).Ok? ==> raised.None? && elements == Added(old(elements), e).value
      ensures Added(old(elements), e).Raise? ==> raised == Some(Added(old(elements), e).error) && elements == old(elements)
      ensures name == old(name) && qua == old(qua) && labelName == old(labelName)
    {
      if e.ItemE? {
        var i := 0;
        while i < |elements|
          invariant 0 <= i <= |elements|
          invariant Found(elements, e.item) == Found(elements[i..], e.item)
        {
          assert elements[i..][1..] == elements[i + 1..];
          if elements[i].ItemE? {
            var same := ItemEquals(e.item, elements[i].item);
            if same.Raise? {
              return Some(same.error);
            }
            if same.value {
              return None;
            }
          }
          i := i + 1;
        }
      }
      elements := elements + [e];
      raised := None;
    }

    /** `iter(bucket)`: the elements in the order they were given and added. */
    function Iterate(): (r: seq<Element>)
      reads this
      ensures |r| == |elements| && forall i :: 0 <= i < |r| ==> r[i] == elements[i]
    {
      elements
    }
  }
}

=== FILE: postfix.dfy ===
/**
  Well-formed postfix (reverse Polish) sequences over any token type with
  binary operators.  Both clause layers produce such sequences: iterating a
  compound `Clause` and the stack of a `ClauseExpression`.
 */
module Postfix {

  /** Operands push one value, operators pop two and push one. */
  function Weight<T>(t: T, isOp: T -> bool): int
  {
    if isOp(t) then -1 else 1
  }

  /** The height of the evaluation stack after running `s` from an empty stack. */
  function Depth<T>(s: seq<T>, isOp: T -> bool): int
  {
    if s == [] then 0 else Weight(s[0], isOp) + Depth(s[1..], isOp)
  }

  function Operands<T>(s: seq<T>, isOp: T -> bool): nat
  {
    if s == [] then 0 else (if isOp(s[0]) then 0 else 1) + Operands(s[1..], isOp)
  }

  function Operators<T>(s: seq<T>, isOp: T -> bool): nat
  {
    if s == [] then 0 else (if isOp(s[0]) then 1 else 0) + Operators(s[1..], isOp)
  }

  /** Never pops from a stack that is too short, and leaves exactly one value. */
  predicate WellFormed<T>(s: seq<T>, isOp: T -> bool)
  {
    Depth(s, isOp) == 1 && forall k :: 1 <= k <= |s| ==> Depth(s[..k], isOp) >= 1
  }

  lemma {:induction false} DepthAppend<T>(a: seq<T>, b: seq<T>, isOp: T -> bool)
    ensures Depth(a + b, isOp) == Depth(a, isOp) + Depth(b, isOp)
  {
    if a == [] {
      assert a + b == b;
    } else {
      assert (a + b)[0] == a[0];
      assert (a + b)[1..] == a[1..] + b;
      DepthAppend(a[1..], b, isOp);
    }
  }

  lemma {:induction false} DepthCounts<T>(s: seq<T>, isOp: T -> bool)
    ensures Depth(s, isOp) == Operands(s, isOp) - Operators(s, isOp)
  {
    if s != [] {
      DepthCounts(s[1..], isOp);
    }
  }

  lemma {:induction false} CountsAppend<T>(a: seq<T>, b: seq<T>, isOp: T -> bool)
    ensures Operands(a + b, isOp) == Operands(a, isOp) + Operands(b, isOp)
    ensures Operators(a + b, isOp) == Operators(a, isOp) + Operators(b, isOp)
  {
    if a == [] {
      assert a + b == b;
    } else {
      assert (a + b)[0] == a[0];
      assert (a + b)[1..] == a[1..] + b;
      CountsAppend(a[1..], b, isOp);
    }
  }

  /** A well-formed sequence has exactly one more operand than operators. */
  lemma OperandsOutnumberOperators<T>(s: seq<T>, isOp: T -> bool)
    requires WellFormed(s, isOp)
    ensures Operands(s, isOp) == Operators(s, isOp) + 1
  {
    DepthCounts(s, isOp);
  }

  lemma SingleOperand<T>(t: T, isOp: T -> bool)
    requires !isOp(t)
    ensures WellFormed([t], isOp)
  {
    assert [t][..1] == [t];
    assert [t][1..] == [];
  }

  /** Two well-formed sequences followed by an operator form a well-formed sequence. */
  lemma Combine<T>(x: seq<T>, y: seq<T>, op: T, isOp: T -> bool)
    requires WellFormed(x, isOp) && WellFormed(y, isOp) && isOp(op)
    ensures WellFormed(x + y + [op], isOp)
  {
    var s := x + y + [op];
    assert [op][1..] == [];
    DepthAppend(x + y, [op], isOp);
    DepthAppend(x, y, isOp);
    forall k | 1 <= k <= |s| ensures Depth(s[..k], isOp) >= 1 {
      if k <= |x| {
        assert s[..k] == x[..k];
      } else if k <= |x| + |y| {
        assert s[..k] == x + y[..k - |x|];
        DepthAppend(x, y[..k - |x|], isOp);
        assert x[..|x|] == x;
        if k > |x| {
          assert Depth(y[..k - |x|], isOp) >= 1;
        }
      } else {
        assert s[..k] == s;
      }
    }
  }
}

=== FILE: queryparser.dfy ===
/**
  `QueryParser` (hermitage/parsers/query.py): walks the fields of a query
  record and yields a `Clause` per value, after renaming fields through its
  substitutes and passing operation clauses through its mappers.  Field
  classification is the shared `TypeChains.OperationBearing`; the parser
  carries its own copy of the two helpers, identical to the adapter's.

  Iteration is a generator: a mapper or a missing attribute raising stops it,
  after the clauses already yielded.  A run records both.
 */
module QueryParsing {
  import opened Builtins
  import opened Values
  import opened Namespaces
  import opened Clauses
  import opened TypeChains
  import Adapter
  import Injectors

  /** A mapper: any callable from clause to clause, which may raise. */
  type Mapper = Clause -> Outcome<Clause>

  /** What iterating yielded, and the exception that ended it early, if any. */
  datatype Run = Run(out: seq<Clause>, error: Option<PyError>)

  const Done := Run([], None)

  /** Running `b` after `a`: nothing of `b` happens once `a` has raised. */
  function Then(a: Run, b: Run): (r: Run)
    ensures a.error.Some? ==> r == a
    ensures a.error.None? ==> r.out == a.out + b.out && r.error == b.error
  {
    if a.error.Some? then a else Run(a.out + b.out, b.error)
  }

  lemma ThenAssociates(a: Run, b: Run, c: Run)
    ensures Then(Then(a, b), c) == Then(a, Then(b, c))
  {
    if a.error.None? && b.error.None? {
      assert (a.out + b.out) + c.out == a.out + (b.out + c.out);
    }
  }

  /** `_apply_mappers`: the mappers in order, each on the previous one's result; an empty list leaves the clause alone. */
  function Mapped(c: Clause, ms: seq<Mapper>): Outcome<Clause>
    decreases ms
  {
    if ms == [] then Ok(c)
    else
      match ms[0](c)
      case Raise(e) => Raise(e)
      case Ok(d) => Mapped(d, ms[1..])
  }

  /** The mappers compose: mapping by `a + b` is mapping by `a`, then by `b`. */
  lemma {:induction false} MappedAppend(c: Clause, a: seq<Mapper>, b: seq<Mapper>)
    decreases a
    ensures Mapped(c, a + b) == (match Mapped(c, a) case Raise(e) => Raise(e) case Ok(d) => Mapped(d, b))
  {
    if a == [] {
      assert a + b == b;
    } else {
      assert (a + b)[0] == a[0];
      assert (a + b)[1..] == a[1..] + b;
      if a[0](c).Ok? {
        MappedAppend(a[0](c).value, a[1..], b);
      }
    }
  }

  /** `self._substitutes.get(name, name)`. */
  function Renamed(name: string, subs: map<string, string>): string
  {
    if name in subs then subs[name] else name
  }

  /** `getattr(query, name)`, for the query's own fields: AttributeError for a name no field has. */
  function FieldValue(fields: seq<Adapter.Field>, name: string): (r: Outcome<Value>)
    ensures r.Raise? <==> forall i :: 0 <= i < |fields| ==> fields[i].name != name
    ensures r.Raise? ==> r.error == AttributeError
    ensures r.Ok? ==> exists i :: 0 <= i < |fields| && fields[i].name == name && r.value == fields[i].value
  {
    if fields == [] then Raise(AttributeError)
    else if fields[0].name == name then Ok(fields[0].value)
    else
      assert forall i :: 1 <= i < |fields| ==> fields[i] == fields[1..][i - 1];
      FieldValue(fields[1..], name)
  }

  /** `contracts.Clause(field_name, v)` for one member of an operation-bearing field. */
  function MemberClause(name: string, v: Value): Clause
  {
    Build([OText(name), OperandOf(v)])
  }

  /** `contracts.Clause(field_name, EQ(value))` for a plain field. */
  function PlainClause(name: string, v: Value): Clause
  {
    Build([OText(name), OBit(Equals(v))])
  }

  /** One member: its clause through the mappers, yielded, or the mapper's exception. */
  function MemberRun(name: string, v: Value, ms: seq<Mapper>): Run
  {
    match Mapped(MemberClause(name, v), ms)
    case Ok(c) => Run([c], None)
    case Raise(e) => Run([], Some(e))
  }

  /** The members of an operation-bearing field, in order. */
  function MembersRun(name: string, vs: seq<Value>, ms: seq<Mapper>): Run
  {
    if vs == [] then Done
    else Then(MembersRun(name, vs[..|vs| - 1], ms), MemberRun(name, vs[|vs| - 1], ms))
  }

  /** One field of the query, of which `fields` is the whole record. */
  function FieldRun(f: Adapter.Field, fields: seq<Adapter.Field>, subs: map<string, string>, ms: seq<Mapper>,
                    mro: string -> seq<string>): Run
  {
    var name := Renamed(f.name, subs);
    if f.value == NoneValue then Done
    else if OperationBearing(f.typ, mro) then MembersRun(name, Members(f.value), ms)
    else
      match FieldValue(fields, name)
      case Ok(v) => Run([PlainClause(name, v)], None)
      case Raise(e) => Run([], Some(e))
  }

  /** The fields of `prefix`, in order, of the record `fields`. */
  function QueryRun(prefix: seq<Adapter.Field>, fields: seq<Adapter.Field>, subs: map<string, string>,
                    ms: seq<Mapper>, mro: string -> seq<string>): Run
  {
    if prefix == [] then Done
    else Then(QueryRun(prefix[..|prefix| - 1], fields, subs, ms, mro), FieldRun(prefix[|prefix| - 1], fields, subs, ms, mro))
  }

  /** Once a member's mappers have raised, the later members change nothing. */
  lemma {:induction false} MembersStop(name: string, vs: seq<Value>, ms: seq<Mapper>, j: nat)
    requires j <= |vs| && MembersRun(name, vs[..j], ms).error.Some?
    ensures MembersRun(name, vs, ms) == MembersRun(name, vs[..j], ms)
  {
    if j < |vs| {
      var front := vs[..|vs| - 1];
      assert front[..j] == vs[..j];
      MembersStop(name, front, ms, j);
    } else {
      assert vs[..j] == vs;
    }
  }

  /** Once a field has raised, the later fields change nothing. */
  lemma {:induction false} QueryStops(prefix: seq<Adapter.Field>, fields: seq<Adapter.Field>, subs: map<string, string>,
                                      ms: seq<Mapper>, mro: string -> seq<string>, i: nat)
    requires i <= |prefix| && QueryRun(prefix[..i], fields, subs, ms, mro).error.Some?
    ensures QueryRun(prefix, fields, subs, ms, mro) == QueryRun(prefix[..i], fields, subs, ms, mro)
  {
    if i < |prefix| {
      var front := prefix[..|prefix| - 1];
      assert front[..i] == prefix[..i];
      QueryStops(front, fields, subs, ms, mro, i);
    } else {
      assert prefix[..i] == prefix;
    }
  }

  class QueryParser {
    var query: Option<seq<Adapter.Field>>
    var mappers: seq<Mapper>
    var substitutes: map<string, string>

    /** `QueryParser(query)`: no mappers, no substitutes. */
    constructor (q: Option<seq<Adapter.Field>>)
      ensures query == q && mappers == [] && substitutes == map[]
    {
      query := q;
      mappers := [];
      substitutes := map[];
    }

    /** `map(*mappers)`: replaces the mappers given before, it does not add to them. */
    method Map(ms: seq<Mapper>)
      modifies this
      ensures mappers == ms
      ensures query == old(query) && substitutes == old(substitutes)
    {
      mappers := ms;
    }

    /** `sub(source, target)`: the field `source` is emitted under the name `target`. */
    method Sub(source: string, target: string)
      modifies this
      ensures substitutes == old(substitutes)[source := target]
      ensures query == old(query) && mappers == old(mappers)
    {
      substitutes := substitutes[source := target];
    }

    /** `_apply_mappers(clause)`. */
    method ApplyMappers(c: Clause) returns (r: Outcome<Clause>)
      ensures r == Mapped(c, mappers)
    {
      r := Ok(c);
      var i := 0;
      while i < |mappers| && r.Ok?
        invariant 0 <= i <= |mappers|
        invariant r.Ok? ==> Mapped(r.value, mappers[i..]) == Mapped(c, mappers)
        invariant r.Raise? ==> r == Mapped(c, mappers)
      {
        assert mappers[i..][0] == mappers[i];
        assert mappers[i..][1..] == mappers[i + 1..];
        r := mappers[i](r.value);
        i := i + 1;
      }
      if r.Ok? {
        assert mappers[i..] == [];
      }
    }

    /** The clauses of an operation-bearing field's members, each through the mappers, until one raises. */
    method EmitMembers(name: string, vs: seq<Value>) returns (run: Run)
      ensures run == MembersRun(name, vs, mappers)
    {
      run := Done;
      var j := 0;
      while j < |vs| && run.error.None?
        invariant 0 <= j <= |vs|
        invariant run == MembersRun(name, vs[..j], mappers)
      {
        assert vs[..j + 1][..j] == vs[..j];
        var r := ApplyMappers(MemberClause(name, vs[j]));
        if r.Ok? {
          run := Run(run.out + [r.value], None);
        } else {
          run := Run(run.out, Some(r.error));
        }
        j := j + 1;
      }
      if j < |vs| {
        MembersStop(name, vs, mappers, j);
      } else {
        assert vs[..j] == vs;
      }
    }

    /** One field of the record `fields`: skipped when None, its members when operation-bearing, else one equality clause. */
    method EmitField(f: Adapter.Field, fields: seq<Adapter.Field>, mro: string -> seq<string>) returns (run: Run)
      ensures run == FieldRun(f, fields, substitutes, mappers, mro)
    {
      var name := if f.name in substitutes then substitutes[f.name] else f.name;
      if f.value == NoneValue {
        run := Done;
      } else if OperationBearing(f.typ, mro) {
        run := EmitMembers(name, Members(f.value));
      } else {
        var v := FieldValue(fields, name);
        if v.Ok? {
          run := Run([PlainClause(name, v.value)], None);
        } else {
          run := Run([], Some(v.error));
        }
      }
    }

    /** `iter(parser)`: the clauses yielded, and the exception that stopped the generator, if any. */
    method Iterate(mro: string -> seq<string>) returns (out: seq<Clause>, error: Option<PyError>)
      ensures query.None? ==> out == [] && error.None?
      ensures query.Some? ==> Run(out, error) == QueryRun(query.value, query.value, substitutes, mappers, mro)
    {
      out, error := [], None;
      if query.None? {
        return;
      }
      var fields := query.value;
      var i := 0;
      while i < |fields| && error.None?
        invariant 0 <= i <= |fields|
        invariant Run(out, error) == QueryRun(fields[..i], fields, substitutes, mappers, mro)
      {
        assert fields[..i + 1][..i] == fields[..i];
        var run := EmitField(fields[i], fields, mro);
        out, error := out + run.out, run.error;
        i := i + 1;
      }
      if i < |fields| {
        QueryStops(fields, fields, substitutes, mappers, mro, i);
      } else {
        assert fields[..i] == fields;
      }
    }
  }

  // ---------------------------------------------------------------------------
  // What the parser promises about the clauses it yields
  // ---------------------------------------------------------------------------

  /** Without mappers nothing raises, and each member becomes its own clause, in order. */
  lemma {:induction false} MembersWithoutMappers(name: string, vs: seq<Value>)
    ensures MembersRun(name, vs, []).error.None?
    ensures |MembersRun(name, vs, []).out| == |vs|
    ensures forall i :: 0 <= i < |vs| ==> MembersRun(name, vs, []).out[i] == MemberClause(name, vs[i])
  {
    if vs != [] {
      var front := vs[..|vs| - 1];
      var last := vs[|vs| - 1];
      MembersWithoutMappers(name, front);
      assert MemberRun(name, last, []) == Run([MemberClause(name, last)], None);
      assert MembersRun(name, vs, []) == Then(MembersRun(name, front, []), MemberRun(name, last, []));
      assert forall i :: 0 <= i < |front| ==> front[i] == vs[i];
    }
  }

  /**
    Without mappers, every clause a field yields is addressed by the field's
    substituted name, whether the field is operation-bearing or plain (when
    that name is dot-free: a dotted one is read as a namespace and an address).
   */
  lemma RenamedAddresses(f: Adapter.Field, fields: seq<Adapter.Field>, subs: map<string, string>, mro: string -> seq<string>)
    requires Free(Renamed(f.name, subs), '.')
    ensures forall c :: c in FieldRun(f, fields, subs, [], mro).out ==> c.address == Some(Address(Renamed(f.name, subs)))
  {
    var name := Renamed(f.name, subs);
    forall v: Value ensures MemberClause(name, v).address == Some(Address(name)) && PlainClause(name, v).address == Some(Address(name)) {
      PlainTextOperand(name, [OperandOf(v)]);
      assert [OText(name)] + [OperandOf(v)] == [OText(name), OperandOf(v)];
      PlainTextOperand(name, [OBit(Equals(v))]);
      assert [OText(name)] + [OBit(Equals(v))] == [OText(name), OBit(Equals(v))];
    }
    if f.value != NoneValue && OperationBearing(f.typ, mro) {
      MembersWithoutMappers(name, Members(f.value));
    }
  }

  /** `sub(s, t)`: the clauses of field `s` are addressed by `t`. */
  lemma SubRenames(f: Adapter.Field, fields: seq<Adapter.Field>, subs: map<string, string>, t: string, mro: string -> seq<string>)
    requires Free(t, '.')
    ensures forall c :: c in FieldRun(f, fields, subs[f.name := t], [], mro).out ==> c.address == Some(Address(t))
  {
    RenamedAddresses(f, fields, subs[f.name := t], mro);
  }

  /**
    A plain field's value is read under its substituted name: when no field
    of the record has that name, iterating raises AttributeError and yields
    nothing for the field.
   */
  lemma SubstitutedPlainFieldRaises(f: Adapter.Field, fields: seq<Adapter.Field>, subs: map<string, string>, mro: string -> seq<string>)
    requires f.value != NoneValue && !OperationBearing(f.typ, mro)
    requires forall i :: 0 <= i < |fields| ==> fields[i].name != Renamed(f.name, subs)
    ensures FieldRun(f, fields, subs, [], mro) == Run([], Some(AttributeError))
  {
  }

  /** Fields holding None are skipped; nothing else is (Empty included), and a plain field is never mapped. */
  lemma PlainFieldYieldsEquality(f: Adapter.Field, fields: seq<Adapter.Field>, ms: seq<Mapper>, mro: string -> seq<string>)
    requires f.value != NoneValue && !OperationBearing(f.typ, mro)
    requires f in fields && Adapter.DistinctNames(fields)
    ensures FieldRun(f, fields, map[], ms, mro) == Run([PlainClause(f.name, f.value)], None)
    ensures PlainClause(f.name, f.value).operation == Some(BitOp(Equals(f.value)))
  {
    var j :| 0 <= j < |fields| && fields[j] == f;
    var r := FieldValue(fields, f.name);
    assert r.Ok? by {
      assert fields[j].name == f.name;
    }
    var i :| 0 <= i < |fields| && fields[i].name == f.name && r.value == fields[i].value;
    assert i == j;
    OperationOfBit(f.name, Equals(f.value));
    assert PlainClause(f.name, f.value) == MemberClause(f.name, Bit(Equals(f.value)));
  }

  /** A field holding None yields nothing and raises nothing, whatever its type, name or mappers. */
  lemma NoneFieldSkipped(f: Adapter.Field, fields: seq<Adapter.Field>, subs: map<string, string>, ms: seq<Mapper>,
                         mro: string -> seq<string>)
    requires f.value == NoneValue
    ensures FieldRun(f, fields, subs, ms, mro) == Run([], None)
  {
  }

  /** A slice member is not told apart: it becomes a clause like any other bit, here addressed by the field name. */
  lemma SliceMemberIsClause(name: string, s: string, v: Value)
    requires Free(name, '.')
    ensures MembersRun(name, Members(Bit(Op(Slicing(s), v))), []) == Run([MemberClause(name, Bit(Op(Slicing(s), v)))], None)
    ensures MemberClause(name, Bit(Op(Slicing(s), v))).address == Some(Address(name))
  {
    PlainTextOperand(name, [OBit(Op(Slicing(s), v))]);
    assert [OText(name)] + [OBit(Op(Slicing(s), v))] == [OText(name), OBit(Op(Slicing(s), v))];
    assert Members(Bit(Op(Slicing(s), v)))[..0] == [];
  }

  /**
    A `ClauseInjector` as the one mapper: the clause of a dot-free field
    named by its search key comes out addressed by the injection key,
    holding the referenced value.
   */
  lemma InjectorAsMapper(inj: Injectors.Injector, kind: OpKind, x: Value)
    requires Free(inj.searchKey, '.')
    ensures MemberRun(inj.searchKey, Bit(Op(kind, x)), [c => Injectors.Inject(inj, c)]).error.None?
    ensures var out := MemberRun(inj.searchKey, Bit(Op(kind, x)), [c => Injectors.Inject(inj, c)]).out;
      |out| == 1 && out[0].address == Some(Injectors.InjectedAddress(inj.injectionKey)) &&
      out[0].operation == Some(BitOp(Op(kind, inj.reference(x))))
  {
    var c := MemberClause(inj.searchKey, Bit(Op(kind, x)));
    PlainTextOperand(inj.searchKey, [OBit(Op(kind, x))]);
    assert [OText(inj.searchKey)] + [OBit(Op(kind, x))] == [OText(inj.searchKey), OBit(Op(kind, x))];
    OperationOfBit(inj.searchKey, Op(kind, x));
    var ms: seq<Mapper> := [c => Injectors.Inject(inj, c)];
    assert ms[1..] == [];
  }

  /** A field name, dotted or not, sets only the address and the fixed namespace. */
  lemma NameKeepsOperation(c: Clause, s: string)
    ensures Apply(c, Expand(OText(s))).operation == c.operation
  {
    var parts := Split(s, '.');
    if |parts| > 1 {
      var e := [ONamespace(Parse(Join(parts[..|parts| - 1], '.'))), OAddress(Address(parts[|parts| - 1]))];
      assert Expand(OText(s)) == e;
      var c' := Effect(c, e[0]);
      assert e[1..] == [e[1]] && [e[1]][1..] == [];
      assert Apply(c, e) == Apply(c', [e[1]]) == Effect(c', e[1]);
    } else {
      var e := [OAddress(Address(s))];
      assert Expand(OText(s)) == e;
      assert e[1..] == [];
    }
  }

  /** `Clause(bit)` alone: only the operation is set. */
  lemma BitAlone(op: Operation)
    ensures Build([OBit(op)]) == Blank.(operation := Some(BitOp(op)))
  {
    var os := [OBit(op)];
    assert os[..0] == [] && os[0] == OBit(op);
    assert Expand(OBit(op)) == os;
    assert Processed(os) == os + [];
    assert os[1..] == [];
    assert Apply(Blank, os) == Apply(Effect(Blank, OBit(op)), []);
  }

  /** The clause of a bit member carries that bit as its operation. */
  lemma OperationOfBit(name: string, op: Operation)
    ensures MemberClause(name, Bit(op)).operation == Some(BitOp(op))
  {
    var c := Build([OBit(op)]);
    BitAlone(op);
    assert OperandOf(Bit(op)) == OBit(op);
    assert [OText(name)] + [OBit(op)] == [OText(name), OBit(op)];
    LeftmostOperandLast(OText(name), [OBit(op)]);
    assert MemberClause(name, Bit(op)) == Apply(c, Expand(OText(name)));
    NameKeepsOperation(c, name);
  }
}

=== FILE: registry.dfy ===
/**
  `PluginRegistry` (hermitage/definition/contracts.py): plugins keyed by
  the meta element type they answer to, their beacon.  Built with a dict
  comprehension, so a later plugin with the same beacon replaces an earlier
  one while the key keeps the position where it was first seen.
 */
module Registry {
  import opened Builtins

  /** A plugin class, known by its name and by the beacon `get_beacon()` returns. */
  datatype Plugin = Plugin(name: string, beacon: string)

  /** The dict the comprehension builds: each beacon maps to the last plugin that has it. */
  function Registered(ps: seq<Plugin>): (m: map<string, Plugin>)
    ensures forall b :: b in m <==> exists i :: 0 <= i < |ps| && ps[i].beacon == b
    ensures forall b :: b in m ==> m[b].beacon == b
  {
    if ps == [] then map[]
    else
      var m := Registered(ps[..|ps| - 1]);
      assert forall i :: 0 <= i < |ps| - 1 ==> ps[..|ps| - 1][i] == ps[i];
      m[ps[|ps| - 1].beacon := ps[|ps| - 1]]
  }

  /** The order of the dict's keys: beacons in the order they first appear. */
  function FirstSeen(ps: seq<Plugin>): (keys: seq<string>)
    ensures forall b :: b in keys <==> exists i :: 0 <= i < |ps| && ps[i].beacon == b
  {
    if ps == [] then []
    else
      var keys := FirstSeen(ps[..|ps| - 1]);
      assert forall i :: 0 <= i < |ps| - 1 ==> ps[..|ps| - 1][i] == ps[i];
      if ps[|ps| - 1].beacon in keys then keys else keys + [ps[|ps| - 1].beacon]
  }

  predicate Distinct(xs: seq<string>)
  {
    forall i, j :: 0 <= i < j < |xs| ==> xs[i] != xs[j]
  }

  lemma {:induction false} FirstSeenDistinct(ps: seq<Plugin>)
    ensures Distinct(FirstSeen(ps))
  {
    if ps != [] {
      FirstSeenDistinct(ps[..|ps| - 1]);
    }
  }

  /** The plugin registered for a beacon is the last one given with that beacon. */
  lemma {:induction false} LastWins(ps: seq<Plugin>, i: nat)
    requires i < |ps|
    requires forall j :: i < j < |ps| ==> ps[j].beacon != ps[i].beacon
    ensures Registered(ps)[ps[i].beacon] == ps[i]
  {
    if i < |ps| - 1 {
      var front := ps[..|ps| - 1];
      assert front[i] == ps[i];
      LastWins(front, i);
    }
  }

  /** Order of first appearance ignores a repeated beacon. */
  lemma RepeatKeepsOrder(ps: seq<Plugin>, p: Plugin)
    requires exists i :: 0 <= i < |ps| && ps[i].beacon == p.beacon
    ensures FirstSeen(ps + [p]) == FirstSeen(ps)
    ensures Registered(ps + [p]) == Registered(ps)[p.beacon := p]
  {
    assert (ps + [p])[..|ps|] == ps;
  }

  function Lookup(keys: seq<string>, m: map<string, Plugin>): (r: seq<Plugin>)
    requires forall k :: k in keys ==> k in m
    ensures |r| == |keys| && forall i :: 0 <= i < |keys| ==> r[i] == m[keys[i]]
  {
    if keys == [] then [] else [m[keys[0]]] + Lookup(keys[1..], m)
  }

  class PluginRegistry {
    var order: seq<string>
    var plugins: map<string, Plugin>

    ghost predicate Valid()
      reads this
    {
      && Distinct(order)
      && (forall b :: b in plugins <==> b in order)
      && (forall b :: b in plugins ==> plugins[b].beacon == b)
    }

    /** `PluginRegistry(*plugins)`. */
    constructor (ps: seq<Plugin>)
      ensures Valid()
      ensures plugins == Registered(ps) && order == FirstSeen(ps)
    {
      var keys: seq<string> := [];
      var m: map<string, Plugin> := map[];
      var i := 0;
      while i < |ps|
        invariant 0 <= i <= |ps|
        invariant m == Registered(ps[..i]) && keys == FirstSeen(ps[..i])
      {
        assert ps[..i + 1][..i] == ps[..i];
        var p := ps[i];
        if p.beacon !in keys {
          keys := keys + [p.beacon];
        }
        m := m[p.beacon := p];
        i := i + 1;
      }
      assert ps[..i] == ps;
      FirstSeenDistinct(ps);
      order, plugins := keys, m;
    }

    /** `registry.get(key)`: None for a beacon nobody registered. */
    function Get(key: string): (r: Option<Plugin>)
      reads this
      ensures r.Some? <==> key in plugins
      ensures r.Some? ==> r.value == plugins[key]
    {
      if key in plugins then Some(plugins[key]) else None
    }

    /** `registry[key]`: KeyError for a beacon nobody registered. */
    function GetItem(key: string): (r: Outcome<Plugin>)
      reads this
      requires Valid()
      ensures r.Raise? <==> key !in plugins
      ensures r.Raise? ==> r.error == KeyError
      ensures r.Ok? ==> r.value == plugins[key] && r.value.beacon == key
    {
      if key in plugins then Ok(plugins[key]) else Raise(KeyError)
    }

    /** `keys()` and `iter(registry)`: every registered beacon once, in order of first registration. */
    function Keys(): (r: seq<string>)
      reads this
      requires Valid()
      ensures Distinct(r) && forall b :: b in r <==> b in plugins
      ensures r == order
    {
      order
    }

    /** `values()`: the plugins in key order. */
    function Values(): (r: seq<Plugin>)
      reads this
      requires Valid()
      ensures |r| == |order| && forall i :: 0 <= i < |order| ==> r[i] == plugins[order[i]]
    {
      Lookup(order, plugins)
    }
  }

  /** A registry built from plugins with distinct beacons holds each of them under its beacon, in the given order. */
  lemma {:induction false} DistinctBeacons(ps: seq<Plugin>)
    requires forall i, j :: 0 <= i < j < |ps| ==> ps[i].beacon != ps[j].beacon
    ensures |FirstSeen(ps)| == |ps|
    ensures forall i :: 0 <= i < |ps| ==> FirstSeen(ps)[i] == ps[i].beacon && Registered(ps)[ps[i].beacon] == ps[i]
  {
    if ps != [] {
      var front := ps[..|ps| - 1];
      var last := ps[|ps| - 1];
      DistinctBeacons(front);
      assert forall i :: 0 <= i < |front| ==> front[i] == ps[i];
      assert last.beacon !in FirstSeen(front);
      assert FirstSeen(ps) == FirstSeen(front) + [last.beacon];
      forall i | 0 <= i < |ps| ensures Registered(ps)[ps[i].beacon] == ps[i] {
        LastWins(ps, i);
      }
    }
  }
}

=== FILE: rows.dfy ===
/**
  `Row` (hermitage/definition/contracts.py): an insertion-ordered mapping
  from keyword names to values, edited in place by guarded update, insert
  and delete.
 */
module Rows {
  import opened Values

  /** `xs` without `k`, order kept. */
  function Without(xs: seq<string>, k: string): (r: seq<string>)
    ensures forall x :: x in r <==> x in xs && x != k
    ensures |r| <= |xs|
  {
    if xs == [] then []
    else (if xs[0] == k then [] else [xs[0]]) + Without(xs[1..], k)
  }


  predicate Distinct(xs: seq<string>)
  {
    forall i, j :: 0 <= i < j < |xs| ==> xs[i] != xs[j]
  }

  lemma {:induction false} WithoutDistinct(xs: seq<string>, k: string)
    requires Distinct(xs)
    ensures Distinct(Without(xs, k))
  {
    if xs != [] {
      WithoutDistinct(xs[1..], k);
      var rest := Without(xs[1..], k);
      if xs[0] != k {
        assert xs[0] !in rest by {
          assert xs[0] !in xs[1..];
        }
      }
    }
  }

  /** `xs` without any of `gone`, order kept. */
  function Kept(xs: seq<string>, gone: seq<string>): seq<string>
  {
    if xs == [] then []
    else (if xs[0] in gone then [] else [xs[0]]) + Kept(xs[1..], gone)
  }

  lemma {:induction false} WithoutAbsent(xs: seq<string>, k: string)
    requires k !in xs
    ensures Without(xs, k) == xs
  {
    if xs != [] {
      WithoutAbsent(xs[1..], k);
      assert [xs[0]] + xs[1..] == xs;
    }
  }

  lemma {:induction false} KeptNone(xs: seq<string>)
    ensures Kept(xs, []) == xs
  {
    if xs != [] {
      KeptNone(xs[1..]);
      assert [xs[0]] + xs[1..] == xs;
    }
  }

  /** Removing the keys one after the other is removing them all at once. */
  lemma {:induction false} KeptStep(xs: seq<string>, gone: seq<string>, k: string)
    ensures Without(Kept(xs, gone), k) == Kept(xs, gone + [k])
  {
    if xs != [] {
      KeptStep(xs[1..], gone, k);
      var head := if xs[0] in gone then [] else [xs[0]];
      var rest := Kept(xs[1..], gone);
      assert Kept(xs, gone) == head + rest;
      assert (xs[0] in gone + [k]) <==> (xs[0] in gone || xs[0] == k);
      if head == [] {
        assert head + rest == rest;
      } else {
        assert (head + rest)[1..] == rest;
      }
    }
  }

  class Row {
    /** The keys in insertion order (the iteration order of the dict). */
    var keys: seq<string>
    var data: map<string, Value>

    ghost predicate Valid()
      reads this
    {
      Distinct(keys) && (forall k :: k in data <==> k in keys)
    }

    /** `Row(**data)`: keyword arguments have distinct names. */
    constructor (names: seq<string>, values: map<string, Value>)
      requires Distinct(names) && forall k :: k in values <==> k in names
      ensures Valid()
      ensures keys == names && data == values
    {
      keys := names;
      data := values;
    }

    /** `row[key]`: the stored value, or None for a key that is absent. */
    function Get(key: string): (v: Value)
      reads this
      ensures key in data ==> v == data[key]
      ensures key !in data ==> v == NoneValue
    {
      if key in data then data[key] else NoneValue
    }

    /** `len(row)`. */
    function Length(): (n: nat)
      reads this
      requires Valid()
      ensures n == |data.Keys|
    {
      DistinctCard(keys, data.Keys);
      |keys|
    }

    /** `update`: only a key that is already present changes; the order stays. */
    method Update(key: string, value: Value)
      requires Valid()
      modifies this
      ensures Valid()
      ensures key in old(data) ==> data == old(data)[key := value]
      ensures key !in old(data) ==> data == old(data)
      ensures keys == old(keys)
    {
      if key in data {
        data := data[key := value];
      }
    }

    /** `insert`: only a key that is absent is added, at the end. */
    method Insert(key: string, value: Value)
      requires Valid()
      modifies this
      ensures Valid()
      ensures key !in old(data) ==> data == old(data)[key := value] && keys == old(keys) + [key]
      ensures key in old(data) ==> data == old(data) && keys == old(keys)
    {
      if key !in data {
        data := data[key := value];
        keys := keys + [key];
      }
    }

    /** `row[key] = value`: overwrite in place, or add at the end. */
    method SetItem(key: string, value: Value)
      requires Valid()
      modifies this
      ensures Valid()
      ensures data == old(data)[key := value]
      ensures keys == if key in old(data) then old(keys) else old(keys) + [key]
    {
      if key !in data {
        keys := keys + [key];
      }
      data := data[key := value];
    }

    /** One round of `delete`: `del data[key]` if the key is present. */
    method DeleteKey(key: string)
      requires Valid()
      modifies this
      ensures Valid()
      ensures data == old(data) - {key}
      ensures keys == Without(old(keys), key)
    {
      if key in data {
        WithoutDistinct(keys, key);
        keys := Without(keys, key);
        data := data - {key};
      } else {
        WithoutAbsent(keys, key);
        assert data == data - {key};
      }
    }

    /** `delete(*keys)`: every listed key that is present goes; missing ones are ignored. */
    method Delete(ks: seq<string>)
      requires Valid()
      modifies this
      ensures Valid()
      ensures data == old(data) - Listed(ks)
      ensures keys == Kept(old(keys), ks)
    {
      var i := 0;
      KeptNone(keys);
      assert Listed([]) == {};
      while i < |ks|
        invariant 0 <= i <= |ks|
        invariant Valid()
        invariant data == old(data) - Listed(ks[..i])
        invariant keys == Kept(old(keys), ks[..i])
      {
        DeleteStep(old(keys), old(data), ks[..i], ks[i]);
        assert ks[..i + 1] == ks[..i] + [ks[i]];
        DeleteKey(ks[i]);
        i := i + 1;
      }
      assert ks[..i] == ks;
    }
  }

  lemma DeleteStep(keys: seq<string>, data: map<string, Value>, gone: seq<string>, k: string)
    ensures Without(Kept(keys, gone), k) == Kept(keys, gone + [k])
    ensures (data - Listed(gone)) - {k} == data - Listed(gone + [k])
  {
    KeptStep(keys, gone, k);
    assert Listed(gone + [k]) == Listed(gone) + {k};
  }

  function Listed(ks: seq<string>): set<string>
  {
    set k | k in ks
  }


  lemma {:induction false} DistinctCard(xs: seq<string>, s: set<string>)
    requires Distinct(xs) && forall k :: k in s <==> k in xs
    ensures |s| == |xs|
  {
    if xs != [] {
      var rest := s - {xs[0]};
      assert xs[0] !in xs[1..];
      DistinctCard(xs[1..], rest);
    }
  }
}

=== FILE: transformers.dfy ===
/**
  The `Inject` transformer (hermitage/adapters/transformers.py): rewrites
  the element the adapter emitted for a field into a clause named after the
  injection field, with the operation's value passed through the injection
  entity (a reference table turning enum members into stored keys, say).
 */
module Transformers {
  import opened Builtins
  import opened Values
  import opened Notation
  import Adapter

  /** The injection entity: something callable, or any other object. */
  datatype Entity = Callable(call: Value -> Value) | Inert

  /** `Inject(field_name, injection_entity, injection_field=None)`. */
  datatype Inject = Inject(fieldName: string, entity: Entity, injectionField: Option<string>)

  /** `injection_field or field_name`: an absent or empty injection field falls back to the field name. */
  function Target(t: Inject): (r: string)
    ensures t.injectionField.Some? && t.injectionField.value != "" ==> r == t.injectionField.value
    ensures t.injectionField.None? || t.injectionField.value == "" ==> r == t.fieldName
  {
    if t.injectionField.Some? && t.injectionField.value != "" then t.injectionField.value else t.fieldName
  }

  /** `_apply_value`: the entity applied when it is callable, the value itself otherwise. */
  function ApplyValue(e: Entity, v: Value): (r: Value)
    ensures e.Inert? ==> r == v
    ensures e.Callable? ==> r == e.call(v)
  {
    if e.Callable? then e.call(v) else v
  }

  /** `clause.operation` of what the adapter hands over: clauses and slices have one, plain values do not. */
  function OperationOf(p: Payload): (r: Outcome<Value>)
    ensures p.Elem? && p.element.ClauseE? ==> r == Ok(p.element.clause.operation)
    ensures p.Elem? && p.element.SliceE? ==> r == Ok(Bit(p.element.operation))
    ensures !(p.Elem? && (p.element.ClauseE? || p.element.SliceE?)) ==> r == Raise(AttributeError)
  {
    if p.Elem? && p.element.ClauseE? then Ok(p.element.clause.operation)
    else if p.Elem? && p.element.SliceE? then Ok(Bit(p.element.operation))
    else Raise(AttributeError)
  }

  /**
    The operation rebuilt around the entity: a SET member by member, in
    order; any other bit as the same kind around its one mapped value.  An
    operation that is not a bit has no `.value` to map.
   */
  function Rewritten(e: Entity, op: Value): (r: Outcome<Value>)
    ensures op.Bit? && op.op.Set? ==> r.Ok? && r.value.Bit? && r.value.op.Set? && r.value.op.members == MapValues(op.op.members, v => ApplyValue(e, v))
    ensures op.Bit? && op.op.Op? ==> r == Ok(Bit(Op(op.op.kind, ApplyValue(e, op.op.value))))
    ensures !op.Bit? ==> r == Raise(AttributeError)
  {
    match op
    case Bit(Set(ms)) => Ok(Bit(Set(MapValues(ms, v => ApplyValue(e, v)))))
    case Bit(Op(kind, v)) => Ok(Bit(Op(kind, ApplyValue(e, v))))
    case _ => Raise(AttributeError)
  }

  /** `inject(clause)`: always a fresh clause named after the target field. */
  function Apply(t: Inject, p: Payload): (r: Outcome<Payload>)
    ensures r.Ok? <==> OperationOf(p).Ok? && OperationOf(p).value.Bit?
    ensures r.Raise? ==> r.error == AttributeError
    ensures r.Ok? ==> r.value.Elem? && r.value.element.ClauseE? && r.value.element.clause.name == Target(t)
    ensures r.Ok? ==> Ok(r.value.element.clause.operation) == Rewritten(t.entity, OperationOf(p).value)
  {
    match OperationOf(p)
    case Raise(e) => Raise(e)
    case Ok(op) =>
      match Rewritten(t.entity, op)
      case Raise(e) => Raise(e)
      case Ok(op') => Ok(Elem(ClauseE(Clause(Target(t), op'))))
  }

  /** A non-callable entity only renames: the operation comes out as it went in. */
  lemma InertOnlyRenames(t: Inject, c: Clause)
    requires t.entity.Inert? && c.operation.Bit?
    ensures Apply(t, Elem(ClauseE(c))) == Ok(Elem(ClauseE(Clause(Target(t), c.operation))))
  {
    if c.operation.op.Set? {
      var ms := c.operation.op.members;
      assert MapValues(ms, v => ApplyValue(t.entity, v)) == ms;
    }
  }

  /** A slice the adapter emitted comes out as a clause, named after the target field. */
  lemma SliceBecomesClause(t: Inject, op: Operation)
    ensures Apply(t, Elem(SliceE(op))).Ok?
    ensures Apply(t, Elem(SliceE(op))).value.element.ClauseE?
  {
  }

  // ---------------------------------------------------------------------------
  // A reference table: the first key whose member equals the value, else None
  // ---------------------------------------------------------------------------

  /** Looking a member up in a table of (key, member) pairs, in table order. */
  function KeyOf(table: seq<(int, Value)>, v: Value): Value
  {
    if table == [] then NoneValue
    else if table[0].1 == v then Int(table[0].0)
    else KeyOf(table[1..], v)
  }

  /** The key found belongs to the first pair holding the member; None means no pair holds it. */
  lemma {:induction false} KeyOfFirst(table: seq<(int, Value)>, v: Value)
    ensures KeyOf(table, v) == NoneValue <==> forall i :: 0 <= i < |table| ==> table[i].1 != v
    ensures KeyOf(table, v) != NoneValue ==>
      exists i :: (0 <= i < |table| && table[i].1 == v && KeyOf(table, v) == Int(table[i].0) &&
                   forall j :: 0 <= j < i ==> table[j].1 != v)
  {
    if table != [] && table[0].1 != v {
      var rest := table[1..];
      KeyOfFirst(rest, v);
      assert forall i :: 1 <= i < |table| ==> table[i] == rest[i - 1];
      if KeyOf(rest, v) != NoneValue {
        var k :| 0 <= k < |rest| && rest[k].1 == v && KeyOf(rest, v) == Int(rest[k].0) &&
          forall j :: 0 <= j < k ==> rest[j].1 != v;
        assert table[k + 1] == rest[k];
      }
    }
  }

  /** Task states and their stored keys. */
  function StateTable(): seq<(int, Value)>
  {
    [(1, Atom("new")), (2, Atom("in_progress")), (3, Atom("done")), (4, Atom("canceled"))]
  }

  /**
    Injecting the state reference into the element the adapter emits for
    `state=SET(new, done)` (a SET is one member, so one clause) gives a
    clause named "state_id" holding `SET(1, 3)`.
   */
  lemma InjectStates()
    ensures Apply(Inject("state", Callable(v => KeyOf(StateTable(), v)), Some("state_id")),
                  Adapter.MemberElement("state", Bit(Set([Atom("new"), Atom("done")]))))
         == Ok(Elem(ClauseE(Clause("state_id", Bit(Set([Int(1), Int(3)]))))))
  {
    var table := StateTable();
    assert KeyOf(table, Atom("new")) == Int(1);
    assert KeyOf(table, Atom("done")) == Int(3) by {
      assert table[1..][1..][0].1 == Atom("done");
    }
    var t := Inject("state", Callable(v => KeyOf(table, v)), Some("state_id"));
    var ms := MapValues([Atom("new"), Atom("done")], v => ApplyValue(t.entity, v));
    assert ms == [Int(1), Int(3)];
  }
}

=== FILE: typechains.dfy ===
/**
  Field classification shared by the adapter (hermitage/adapters/cqea.py)
  and the query parser (hermitage/parsers/query.py), which carry identical
  copies of `_evoke_types_chain` and `_search_contract`: a field is
  operation-bearing when its annotation, unrolled into a chain of types,
  mentions the operation-bit class.

  Annotations are explicit type expressions here, and the method resolution
  order of a class is a given function from class names to the names of its
  ancestors.
 */
module TypeChains {
  import opened Builtins

  /** A field annotation: a plain class, a subscripted generic (a union is one), or no annotation at all. */
  datatype TypeExpr = Plain(name: string) | Generic(origin: string, args: seq<TypeExpr>) | Missing

  /** What `_evoke_types_chain` returns: a class, the `Empty` sentinel, or a list/tuple of these. */
  datatype Chain = Class(name: string) | EmptyMark | Items(items: seq<Chain>)

  /** `collections.abc.Callable`, whose presence at a level stops the search there. */
  const CallableName := "collections.abc.Callable"

  /** The class every operation bit derives from. */
  const ClauseBitName := "ClauseBit"

  function EvokeAll(ts: seq<TypeExpr>): (r: seq<Chain>)
    decreases ts
    ensures |r| == |ts|
    ensures forall i :: 0 <= i < |ts| ==> r[i] == Evoke(ts[i])
  {
    if ts == [] then [] else [Evoke(ts[0])] + EvokeAll(ts[1..])
  }

  /**
    `_evoke_types_chain(annotation)`: a non-generic annotation as it is (a
    missing one as Empty); a generic as its origin followed by the chain of
    its only argument spliced in, or by the tuple of the chains of its
    arguments when it has several (or none).
   */
  function Evoke(t: TypeExpr): (r: Chain)
    decreases t
    ensures t.Plain? ==> r == Class(t.name)
    ensures t.Missing? ==> r == EmptyMark
    ensures t.Generic? ==> r.Items? && |r.items| >= 2 && r.items[0] == Class(t.origin)
    ensures t.Generic? && |t.args| != 1 ==> r == Items([Class(t.origin), Items(EvokeAll(t.args))])
    ensures t.Generic? && |t.args| == 1 ==> r == Items([Class(t.origin)] + Level(Evoke(t.args[0])))
  {
    match t
    case Plain(n) => Class(n)
    case Missing => EmptyMark
    case Generic(origin, args) =>
      if |args| == 1 then
        assert args[0] in args;
        var inner := Evoke(args[0]);
        if inner.Items? then Items([Class(origin)] + inner.items) else Items([Class(origin), inner])
      else Items([Class(origin), Items(EvokeAll(args))])
  }

  /** A tower of one-argument generics around a class, such as `list[set[int]]`. */
  function Tower(origins: seq<string>, base: string): TypeExpr
  {
    if origins == [] then Plain(base) else Generic(origins[0], [Tower(origins[1..], base)])
  }

  function Classes(names: seq<string>): (r: seq<Chain>)
    ensures |r| == |names| && forall i :: 0 <= i < |names| ==> r[i] == Class(names[i])
  {
    if names == [] then [] else [Class(names[0])] + Classes(names[1..])
  }

  /** Nested one-argument generics unroll into one flat chain: origins outermost first, then the class. */
  lemma {:induction false} TowerFlattens(origins: seq<string>, base: string)
    requires origins != []
    ensures Evoke(Tower(origins, base)) == Items(Classes(origins + [base]))
  {
    var rest := origins[1..];
    assert (origins + [base])[1..] == rest + [base];
    if rest != [] {
      TowerFlattens(rest, base);
    }
  }

  /** The elements of one search level: a list or tuple as it is, a single class as a 1-tuple. */
  function Level(h: Chain): seq<Chain>
  {
    if h.Items? then h.items else [h]
  }

  /** `needle is element or needle in element.__mro__`; the Empty sentinel is never the needle. */
  predicate Matches(e: Chain, needle: string, mro: string -> seq<string>)
  {
    e.Class? && (e.name == needle || needle in mro(e.name))
  }

  /**
    `_search_contract(haystack, needle)`: None when Callable is at this
    level; otherwise the first element, depth-first, that is the needle or
    derives from it.
   */
  function Search(h: Chain, needle: string, mro: string -> seq<string>): (r: Option<Chain>)
    decreases h, |Level(h)| + 1
    ensures r.Some? ==> Matches(r.value, needle, mro)
    ensures Class(CallableName) in Level(h) ==> r.None?
  {
    if Class(CallableName) in Level(h) then None else Scan(h, 0, needle, mro)
  }

  function Scan(h: Chain, i: nat, needle: string, mro: string -> seq<string>): (r: Option<Chain>)
    requires i <= |Level(h)|
    decreases h, |Level(h)| - i
    ensures r.Some? ==> Matches(r.value, needle, mro)
  {
    if i == |Level(h)| then None
    else
      var e := Level(h)[i];
      if e.Items? then
        assert e in h.items;
        var found := Search(e, needle, mro);
        if found.Some? then found else Scan(h, i + 1, needle, mro)
      else if Matches(e, needle, mro) then Some(e)
      else Scan(h, i + 1, needle, mro)
  }

  /** Whether the field is operation-bearing: the search on its chain finds something. */
  predicate OperationBearing(t: TypeExpr, mro: string -> seq<string>)
  {
    Search(Evoke(t), ClauseBitName, mro).Some?
  }

  // ---------------------------------------------------------------------------
  // An independent reading of the search: the candidates in depth-first order
  // ---------------------------------------------------------------------------

  /** The non-list elements the search can reach, in the order it visits them. */
  function Candidates(h: Chain): seq<Chain>
    decreases h, |Level(h)| + 1
  {
    if Class(CallableName) in Level(h) then [] else CandidatesFrom(h, 0)
  }

  function CandidatesFrom(h: Chain, i: nat): seq<Chain>
    requires i <= |Level(h)|
    decreases h, |Level(h)| - i
  {
    if i == |Level(h)| then []
    else
      var e := Level(h)[i];
      if e.Items? then
        assert e in h.items;
        Candidates(e) + CandidatesFrom(h, i + 1)
      else [e] + CandidatesFrom(h, i + 1)
  }

  function FirstMatch(cs: seq<Chain>, needle: string, mro: string -> seq<string>): Option<Chain>
  {
    if cs == [] then None
    else if Matches(cs[0], needle, mro) then Some(cs[0])
    else FirstMatch(cs[1..], needle, mro)
  }

  lemma {:induction false} FirstMatchAppend(a: seq<Chain>, b: seq<Chain>, needle: string, mro: string -> seq<string>)
    ensures FirstMatch(a + b, needle, mro) == if FirstMatch(a, needle, mro).Some? then FirstMatch(a, needle, mro) else FirstMatch(b, needle, mro)
  {
    if a == [] {
      assert a + b == b;
    } else {
      assert (a + b)[0] == a[0];
      assert (a + b)[1..] == a[1..] + b;
      FirstMatchAppend(a[1..], b, needle, mro);
    }
  }

  /** The search returns the first matching candidate in depth-first order. */
  lemma {:induction false} SearchIsFirstCandidate(h: Chain, needle: string, mro: string -> seq<string>)
    decreases h, |Level(h)| + 1
    ensures Search(h, needle, mro) == FirstMatch(Candidates(h), needle, mro)
  {
    if Class(CallableName) !in Level(h) {
      ScanIsFirstCandidate(h, 0, needle, mro);
    }
  }

  lemma {:induction false} ScanIsFirstCandidate(h: Chain, i: nat, needle: string, mro: string -> seq<string>)
    requires i <= |Level(h)|
    decreases h, |Level(h)| - i
    ensures Scan(h, i, needle, mro) == FirstMatch(CandidatesFrom(h, i), needle, mro)
  {
    if i < |Level(h)| {
      var e := Level(h)[i];
      ScanIsFirstCandidate(h, i + 1, needle, mro);
      if e.Items? {
        assert e in h.items;
        SearchIsFirstCandidate(e, needle, mro);
        FirstMatchAppend(Candidates(e), CandidatesFrom(h, i + 1), needle, mro);
      } else {
        FirstMatchAppend([e], CandidatesFrom(h, i + 1), needle, mro);
        assert [e][1..] == [];
      }
    }
  }

  /**
    `ClauseBit[T] | None` is operation-bearing: the union unrolls to
    `[Union, (ClauseBit, T), NoneType]`-style chains whose nested tuple holds
    the operation-bit class itself.
   */
  lemma OptionalClauseBit(t: string, mro: string -> seq<string>)
    requires ClauseBitName !in mro("Union") && t != CallableName
    ensures OperationBearing(Generic("Union", [Generic(ClauseBitName, [Plain(t)]), Plain("NoneType")]), mro)
  {
    var inner := Evoke(Generic(ClauseBitName, [Plain(t)]));
    assert inner == Items([Class(ClauseBitName), Class(t)]);
    var h := Evoke(Generic("Union", [Generic(ClauseBitName, [Plain(t)]), Plain("NoneType")]));
    var tuple := Items(EvokeAll([Generic(ClauseBitName, [Plain(t)]), Plain("NoneType")]));
    assert h == Items([Class("Union"), tuple]);
    assert Search(inner, ClauseBitName, mro) == Some(Class(ClauseBitName)) by {
      assert Level(inner)[0] == Class(ClauseBitName);
    }
    assert Level(tuple)[0] == inner;
    assert Scan(tuple, 0, ClauseBitName, mro) == Some(Class(ClauseBitName));
    assert Level(tuple) == [inner, Class("NoneType")];
    assert Search(tuple, ClauseBitName, mro) == Some(Class(ClauseBitName));
    assert Level(h) == [Class("Union"), tuple];
    assert Scan(h, 1, ClauseBitName, mro) == Some(Class(ClauseBitName));
    assert Scan(h, 0, ClauseBitName, mro) == Some(Class(ClauseBitName));
  }

  /** A `Callable[...]` annotation is never operation-bearing, whatever its arguments. */
  lemma CallableNeverBears(args: seq<TypeExpr>, mro: string -> seq<string>)
    ensures !OperationBearing(Generic(CallableName, args), mro)
  {
    assert Level(Evoke(Generic(CallableName, args)))[0] == Class(CallableName);
  }
}

=== FILE: values.dfy ===
/**
  The run-time values that flow through the core.  The operation bits
  (`EQ`, `SET`, `Limit`, ranges, orderings, ...) and the `Empty` sentinel
  belong to an external library; the core only looks at an operation's
  kind (SET, slice, anything else) and at the value it wraps.
 */
module Values {

  /** What the core can tell apart about an operation bit. */
  datatype OpKind =
    | EQ                      // equality; the kind the translators wrap plain values in
    | Slicing(name: string)   // a SliceBit subclass (Limit, Offset, ...)
    | Filtering(name: string) // any other ClauseBit (GE, LE, RANGE, ordering, ...)

  /** An operation bit. `SET(*members)` keeps its members in order. */
  datatype Operation =
    | Set(members: seq<Value>)
    | Op(kind: OpKind, value: Value)

  /** A Python value as the core sees it. */
  datatype Value =
    | Empty                  // the library's "unset" sentinel
    | NoneValue              // Python None
    | Int(i: int)
    | Atom(repr: string)     // any other scalar (uuid, datetime, a plain enum member, ...)
    | Text(s: string)        // a str, which Python counts as a Sequence of characters
    | Tuple(items: seq<Value>) // a list or tuple
    | Bit(op: Operation)

  /** The two boolean connectives (`LogicalOperator.AND/OR`, `operator.and_/or_`). */
  datatype Junction = And | Or

  /** `isinstance(v, collections.abc.Sequence)`: lists, tuples and strings. */
  predicate IsSequence(v: Value)
  {
    v.Text? || v.Tuple?
  }

  /** `isinstance(v, SliceBit)`. */
  predicate IsSlice(v: Value)
  {
    v.Bit? && v.op.Op? && v.op.kind.Slicing?
  }

  /**
    What `for m in value` visits after the translators' wrapping step
    `if not isinstance(value, Sequence): value = (value,)`.
   */
  function Members(v: Value): (ms: seq<Value>)
    ensures !IsSequence(v) ==> ms == [v]
    ensures v.Tuple? ==> ms == v.items
    ensures v.Text? ==> |ms| == |v.s| && forall i :: 0 <= i < |ms| ==> ms[i] == Text([v.s[i]])
  {
    match v
    case Tuple(items) => items
    case Text(s) => seq(|s|, i requires 0 <= i < |s| => Text([s[i]]))
    case _ => [v]
  }

  /** `EQ(v)`: the operation the translators wrap a plain field value in. */
  function Equals(v: Value): Operation
  {
    Op(EQ, v)
  }

  /** `[f(v) for v in vs]`: what both SET rewriters do to the members. */
  function MapValues(vs: seq<Value>, f: Value -> Value): (r: seq<Value>)
    ensures |r| == |vs| && forall i :: 0 <= i < |vs| ==> r[i] == f(vs[i])
  {
    seq(|vs|, i requires 0 <= i < |vs| => f(vs[i]))
  }
}
